=== FILE: README.md ===
# JBubbleBobble core, modelled in Dafny

This project models the game logic of JBubbleBobble, a Java Bubble Bobble
clone, and proves properties of the model. The model covers:

- the object hierarchy: GameObject, MovableObject, Entity, Wall, Player,
  the enemies ZenChan, Mighta and Blubba, Bubble, Boulder and PowerUp;
- rectangle collision detection and its direction classifier;
- every class's position update, with the collision callbacks it triggers;
- the level files and the controller's frame update;
- the delayed level change, game start, pausing and screen switching;
- the key handler's state-transition table;
- user accounts and the text format of the user database;
- the cursor and filter logic of the menu, registration, saved-games and
  ranking screens.

The model is purely functional:

- Every object is an immutable record `Obj`. Its `base`, `motion` and
  `actor` parts follow the class hierarchy, and its `kind` tags the
  concrete class.
- The Java objects, which the lists share by reference, live in a heap,
  `Session.heap`. The controller's lists hold references (indices) into it.
- User accounts are held the same way, in `Session.store`.
- Time is an explicit millisecond parameter `now`, one monotonic clock for both the attack timer and the bubble timer.
- Randomness is a `Dice` value of numbered draws.

| file | module | what it holds |
|---|---|---|
| `wrappers.dfy` | `Wrappers` | `Option` and `Result`: `null` results and thrown exceptions |
| `geometry.dfy` | `Geometry` | `java.awt.Rectangle`, the `(int)` cast, `calculateDirection` |
| `game_objects.dfy` | `GameObjects` | the object record, constructors, setters, `equals` |
| `utility.dfy` | `Utility` | arena constants and `randomPosition` |
| `players.dfy` | `Players` | lives and the invincibility cycle |
| `enemies.dfy` | `Enemies` | the PATROL/CAUGHT/FREED machine and the `move` decisions |
| `entities.dfy` | `Entities` | attack and jump gating, gravity and the jump arc |
| `projectiles.dfy` | `Projectiles` | bubbles and boulders |
| `power_ups.dfy` | `PowerUps` | the points table and the random factory |
| `world.dfy` | `World` | the session, its heap and well-formedness |
| `collisions.dfy` | `Collisions` | `collisionDetection`, every `collision` callback, `onLivesChange` |
| `movement.dfy` | `Movement` | every `updatePosition`/`applyGravity`/`move` scan over the live session |
| `level_map.dfy` | `LevelMap` | the eight levels and the grid reader |
| `users.dfy` | `Users` | the User record and its counters |
| `user_database.dfy` | `UserDatabase` | formatting, parsing, loading and saving, and the list operations |
| `selection.dfy`, `menu_panel.dfy`, `register_panel.dfy`, `scroll_login.dfy`, `rank_panel.dfy` | the screens | cursors, the nickname filter and the ranking sort |
| `controller.dfy` | `Controller` | GameController |
| `key_handler.dfy` | `KeyHandler` | KeyHandler |

The user id counter, user ids and the played, won and lost counters are
Java ints. Every `++` on them is `Users.Inc32`: one more, except that the
largest int steps round to the smallest.

The model follows the code as written, including these behaviours:

- The level change is scheduled 7000 ms after the last enemy goes, although
  the comment beside the delay says five seconds
  (src/Controller/GameController.java:507-515, `Controller.Schedule`).
- A user read back from the file gets the running id counter as its id,
  not the stored id; the counter is then set to the stored id plus one
  (src/Model/UserDatabase.java:108-116; `UserDatabase.SaveLoadRoundTrip`
  states exactly which ids come back).
- `startGame` sets the new player and the level number before it reads
  level 1; when that read throws, the rest of the method, including
  `state = GameState.RUNNING`, does not run
  (src/Controller/GameController.java:290-308, `Controller.StartGame`).
- During a level change the player is moved back to the start before the
  level is read; when the read throws, the lists stay as they were
  (src/Controller/GameController.java:328-337, `Controller.Advance`).
- `randomPosition` draws points until one lies in no hitbox, with no retry
  bound and no fallback position (src/Model/Utility.java:28-39,
  `Utility.RandomPosition`, which reads a finite list of draws).

## Model

| member | source | states |
|---|---|---|
| GameObjects.NewBase | src/Model/GameObject.java:42-57 | a new object holds the given position and size, is visible, is not marked for destruction, and its hitbox is the truncated (x, y, width, height) |
| GameObjects.InitialMotionValues | src/Model/MovableObject.java:53-62 | a movable object starts with speed 2, gravity 3, terminal velocity 4, vertical speed 0, no direction flags set, facing right; an entity starts with a jump impulse of 3.8 and cannot attack |
| GameObjects.NewWall | src/Model/Wall.java:33-36 | a wall is 18 x 18 at the given position, keeps its type, starts visible and not destroyed, and is not collidable |
| GameObjects.SetX | src/Model/GameObject.java:73-75 | only x changes; the hitbox is left as it was |
| GameObjects.SetY | src/Model/GameObject.java:91-93 | only y changes; the hitbox is left as it was |
| GameObjects.SetXLeavesHitboxStale | src/Model/GameObject.java:73-75 | moving to a position with a different truncation leaves the hitbox out of step with the position |
| GameObjects.SetYLeavesHitboxStale | src/Model/GameObject.java:91-93 | the same for y |
| GameObjects.Destroy | src/Model/GameObject.java:107-109 | the object is marked for destruction and nothing else changes |
| GameObjects.SetVisible | src/Model/GameObject.java:125-127 | only the visibility changes |
| GameObjects.UpdateHitbox | src/Model/GameObject.java:132-135 | the hitbox corner becomes the truncated position; its size and the position stay |
| GameObjects.EqualIsEquivalence | src/Model/GameObject.java:171-176 | equality (same class, equal hitboxes) is reflexive, symmetric and transitive |
| GameObjects.Equal | src/Model/GameObject.java:171-176 | two objects are equal exactly when they have the same hitbox and the same Java class: the same kind of object and, for enemies, the same archetype; position fields, motion and state take no part |
| GameObjects.EqualObjectsCollideAlike | src/Model/GameObject.java:171-186 | equal objects are indistinguishable to the intersection test and the direction classifier |
| GameObjects.SetDirection | src/Model/MovableObject.java:79-81 | only the direction changes |
| GameObjects.SetSpeed | src/Model/MovableObject.java:88-90 | only the speed changes |
| GameObjects.SetRight | src/Model/MovableObject.java:106-108 | only the right flag changes |
| GameObjects.SetLeft | src/Model/MovableObject.java:115-117 | only the left flag changes |
| GameObjects.SettersRoundTrip | src/Model/MovableObject.java:70-117 | a value set is the value read back, the last of two sets wins, and the two flag setters commute |
| GameObjects.ObjEvolvesTransitive | src/Model/GameObject.java:20-32 | the allowed evolution of an object (class and size fixed, destruction never undone) composes |
| GameObjects.BaseOperationsEvolve | src/Model/GameObject.java:73-135 | every setter, destroy and updateHitbox keep the class and the size and never clear the destruction mark |
| Geometry.Trunc | src/Model/GameObject.java:56 | the `(int)` cast truncates toward zero, from below for non-negative values and from above for negative ones |
| Geometry.Intersects | src/Model/CollisionDetection.java:79 | the JDK's `Rectangle.intersects` holds exactly when both rectangles have positive size and their half-open x and y intervals overlap |
| Geometry.Contains | src/Model/Utility.java:35 | the JDK's `Rectangle.contains(x, y)` holds exactly when x lies in [x, x + width) and y in [y, y + height) |
| Geometry.IntersectsIffSharedPoint | src/Model/CollisionDetection.java:79 | two rectangles with positive size intersect exactly when some integer point lies in both |
| Geometry.TouchingEdgesMiss | src/Model/CollisionDetection.java:79 | rectangles that only share an edge do not collide |
| Geometry.CalculateDirection | src/Model/CollisionDetection.java:94-117 | the other centre lies in the cone of the returned direction: RIGHT or LEFT only when the horizontal offset strictly dominates and has that sign, BOTTOM when the vertical offset is positive and at least the horizontal one, TOP when it is non-positive and its size at least the horizontal one |
| Geometry.HorizontalOnlyWhenDominant | src/Model/CollisionDetection.java:94-117 | the direction is LEFT or RIGHT exactly when the horizontal centre offset strictly exceeds the vertical one, RIGHT exactly when it also is positive, BOTTOM exactly when the vertical one dominates or ties and is positive |
| Geometry.CoincidentCentresGiveTop | src/Model/CollisionDetection.java:111-115 | coincident centres classify as TOP |
| Geometry.SwapMirrors | src/Model/CollisionDetection.java:100-116 | swapping the two rectangles mirrors the direction when the centres differ |
| Geometry.DirectionDependsOnCentresOnly | src/Model/CollisionDetection.java:94-101 | rectangles with the same centres get the same direction |
| Entities.Attack | src/Model/Entity.java:69-78 | an attack succeeds exactly when attacks are allowed and none is active; success sets the attack and its start time, failure changes nothing |
| Entities.RefreshAttack | src/Model/Entity.java:139-148 | an active attack shows as attacking; one started at least a second ago is cleared with its start time |
| Entities.AttackOncePerSecond | src/Model/Entity.java:69-78 | after a successful attack another fails until a second has passed, and succeeds once it has |
| Entities.SetJump | src/Model/Entity.java:83-88 | a jump starts only when not falling, not jumping and no jump is pending; Blubba never jumps |
| Entities.SetJumpIdempotent | src/Model/Entity.java:83-88 | a second request has no further effect |
| Entities.HorizontalIntent | src/Model/Entity.java:154-166 | the candidate hitbox moves by the speed toward the only flag set, and stays put when both or neither are set |
| Entities.IntentFacing | src/Model/Entity.java:158-166 | the direction follows the only flag set and is kept otherwise |
| Entities.ClampHorizontal | src/Model/Entity.java:174-177 | a LEFT hit puts the candidate flush right of the obstacle, a RIGHT hit flush left of it, vertical hits leave it |
| Entities.ClampSeparates | src/Model/Entity.java:174-177 | after the clamp the candidate no longer overlaps a grid-aligned obstacle |
| Entities.FallSpeed | src/Model/Entity.java:99-102 | the fall speed is accelerated by gravity and never exceeds terminal velocity |
| Entities.FallSpeedSaturates | src/Model/Entity.java:99-102 | from rest the fall speed is 3, then 4, then stays 4 |
| Entities.GravityCandidate | src/Model/Entity.java:104 | the rectangle tried is the truncated position moved down by the fall speed |
| Entities.LandOn | src/Model/Entity.java:109-118 | a BOTTOM hit puts the entity flush on top of the obstacle when falling and under it when rising, and stops the fall |
| Entities.Wrap | src/Model/Entity.java:125-127 | after the step y is below HEIGHT: anything at or past it wraps to 0 |
| Entities.JumpArc | src/Model/Entity.java:199-207 | one jump tick raises the entity by the accumulated speed and takes 0.55 off the impulse; when the impulse runs out the jump ends, the vertical speed is 0 and the impulse resets to 1.9 times the current speed |
| Entities.LandingY | src/Model/Entity.java:212-216 | at the end of a jump, with y growing downward, the entity goes under an overlapping obstacle (y = its bottom) when the entity's top is below the obstacle's middle, and on top of it (the entity's bottom at the obstacle's top) otherwise |
| Entities.ArcDecays | src/Model/Entity.java:200-202 | while the impulse lasts every tick takes exactly 0.55 off it |
| Entities.FreshJumpLastsSevenTicks | src/Model/Entity.java:199-207 | a jump started with impulse 3.8 is still on after six ticks and over after the seventh, with the impulse reset from the speed |
| Entities.ArcShift | src/Model/Entity.java:199-207 | k + 1 ticks are k ticks followed by one |
| Players.NewPlayer | src/Model/Player.java:24-31 | a new player is 24 x 24 at (20, HEIGHT - 40), has two lives, is not invincible and may attack |
| Players.Wounded | src/Model/Player.java:93-96 | a vulnerable player loses exactly one life and becomes invincible; an invincible one is unchanged |
| Players.ArmTimer | src/Model/Player.java:98 | the invincibility timer is set to 90 and nothing else changes |
| Players.IsHit | src/Model/Player.java:93-100 | the hit notifies exactly when the player was not invincible; then one life is gone and the player is invincible for 90 frames, otherwise nothing changes |
| Players.UpdateInvincibility | src/Model/Player.java:107-114 | no effect on a vulnerable player; otherwise the timer counts down and invincibility lasts while it is positive |
| Players.IncreaseLives | src/Model/Player.java:57-60 | exactly one life is added |
| Players.Tick | src/Model/Player.java:107-114 | repeated updates keep the object a player |
| Players.TimerCountsDown | src/Model/Player.java:107-114 | while the timer has not run out each update takes one off it and the player stays invincible with the same lives |
| Players.TickShift | src/Model/Player.java:107-114 | k + 1 updates are k updates followed by one |
| Players.InvincibilityLastsNinetyUpdates | src/Model/Player.java:93-114 | after a landed hit the player is still invincible after 89 updates, absorbs any hit meanwhile, and is vulnerable after the 90th, one life down |
| Players.HitThenExtraLifeRestoresLives | src/Model/Player.java:57-100 | a hit and an extra life cancel out, and a hit kills exactly a player with at most one life |
| Enemies.Patrol | src/Model/Enemy.java:59-62 | PATROL at speed 1.8 (0.9 of the normal speed) |
| Enemies.NewEnemy | src/Model/Enemy.java:34-37 | a new enemy is 20 x 20, patrols at speed 1.8, cannot attack and has no direction flags set |
| Enemies.CaughtBy | src/Model/Enemy.java:42-45 | CAUGHT and invisible; the speed is kept |
| Enemies.Free | src/Model/Enemy.java:50-54 | FREED, visible and speed 2.6 (1.3 times the normal speed, not the patrol speed) whatever the state before |
| Enemies.CaptureAndRelease | src/Model/Enemy.java:42-54 | catching and freeing restore the object's base and leave the enemy faster than on patrol |
| Enemies.Walk | src/Model/Enemy.java:111-127 | the random walk: keep the current heading with n < 90, pick right or left with n below or above 50 when idle, stop otherwise; never both |
| Enemies.WalkNeverReverses | src/Model/Enemy.java:111-127 | an idle enemy always picks exactly one heading, a moving one never turns round in one decision |
| Enemies.Decide | src/Model/Enemy.java:81-132 | a row-aligned enemy heads for the player (no change when level with it); otherwise it jumps with n < 50 when 1 to 4 tiles below the player and with n < 0.5 elsewhere, then walks; a caught enemy ends with neither flag set |
| Enemies.DecideKeepsDirectionsExclusive | src/Model/Enemy.java:81-132 | an enemy that did not head both ways does not after the decision |
| Enemies.MightaGate | src/Model/Mighta.java:33-58 | a Mighta may attack exactly when the player is row-aligned, less than 180 away horizontally, and the Mighta is not caught |
| Enemies.MightaGateBoundaries | src/Model/Mighta.java:13-58 | a caught Mighta never attacks, and at a distance of exactly 180 it may not |
| Enemies.BlubbaVertical | src/Model/Blubba.java:26-51 | Blubba's vertical walk follows the same table with down for right and up for left, is cleared when caught, and never sets both |
| Projectiles.NewBubble | src/Model/Bubble.java:29-34 | a new bubble is 20 x 20 at the given spot facing the given way, with offset 0, able to catch, holding nothing |
| Projectiles.BubbleSteer | src/Model/Bubble.java:38-77 | below the offset limit the bubble flies its way; past it catching is over for good, and it rises until the top band, then heads for the centre column; the arrival time is recorded once, on arrival; the offset always grows by the speed |
| Projectiles.Velocity | src/Model/Bubble.java:78-80 | the signed horizontal speed: left wins over right, none gives 0 |
| Projectiles.BubbleCandidate | src/Model/Bubble.java:83 | the tried rectangle is moved by the velocity, and up by the speed while rising |
| Projectiles.BubbleNeverAimsDown | src/Model/Bubble.java:83 | a bubble at a non-negative height never tries to move down |
| Projectiles.OddColumnNeverCentres | src/Model/Bubble.java:54-67 | in one steering step a bubble on an odd column at speed 2 steps over the centre column 288, does not record its arrival, and its candidate column is odd again |
| Projectiles.Catch | src/Model/Bubble.java:139-145 | a catch happens exactly when the bubble can still catch; it then holds that enemy and can catch no more |
| Projectiles.CatchAtMostOnce | src/Model/Bubble.java:141-144 | a second catch never succeeds and never replaces the enemy held |
| Projectiles.NewBoulder | src/Model/Boulder.java:22-26 | a boulder is 20 x 20, faces the given way and flies at speed 3 (1.5 times normal) |
| Projectiles.BoulderSteer | src/Model/Boulder.java:38-44 | the flags follow the direction, which never changes |
| Projectiles.BoulderCandidate | src/Model/Boulder.java:46-56 | the tried rectangle is moved by the speed in the boulder's direction |
| PowerUps.Points | src/Model/PowerUp.java:83-104 | every type is worth a positive number of points, as the factory's table gives them |
| PowerUps.CreatePowerUp | src/Model/PowerUp.java:83-107 | the power-up carries its type and the table's points for it, 20 x 20 at the spot |
| PowerUps.CreateRandomPowerUp | src/Model/PowerUp.java:110-114 | the drawn index picks one of the ten types, with matching points |
| PowerUps.EveryTypeDrawable | src/Model/PowerUp.java:110-114 | every type has exactly one index that draws it |
| PowerUps.LifeGrantingTypes | src/Model/PowerUp.java:72-104 | exactly the four types CAKE, GRAPE, CARROT and TURNIP give a life, and they are worth 2000, 4000, 30 and 60 points respectively |
| Utility.RandomPosition | src/Model/Utility.java:28-39 | the result is the first candidate no hitbox contains, and there is none exactly when every candidate is covered |
| Utility.RandomPositionInArena | src/Model/Utility.java:31-32 | the chosen point lies in [0, 576) x [0, 432) |
| Collisions.CallbackFrameTransitive | src/Model/CollisionDetection.java:81 | what a collision callback may do to the objects composes over several callbacks: each object keeps its class, hitbox, motion and entity fields; a destroyed one stays destroyed; walls are untouched; position, visibility and class-specific fields may change |
| Collisions.OnLivesChange | src/Controller/GameController.java:566-592 | a dead player ends the game: GAME_OVER, one more lost game and the best score for the current user, the accounts saved, the heap untouched; a living invincible player is put back at (20, HEIGHT - 40) with the hitbox left as it was; otherwise nothing changes |
| Collisions.HitPlayer | src/Model/Player.java:93-100 | a hit on an invincible player changes nothing; otherwise one life goes, the player is invincible with the timer at 90 after the controller has reacted, and only the player changes |
| Collisions.GainLife | src/Model/Player.java:57-60 | exactly one life is added, invincibility is kept, and the controller reacts |
| Collisions.EnemyCollision | src/Model/Enemy.java:143-150 | a player touched by an enemy that is not caught is hit; any other contact changes nothing |
| Collisions.BubbleCollision | src/Model/Bubble.java:137-152 | a bubble that may catch captures an enemy it touches and holds it; a player pops a bubble that holds an enemy, marking both for destruction; anything else changes nothing |
| Collisions.BubbleCatch | src/Model/Bubble.java:139-145 | an enemy touched by a catching bubble is caught and becomes the bubble's prisoner, and the bubble stops catching; only objects change |
| Collisions.BubblePop | src/Model/Bubble.java:146-150 | the popped bubble is marked for destruction, and so is the enemy it holds; only objects change |
| Collisions.BoulderCollision | src/Model/Boulder.java:93-100 | a player is hit and the boulder is marked for destruction; anything else changes nothing |
| Collisions.PowerUpCollision | src/Model/PowerUp.java:68-77 | a player collects the power-up, which is marked for destruction, and gains a life exactly for the four life-giving types; anything else changes nothing |
| Collisions.Respond | src/Model/Player.java:116-119 | walls have no callback and the player's own callback is never dispatched directly |
| Collisions.Collide | src/Model/Player.java:116-119 | every callback stays within what a collision may change |
| Collisions.PlayerCollisionIsMirrored | src/Model/Player.java:117-119 | a player touching something has exactly the effect of that thing touching the player |
| Collisions.Detect | src/Model/CollisionDetection.java:78-85 | a hit exactly when the candidate intersects the other's hitbox, with the direction of the classifier; a miss or a wall runs no callback |
| Collisions.HitRunsCallbackOnce | src/Model/CollisionDetection.java:81 | a hit on a collidable object runs the acting object's callback exactly once |
| Movement.SideScan | src/Model/Entity.java:169-179 | the horizontal scan keeps the candidate's row and size, and its callbacks stay within what a collision may change |
| Movement.NothingBlocksAmongItems | src/Model/Entity.java:170-173 | among power-ups, bubbles and boulders alone the horizontal step is never blocked |
| Movement.FallScan | src/Model/Entity.java:106-120 | the gravity scan stops at the first hit from above and lands there, stopping the fall; otherwise it reports whether the LAST object examined was hit; only the faller's vertical speed and fall flags change |
| Movement.LandHit | src/Model/Entity.java:109-118 | landing on the obstacle hit from above puts the faller just above it when falling and just below it when rising, stops the fall and clears jump and falling; nothing else changes |
| Movement.ClearFallMisses | src/Model/Entity.java:106-121 | with no examined obstacle in the way nothing is hit and the scan changes nothing |
| Movement.StartFall | src/Model/Entity.java:98-102 | the fall speed is set and the entity is marked as falling |
| Movement.FinishFall | src/Model/Entity.java:121-129 | the fall is applied unless the last object examined was hit, the bottom wraps to 0, and the hitbox follows |
| Movement.ApplyGravity | src/Model/Entity.java:97-130 | after gravity the vertical speed is the capped fall speed or 0, y is below HEIGHT, the hitbox is in step, and only the vertical speed and fall flags of the motion change; PowerUp's variant (src/Model/PowerUp.java:34-66) examines every object |
| Movement.GravityScan | src/Model/Entity.java:97-121 | before the fall is applied the vertical speed is the capped fall speed or 0 after a landing, and of the motion and entity fields only that speed and the fall flags change |
| Movement.ClearFall | src/Model/Entity.java:97-130 | with nothing in the way the entity falls by the new fall speed, wrapping at the bottom |
| Movement.PutFrame | src/Model/GameObject.java:20-32 | overwriting an object with one of the same class whose destruction mark is kept is a step of the game |
| Movement.FrameTransitive | src/Model/GameObject.java:20-32 | steps of the game compose |
| Movement.LandingStep | src/Model/Entity.java:209-218 | an obstacle the jumper overlaps sets it on top of or under the obstacle; one it does not overlap changes nothing |
| Movement.LandingScan | src/Model/Entity.java:208-219 | the landing scan stays within what a collision may change |
| Movement.LandingOnNothing | src/Model/Entity.java:208-219 | when the jumper overlaps none of the others the landing scan changes nothing |
| Movement.JumpStep | src/Model/Entity.java:199-222 | one jump tick gives the arc's motion and flags; while the jump lasts the height is the arc's, and the hitbox follows |
| Movement.Land | src/Model/Entity.java:208-221 | the landing at the end of a jump moves the entity only vertically, keeps its motion and flags, and leaves the hitbox in step with the position |
| Movement.SideStep | src/Model/Entity.java:168-184 | the position and hitbox follow the scanned candidate, moving records whether a side was requested, nothing else of the motion changes |
| Movement.GroundStep | src/Model/Entity.java:153-186 | when not jumping the direction follows the request, speed and flags are kept, and after gravity y is below HEIGHT |
| Movement.EntityUpdate | src/Model/Entity.java:138-192 | an attack older than a second is cleared and an active one shows; speed, flags and the attack permission are kept; off a jump the direction follows the request and y stays below HEIGHT; mid-jump the impulse drops by 0.55, and when the jump ends the vertical speed is 0 and the impulse 1.9 times the speed |
| Movement.MoveStep | src/Model/Entity.java:153-189 | off a jump the entity ends below HEIGHT facing the requested way; mid-jump the impulse drops by 0.55 or, at the end, becomes 1.9 times the speed with no vertical speed; speed, the requested directions and the attack fields are kept |
| Movement.PlayerUpdate | src/Model/Player.java:121-125 | the player update is the entity update of the player against `getComponents()`, after which the player is that result with its invincibility timer ticked; every other object and every other field are as the entity update left them |
| Movement.WalkOnEmptyArena | src/Model/Entity.java:158-186 | on an empty arena a standing entity asked to go right moves to the truncated position one speed step right, faces right and is moving |
| Movement.ClampFourWay | src/Model/Blubba.java:87-92 | Blubba is pushed flush against the side it hit; from above its own height sets it on top |
| Movement.VerticalClampSeparates | src/Model/Blubba.java:90-91 | after a vertical clamp the Blubba no longer overlaps a grid-aligned obstacle |
| Movement.FourWayScan | src/Model/Blubba.java:82-94 | the four-way scan keeps the candidate's size and its callbacks stay within what a collision may change |
| Movement.BlubbaCandidate | src/Model/Blubba.java:65-79 | the tried rectangle moves by the speed sideways and up or down for the only vertical request, with no vertical move when both or neither are set |
| Movement.BlubbaUpdate | src/Model/Blubba.java:55-103 | no attack refresh, gravity or jump; the direction follows the request; a candidate equal to the hitbox leaves the Blubba where it was, not moving |
| Movement.BlubbaRisesOnEmptyArena | src/Model/Blubba.java:75-100 | on an empty arena a Blubba asked only to go up rises to the truncated position one speed step higher |
| Movement.EnemyMove | src/Model/Enemy.java:81-134 | one draw for a ZenChan or Mighta and two for a Blubba (src/Model/Blubba.java:26-53); a caught enemy ends with neither flag set; a Mighta may attack exactly in range and not caught (src/Model/Mighta.java:33-41) |
| Movement.SetAndUpdate | src/Model/Enemy.java:133 | after the decision the enemy's position update keeps the requested directions the decision set, and the attack permission of a non-Blubba |
| Movement.CaughtBlubbaStaysPut | src/Model/Blubba.java:48-51 | a captured Blubba stays exactly where it is, whatever the dice say |
| Movement.BubbleScan | src/Model/Bubble.java:87-102 | the bubble's scan keeps the candidate's row and size, and only side hits push it back |
| Movement.Carry | src/Model/Bubble.java:108-111 | the held enemy gets the bubble's coordinates, its hitbox left as it was |
| Movement.Burst | src/Model/Bubble.java:116-121 | five seconds after reaching the top centre the held enemy is freed and the bubble destroyed; before that nothing changes |
| Movement.BubbleUpdate | src/Model/Bubble.java:37-122 | the bubble ends on the candidate's row with its hitbox in step, the held enemy at its coordinates, and destroyed once expired |
| Movement.BubbleMove | src/Model/Bubble.java:37-112 | before the burst the bubble stands on the candidate's row with its hitbox in step and its prisoner at its coordinates |
| Movement.BubbleNeverSinks | src/Model/Bubble.java:83-106 | from a non-negative height a bubble never moves down |
| Movement.BoulderScan | src/Model/Boulder.java:60-70 | any wall on the way marks the boulder for destruction; nothing pushes it back and its motion is kept |
| Movement.BoulderStep | src/Model/Boulder.java:64-69 | a wall the candidate overlaps marks the boulder for destruction; its hitbox and motion, a mark already set, and every wall stay as they were |
| Movement.BoulderUpdate | src/Model/Boulder.java:37-75 | the boulder moves by its speed in its direction whatever it hits, keeps its direction, and is destroyed by any wall on the way |
| Movement.PlaceBoulder | src/Model/Boulder.java:72-74 | the boulder ends at the candidate's whole coordinates with its hitbox in step and its destruction mark unchanged |
| LevelMap.WallTypeOf | src/Model/LevelMap.java:18-92 | LEVEL_k builds its walls with TYPE_k |
| LevelMap.LevelFor | src/Model/LevelMap.java:13-92 | exactly the numbers 1 to 8 name a level, and the level found carries that number |
| LevelMap.ReadRow | src/Model/LevelMap.java:109-122 | the column loop yields, in column order, a wall for each 'W' and a ZenChan, Mighta or Blubba for each 'Z', 'M' or 'B', at 18-pixel steps; other characters only advance x |
| LevelMap.ReadFromFile | src/Model/LevelMap.java:102-125 | the line loop yields the rows' walls and enemies in row-major order, row r at y = 18 r |
| LevelMap.RowFacts | src/Model/LevelMap.java:111-122 | a row has as many walls as 'W's and as many enemies as 'Z', 'M' and 'B' together; every wall has the level's type and the row's y, and the walls come left to right |
| LevelMap.GridFacts | src/Model/LevelMap.java:108-124 | across the grid the counts are those of the characters, every wall has the level's type, and the walls are in row-major order |
| LevelMap.RowWallPlacement | src/Model/LevelMap.java:112-121 | a wall of the level's type stands at (18 c, y) exactly when column c of the row holds a 'W' |
| LevelMap.RowEnemiesAreEnemies | src/Model/LevelMap.java:111-122 | every element of a row's enemy list is a fresh enemy of the archetype named by the letter at some column c ('Z' ZenChan, 'M' Mighta, 'B' Blubba), placed at (18 c, y); the enemies come left to right |
| LevelMap.GridEnemiesAreEnemies | src/Model/LevelMap.java:108-124 | every element of the level's enemy list is an enemy lying above the end of the rows read, and the enemies are in row-major order |
| LevelMap.RowEnemyPlacement | src/Model/LevelMap.java:111-122 | an enemy of a given archetype stands at (18 c, y) in a row exactly when column c holds that archetype's letter |
| LevelMap.GridEnemyPlacement | src/Model/LevelMap.java:108-124 | an enemy of a given archetype stands at (18 c, 18 r) exactly when row r, column c of the file holds that archetype's letter |
| LevelMap.GridWallPlacement | src/Model/LevelMap.java:108-124 | a wall of the level's type stands at (18 c, 18 r) exactly when row r, column c of the file holds a 'W' |
| LevelMap.RowArchetypeCounts | src/Model/LevelMap.java:114-120 | a row holds as many ZenChans as 'Z's, Mightas as 'M's and Blubbas as 'B's |
| LevelMap.GridArchetypeCounts | src/Model/LevelMap.java:108-124 | the level holds as many ZenChans as 'Z's, Mightas as 'M's and Blubbas as 'B's in the file |
| LevelMap.RowEnemyTotal | src/Model/LevelMap.java:114-120 | a row has as many enemies as 'Z', 'M' and 'B' characters together |
| LevelMap.LetterNamesArchetype | src/Model/LevelMap.java:114-120 | a character names an enemy archetype exactly when it is that archetype's letter: 'Z' ZenChan, 'M' Mighta, 'B' Blubba |
| UserDatabase.DigitChar | src/Model/UserDatabase.java:81-88 | each decimal digit is written as the character whose value reads back as that digit |
| UserDatabase.NatToString | src/Model/UserDatabase.java:81-88 | a natural number is written as at least one decimal digit with no leading zero |
| UserDatabase.DigitsRoundTrip | src/Model/UserDatabase.java:98-105 | reading the decimal digits of a natural number gives that number back |
| UserDatabase.IntToString | src/Model/UserDatabase.java:81-88 | String.valueOf(int) writes digits with a leading '-' exactly for negative values |
| UserDatabase.ParseInt | src/Model/UserDatabase.java:98-105 | Integer.parseInt accepts only an optional sign followed by at least one digit, and only values in the 32-bit int range |
| UserDatabase.ParseIntRoundTrip | src/Model/UserDatabase.java:98-105 | every 32-bit int written by String.valueOf parses back to itself |
| UserDatabase.ParseIntRefuses | src/Model/UserDatabase.java:119-121 | a number outside the int range, the empty string, a lone sign and text with a comma raise NumberFormatException |
| UserDatabase.SplitAll | src/Model/UserDatabase.java:93 | the pieces between commas never contain a comma and there is at least one |
| UserDatabase.DropTrailingEmpty | src/Model/UserDatabase.java:93 | String.split drops exactly the trailing empty pieces, keeping the rest as a prefix |
| UserDatabase.Split | src/Model/UserDatabase.java:93 | a line without a comma splits into itself; otherwise no piece holds a comma and the last piece is not empty |
| UserDatabase.JoinSplitAll | src/Model/UserDatabase.java:80-93 | joining the comma-separated pieces of a string with commas restores the string |
| UserDatabase.SplitAllJoin | src/Model/UserDatabase.java:80-93 | splitting a join of comma-free pieces restores the pieces |
| UserDatabase.SplitJoin | src/Model/UserDatabase.java:80-93 | String.split undoes String.join for two or more comma-free pieces whose last piece is not empty |
| UserDatabase.SplitAtDotAfter | src/Model/UserDatabase.java:104 | the text before the first point of a number and its fraction are recovered |
| UserDatabase.ParseLevel | src/Model/UserDatabase.java:104 | a level is accepted only as a signed integer, optionally followed by a point and zeros |
| UserDatabase.FormatLevel | src/Model/UserDatabase.java:87 | a whole-number level below 10^7 in magnitude is written with a trailing ".0" and no comma |
| UserDatabase.ParseLevelRoundTrip | src/Model/UserDatabase.java:87-104 | every level written by the formatter parses back to itself |
| UserDatabase.Fields | src/Model/UserDatabase.java:79-89 | a stored line has exactly eight fields |
| UserDatabase.FieldsSurviveSplit | src/Model/UserDatabase.java:80-94 | when nickname and avatar hold no comma, splitting a formatted line yields exactly its eight fields |
| UserDatabase.FormatUser | src/Model/UserDatabase.java:78-90 | the line splits back into the fields id, nickname, avatar, played, won, lost, level and highest score whenever nickname and avatar hold no comma |
| UserDatabase.ParseUser | src/Model/UserDatabase.java:92-123 | a line without exactly eight fields is refused; an accepted line yields a user whose id is the running counter, whose nickname, avatar and highest score are the fields, and sets the counter to the stored id plus one in int arithmetic (the largest int steps round to the smallest) |
| UserDatabase.ParseFormatRoundTrip | src/Model/UserDatabase.java:78-123 | reading back a formatted line restores every field except the id, which becomes the counter; the counter moves one past the stored id, or round to the smallest int when the stored id is the largest |
| UserDatabase.ExtraFieldRefused | src/Model/UserDatabase.java:93-96 | a line with a ninth non-empty field is refused |
| UserDatabase.JoinAppend | src/Model/UserDatabase.java:80 | joining one more piece adds a comma and that piece |
| UserDatabase.ParseLines | src/Model/UserDatabase.java:60-72 | the load loop reads at most one account per line and every id it assigns is at most the highest id it tracked |
| UserDatabase.LoadUsers | src/Model/UserDatabase.java:53-76 | a missing or empty file changes neither the list nor the counter; otherwise the counter is an int, it ends above every id assigned while all of them are below the largest int, and it is the smallest int once one of them is the largest |
| UserDatabase.ParseLinesHighest | src/Model/UserDatabase.java:62-70 | the highest id the load loop tracks is its starting value 0 or one of the ids it assigned |
| UserDatabase.ParseLinesIdsInRange | src/Model/UserDatabase.java:62-70 | from a counter in the int range every id the load loop assigns is an int |
| UserDatabase.SaveUsers | src/Model/UserDatabase.java:38-45 | the file holds one formatted line per account, in list order |
| UserDatabase.Renumber | src/Model/UserDatabase.java:108-116 | reloading keeps one account per stored account; each later account takes the previous stored id plus one in int arithmetic |
| UserDatabase.ParseSavedLines | src/Model/UserDatabase.java:38-76 | reading saved lines yields the accounts, in order, with the ids the counter hands out |
| UserDatabase.SaveLoadRoundTrip | src/Model/UserDatabase.java:38-76 | saving and reloading keeps every account, in order, with all fields but the id; the first takes the counter and each later one the previous stored id plus one, in int arithmetic |
| UserDatabase.RenumberConsecutive | src/Model/UserDatabase.java:108-116 | when the stored ids are ints running consecutively from the counter the reload keeps them unchanged |
| UserDatabase.AddUser | src/Model/UserDatabase.java:130-132 | the account is appended and the rest of the list is unchanged |
| UserDatabase.IndexOfId | src/Model/UserDatabase.java:161-166 | the position found is the first holding that id; none is found exactly when no account has it |
| UserDatabase.GetUserById | src/Model/UserDatabase.java:161-166 | the first account with that id, and null exactly when there is none |
| UserDatabase.RemoveUserById | src/Model/UserDatabase.java:139-144 | the first account with that id is removed and the rest stay in order; without one the list is unchanged |
| UserDatabase.AddFindRemove | src/Model/UserDatabase.java:130-166 | an account added under a fresh id is found by it, and removing it restores the list |
| Users.Wrap32 | src/Model/User.java:14-21 | the result is a Java int congruent to the exact value modulo 2^32 |
| Users.Inc32 | src/Model/User.java:32 | `++` on an int is one more, except from the largest int, which steps round to the smallest |
| Users.NewUser | src/Model/User.java:31-40 | a new account takes the counter as its id, steps the counter on as a Java int (from the largest int to the smallest), has no games, level 1 and highest score 0 |
| Users.LevelUp | src/Model/User.java:182-184 | the level goes up by one and nothing else changes |
| Users.AfterGame | src/Model/User.java:167 | the level goes up exactly when the games played reach a multiple of ten |
| Users.IncrementWonGames | src/Model/User.java:164-168 | won and played each step on as a Java int (one more, or round to the smallest int from the largest), losses and score stay, and the level rises exactly when played reaches a multiple of ten |
| Users.IncrementLostGames | src/Model/User.java:173-177 | lost and played each step on as a Java int (one more, or round to the smallest int from the largest), wins and score stay, and the level rises exactly when played reaches a multiple of ten |
| Users.NewUserConsistent | src/Model/User.java:31-40 | a new account's statistics are consistent: played is won plus lost and the level is 1 plus played / 10 |
| Users.IncrementsKeepConsistent | src/Model/User.java:164-184 | both increments keep the statistics consistent while the played counter is below the largest int |
| Users.IncrementAtMaxWraps | src/Model/User.java:164-177 | at the largest int, either increment wraps the played counter to the smallest int and the statistics are no longer consistent |
| Users.PlayRecordsHistory | src/Model/User.java:164-184 | after any sequence of games that keeps the played counter within the int range, an account has played them all, won exactly the wins, lost the rest and is at level 1 + played / 10 |
| Selection.CycleUp | src/View/MenuPanel.java:89-92 | moving up from the first entry wraps to the last, otherwise goes one entry up, and stays within the entries |
| Selection.CycleDown | src/View/MenuPanel.java:97-100 | moving down from the last entry wraps to the first, otherwise goes one entry down, and stays within the entries |
| Selection.CycleInverse | src/View/MenuPanel.java:89-100 | moving up and moving down undo each other |
| MenuPanel.NewMenu | src/View/MenuPanel.java:32-33 | the menu opens on NEW GAME |
| MenuPanel.MoveSelectionDown | src/View/MenuPanel.java:97-100 | the cursor goes one option down and wraps from EXIT to NEW GAME |
| MenuPanel.MoveSelectionUp | src/View/MenuPanel.java:89-92 | the cursor stays on one of the three options and moving down afterwards returns it |
| MenuPanel.UpDownInverse | src/View/MenuPanel.java:89-100 | up then down, and down then up, leave the menu as it was |
| MenuPanel.ThreeDownsAreIdentity | src/View/MenuPanel.java:97-100 | three moves down come back to the same option |
| MenuPanel.Icons | src/View/MenuPanel.java:106-114 | a label shows the selection icon exactly when it is the selected option |
| MenuPanel.ExactlyOneIcon | src/View/MenuPanel.java:106-114 | exactly one of the three labels shows the icon |
| RegisterPanel.NewRegister | src/View/RegisterPanel.java:25-54 | the panel opens on the first avatar with an empty nickname |
| RegisterPanel.MoveSelectionDown | src/View/RegisterPanel.java:79-82 | the avatar cursor goes one image on, wrapping from the third to the first, and the nickname is untouched |
| RegisterPanel.MoveSelectionUp | src/View/RegisterPanel.java:71-74 | the avatar cursor stays within the three images, the nickname is untouched, and moving down afterwards returns it |
| RegisterPanel.UpDownInverse | src/View/RegisterPanel.java:71-82 | up then down, and down then up, leave the panel as it was |
| RegisterPanel.CurrentImagePath | src/View/RegisterPanel.java:129-131 | the recorded avatar is always one of the three avatar image paths |
| RegisterPanel.PathIdentifiesImage | src/View/RegisterPanel.java:87-131 | two panels report the same avatar path exactly when they have the same image selected |
| RegisterPanel.FilterInsert | src/View/RegisterPanel.java:149-153 | an insertion is applied exactly when the text would then have at most five characters; a refused one leaves the text alone; a bad offset throws |
| RegisterPanel.FilterRemove | src/View/RegisterPanel.java:163-165 | a removal is always passed on: it deletes exactly the range, and throws when the range leaves the text |
| RegisterPanel.FilterReplace | src/View/RegisterPanel.java:156-160 | a replacement is applied only when the text would then have at most five characters, and then it swaps exactly the range for the new text |
| RegisterPanel.SetText | src/View/RegisterPanel.java:156-160 | setting a nickname of at most five characters replaces the text and puts the caret at its end; a longer one leaves the field unchanged |
| RegisterPanel.RemoveAt | src/View/RegisterPanel.java:163-165 | removing one character inside the text deletes exactly it and moves the caret back when it stood after it; outside the text it fails |
| RegisterPanel.NicknameNeverExceedsLimit | src/View/RegisterPanel.java:136-166 | no edit the filter lets through makes a nickname of at most five characters longer than five |
| ScrollLogin.NewLogin | src/View/ScrollLogin.java:35-39 | the list opens on the first user with one panel per user |
| ScrollLogin.SetUsers | src/View/ScrollLogin.java:121-125 | the cursor returns to the top; the panels are rebuilt for a non-empty list and kept for an empty one |
| ScrollLogin.MoveSelectionUp | src/View/ScrollLogin.java:139-144 | the cursor goes up by one exactly when it is not on the first panel |
| ScrollLogin.MoveSelectionDown | src/View/ScrollLogin.java:149-154 | the cursor goes down by one exactly when it is not on the last panel |
| ScrollLogin.MovesUndo | src/View/ScrollLogin.java:139-154 | a move that happened is undone by the opposite move |
| ScrollLogin.SelectedUser | src/View/ScrollLogin.java:132-134 | the selection is the user at the cursor, and an IndexOutOfBoundsException exactly when the cursor is outside the list |
| ScrollLogin.SelectionSucceedsIffUsers | src/View/ScrollLogin.java:35-154 | with panels built for the current list, selecting succeeds exactly when the list is non-empty |
| RankPanel.WithKey | src/View/RankPanel.java:46-51 | the users sharing a score form a sub-list |
| RankPanel.Insert | src/View/RankPanel.java:46-51 | inserting adds exactly the one user to the list |
| RankPanel.Sort | src/View/RankPanel.java:46-51 | the sort is a permutation of the list |
| RankPanel.InsertKeepsDescending | src/View/RankPanel.java:46-51 | inserting into a list in descending score order keeps it in that order |
| RankPanel.InsertWithKey | src/View/RankPanel.java:46-51 | inserting puts the new user in front of those sharing its score and leaves their order alone |
| RankPanel.SortDescending | src/View/RankPanel.java:46-51 | the sorted list is in descending order of highest score |
| RankPanel.SortStable | src/View/RankPanel.java:46-51 | users with the same score keep their relative order |
| RankPanel.CreateDisplay | src/View/RankPanel.java:39-51 | an empty list is left alone and only the placeholder is shown; otherwise the list becomes a stable, descending-by-score permutation of itself |
| Users.RecordScore | src/Controller/GameController.java:320-322 | the best score becomes the points of the game when they beat it, and stays otherwise |
| World.Components | src/Controller/GameController.java:206-215 | getComponents lists the player first, then the walls, the enemies and the other objects |
| World.RemoveFirstEqual | src/Model/Entity.java:150 | `others.remove(this)` drops exactly the first element that equals the object by class and hitbox, keeping the rest in order, and drops nothing when none does |
| World.Save | src/Controller/GameController.java:324 | `db.saveUsersData(file)` leaves the file holding one formatted line per account of the database's list, in that order, and changes nothing else |
| Controller.LevelComponent | src/Controller/GameController.java:263-284 | levels 1 to 8 give that level's walls, all of its wall type, and its enemies; any other number throws IllegalArgumentException |
| Controller.Install | src/Controller/GameController.java:294-297 | the level's walls and enemies become the lists, in order, the object list is emptied and nothing already existing changes |
| Controller.Reposition | src/Controller/GameController.java:589-592 | the player is moved to (20, HEIGHT - 40) and nothing else changes |
| Controller.CreditVictory | src/Controller/GameController.java:319-327 | the current user gains a won game and keeps the better of its best score and the points, then the accounts are saved |
| Controller.ChangeLevel | src/Controller/GameController.java:314-341 | the level number goes up; past level 8 the game is won and the lists stay; otherwise the player is back at the start and, when the level loads, its walls and enemies replace the lists and the objects are cleared |
| Controller.Triumph | src/Controller/GameController.java:316-327 | past the last level the state becomes VICTORY, the current user gains a won game and a best score at least the points, and the accounts are saved; the objects and lists are untouched |
| Controller.Advance | src/Controller/GameController.java:328-340 | the player is back at (20, HEIGHT - 40) with its lives kept; when the level loads its walls and enemies become the lists and the objects are cleared, otherwise the lists stay |
| Controller.LevelTimer | src/Controller/GameController.java:509-515 | once due, the timer task changes the level and clears the scheduled flag; before that nothing happens |
| Controller.SpawnPowerUp | src/Controller/GameController.java:462-465 | a destroyed enemy leaves one new random power-up appended to the objects, at a spot no component's hitbox contains |
| Controller.Retire | src/Controller/GameController.java:461-471 | a destroyed element leaves the list at the cursor; an enemy adds a power-up to the objects and a power-up adds its points |
| Controller.RetireEnemy | src/Controller/GameController.java:462-465 | a destroyed enemy leaves the list and one power-up is appended to the objects, unless the sampler has not found a free spot yet; the points stay |
| Controller.RetireItem | src/Controller/GameController.java:466-470 | a destroyed object leaves the list and adds its points when it is a power-up; the enemies stay |
| Controller.ThrowBoulder | src/Controller/GameController.java:476-482 | a Mighta's boulder appears one body width ahead of it, at its height, heading its way |
| Controller.EnemyAct | src/Controller/GameController.java:473-486 | every live enemy tries to attack and moves; exactly the Mighta whose attack starts adds one boulder |
| Controller.Act | src/Controller/GameController.java:472-490 | a live element acts without changing the list being walked or the points |
| Controller.ActOn | src/Controller/GameController.java:472-490 | an element acts as an enemy when it is one and as an item otherwise, without changing the list being walked or the points; walking the object list changes neither list |
| Controller.ItemAct | src/Controller/GameController.java:487-490 | a bubble, boulder or power-up runs its own position update, which only moves and marks objects; anything else is left as it was |
| Controller.RemoveAt | src/Controller/GameController.java:470 | iterator.remove drops exactly the element at the cursor, keeping the order of the rest |
| Controller.RemoveAtSubsequence | src/Controller/GameController.java:470 | what iterator.remove leaves is a subsequence of the list it removed from |
| Controller.SubsequenceReflexive | src/Controller/GameController.java:457-493 | a list the iterator walks without removing anything is a subsequence of itself |
| Controller.SubsequenceTransitive | src/Controller/GameController.java:457-493 | removals at successive cursor positions compose: a subsequence of a subsequence is a subsequence |
| Controller.Sweep | src/Controller/GameController.java:457-493 | walking a list removes exactly the elements marked for destruction; the list left is a subsequence of the list walked (an increasing index map into it) with the part before the cursor untouched; each enemy removed adds a power-up to the objects |
| Controller.Step | src/Controller/GameController.java:500-503 | a frame keeps the session well formed, and every enemy that left the list was marked for destruction |
| Controller.SweepsDestroy | src/Controller/GameController.java:502-503 | an enemy removed by the enemy sweep is still marked after the object sweep |
| Controller.Update | src/Controller/GameController.java:499-518 | outside RUNNING nothing happens; otherwise a level change is pending afterwards exactly when one was already pending or no enemy is left, and a new one is due 7000 ms later |
| Controller.Schedule | src/Controller/GameController.java:506-516 | a level change is scheduled 7000 ms ahead only when no enemy is left and none is pending |
| Controller.StartGame | src/Controller/GameController.java:290-308 | a fresh player at level 1; when level 1 loads, its walls and enemies, no objects, zero points and RUNNING; when it does not, the call stops after setting the player and the level |
| Controller.FreshPlayer | src/Controller/GameController.java:291-293 | a new player object, two lives at (20, HEIGHT - 40), becomes the player and the level is 1; no existing object changes |
| Controller.Begin | src/Controller/GameController.java:295-303 | the loaded walls and enemies become the lists, the objects are emptied, the points are 0 and the state RUNNING; the player is untouched |
| Controller.PlayerBubble | src/Controller/GameController.java:415-426 | when the player's attack starts a bubble appears one body width ahead, at its height, heading its way; otherwise nothing changes |
| Controller.OneBubblePerAttack | src/Controller/GameController.java:415-426 | a second bubble with no update in between adds nothing, whatever its time |
| Controller.Pause | src/Controller/GameController.java:346-350 | RUNNING becomes PAUSE and nothing else changes; other states are left alone |
| Controller.Resume | src/Controller/GameController.java:355-359 | PAUSE becomes RUNNING and nothing else changes; other states are left alone |
| Controller.PauseResumeInverse | src/Controller/GameController.java:346-359 | pausing and resuming undo each other, and a paused game does not update |
| Controller.Ranked | src/Controller/GameController.java:551-552 | the ranking reorders the database's own list into a permutation in descending order of best score |
| Controller.ChangePanel | src/Controller/GameController.java:524-560 | the state becomes the panel; LOGIN rebuilds the saved-games list with the cursor at the top, RANK sorts the database list by best score; nothing else changes |
| Controller.RankKeepsTies | src/Controller/GameController.java:551-552 | users with equal best scores keep their order in the ranking |
| Controller.AddUser | src/Controller/GameController.java:366-374 | a new account with the next id, the given nickname and avatar, becomes the current user, is appended to the database, and the database is saved; the id counter steps on as a Java int, from the largest int to the smallest |
| KeyHandler.KeyTyped | src/Controller/KeyHandler.java:53-62 | on the registration screen a printable character is appended to a nickname shorter than five characters, with the caret after it; anything else changes nothing |
| KeyHandler.HandleBackspace | src/Controller/KeyHandler.java:217-228 | the character before the caret is deleted and the caret moves back; at the start nothing changes |
| KeyHandler.HandleDelete | src/Controller/KeyHandler.java:233-244 | the character after the caret is deleted and the caret stays; at the end nothing changes |
| KeyHandler.TypeThenBackspace | src/Controller/KeyHandler.java:53-62 | typing a character into a nickname with room left and erasing it with backspace restores the nickname |
| KeyHandler.WithPlayer | src/Controller/GameController.java:432-449 | updating the player touches no other object |
| KeyHandler.Launch | src/Controller/KeyHandler.java:140-141 | the game runs after startGame exactly when level 1 loads; the current user is kept |
| KeyHandler.LoginKey | src/Controller/KeyHandler.java:128-144 | the arrows move the cursor, N goes to the menu, ENTER plays as the selected user and does nothing when the list is empty |
| KeyHandler.MenuKey | src/Controller/KeyHandler.java:151-167 | the arrows move the cursor; ENTER opens registration, the saved games, or exits on EXIT; N goes to the start screen |
| KeyHandler.RegisterKey | src/Controller/KeyHandler.java:174-191 | the arrows change the avatar, BACKSPACE and DELETE edit the nickname, ENTER registers the nickname with the shown avatar and starts level 1, N goes to the menu |
| KeyHandler.RegisterEnter | src/Controller/KeyHandler.java:184-187 | ENTER appends a new account with the typed nickname and the shown avatar, makes it current and adds it to the database list, and starts level 1 |
| KeyHandler.RunningKey | src/Controller/KeyHandler.java:198-212 | P pauses, SPACE jumps, the arrows start moving, Z blows a bubble, S changes the level |
| KeyHandler.KeyPressed | src/Controller/KeyHandler.java:70-105 | the key is handled according to the game state; only ENTER on EXIT in the menu ends the program |
| KeyHandler.KeyReleased | src/Controller/KeyHandler.java:113-121 | while RUNNING, releasing an arrow stops moving that way; nothing else changes |
| KeyHandler.PauseKeyRoundTrip | src/Controller/KeyHandler.java:70-105 | P pauses a running game and P again resumes it exactly as it was |
| KeyHandler.PressReleaseRoundTrip | src/Controller/KeyHandler.java:113-121 | pressing and releasing LEFT restores the session when LEFT was not already held |
| KeyHandler.StartToRegister | src/Controller/KeyHandler.java:95-96 | ENTER on the start screen and ENTER on NEW GAME reach the registration screen |

## Left out

- Swing rendering and layout are not modelled: GamePanel, PlayerView, MainFrame, the panels' widgets, images and fonts. From the four screens only the cursor, the nickname filter and the ranking sort are kept.
- Audio playback (AudioManager) is not modelled; it has no effect on the game state.
- File I/O is not modelled. A level file or the user file is given as its lines. A level whose file cannot be read is one missing from `Session.levelFiles`. An IOException while saving is not modelled: `Session.saved` always receives the lines.
- The frame loop `run()`, its FPS counter and `System.nanoTime` are not modelled. One frame is one call of `Controller.Update`.
- `java.util.Timer` is replaced by the pending flag `levelChangeScheduled`, its due time, and the explicit firing step `Controller.LevelTimer`. The timer thread racing a frame update is not modelled: the task runs between two frames.
- `java.util.Random` is replaced by the `Dice` parameter. `randomPosition` samples until it finds a free spot; the model only sees the finite list of candidates `Dice` supplies. When none of them is free, `Controller.Update` returns `None`, where the source would still be sampling (and loops forever in a saturated arena).
- Double arithmetic is exact `real` arithmetic, without IEEE-754 rounding. The `(int)` cast truncates toward zero and does not saturate at the int range.
- `exitGame` (`System.exit`) is the `None` result of `KeyHandler.MenuKey` and `KeyHandler.KeyPressed`.
- The observers of the views, and notifications to them, are not modelled. The player's `onLivesChange` notification to the controller is modelled (`Collisions.OnLivesChange`).
- The `gc != null` tests of the key handler are not modelled: the controller is always present.
- A missing current user is not modelled as an exception. In `changeLevel` and `onLivesChange` the source would throw a NullPointerException after switching the panel; the model switches the panel and skips the account bookkeeping. The key handler sets a current user before every `startGame`, so a running game always has one.
- A session that is not well formed is not given a meaning. In one, the player or a wall could stand in the enemy or object list; there `Controller.Act` leaves the session unchanged.
- `ConcurrentModificationException` is not modelled because it cannot arise. The enemy sweep never adds to the enemy list, and the object sweep never adds to the object list (`Controller.Act`, `Controller.Sweep`).
- `GameObject.hashCode` is not modelled: `java.awt.Rectangle.hashCode` works on the bit patterns of doubles. It is a function of the hitbox alone, and `GameObjects.Equal` compares exactly the hitboxes and classes, so equal objects hash alike.
- `User.toString`, the plain getters and setters, and `UserDatabase.getInstance` are not modelled, as they hold no logic beyond a field access.
- Users.User: `level` is an `int`, not a `double`. Every level the game produces is a whole number.
- UserDatabase.ParseLevel: `Double.parseDouble` accepts more than a signed integer followed by an optional point and zeros. It also accepts fractions, exponents, surrounding blanks and `NaN`. A stored line with such a level is refused here rather than read.
- Users.IncrementsKeepConsistent: holds only while the played counter is below the largest int; at the largest int the counter wraps to the smallest and consistency fails, as `Users.IncrementAtMaxWraps` states.
- Users.PlayRecordsHistory: covers only histories after which the played counter is still an int (at most 2^31 - 1 games); beyond that the counters wrap as `Users.Inc32` states.
- UserDatabase.FormatLevel: every level is written in plain digits followed by ".0". From a magnitude of 10^7 on, Java's `Double.toString` switches to scientific notation (10^7 is written "1.0E7"), and the contract's "ends in '0'" is then false of the source. `UserDatabase.ParseLevelRoundTrip` and `UserDatabase.SaveLoadRoundTrip` inherit this: they are about the plain form only. A level that large needs about 10^8 recorded games.
- UserDatabase.ParseInt: Java's `Integer.parseInt` also accepts non-ASCII Unicode digits; only ASCII digits are accepted here.
- PowerUps.Points: the contract says only that every type is worth a positive number of points. The table itself is the function's body, and `PowerUps.LifeGrantingTypes` states the value of each of the four life-granting types.
- Entities.RefreshAttack: time is one monotonic millisecond count `now`, and the model clears an attack once `now` is 1000 ms past its start. The source measures an attack with `LocalTime.now()`, a time of day in [00:00, 24:00), and clears it only when `Duration.between(start, now).getSeconds() >= 1`, that is, at a frame whose time of day falls in [start + 1 s, 24:00). An attack started at 23:59:59 or later is therefore never cleared: that entity never attacks again, so the player blows no bubble until a new game creates a new Player, and a Mighta never throws again. An attack started earlier is cleared only if some later frame falls in that window; once midnight has passed without one, it stays until the window comes round again.
- Entities.AttackOncePerSecond: for the same reason, "a refresh at least a second later re-arms the attack" holds in the source only when that refresh happens at a time of day in [start + 1 s, 24:00). An attack started at 23:59:59 or later is never re-armed.
- Movement.BubbleNeverSinks: stated only for a bubble at a non-negative height with a non-negative speed. Above the arena's top edge, truncation toward zero can round the candidate row down, below the bubble.

=== FILE: collisions.dfy ===
/** Collision detection against the live session and the `collision`
    callbacks of every Collidable class (src/Model/CollisionDetection.java,
    Player, Enemy, Bubble, Boulder and PowerUp), together with the
    controller's reaction to a change of lives, which the player notifies
    synchronously from inside a callback. */
module Collisions {
  import opened Wrappers
  import opened Geometry
  import opened GameObjects
  import opened World
  import Players
  import Enemies
  import Projectiles
  import PowerUps
  import Users
  import UserDatabase

  /** The outcome of a detection: a miss carries no direction. */
  datatype Detection = Miss | Hit(direction: CollisionDirection)

  /** What any step of the game may change: objects (never their class),
      the game state, the accounts and the saved file; the lists stay. */
  predicate Frame(s: Session, t: Session)
  {
    && SameClasses(s, t)
    && t == s.(heap := t.heap, state := t.state, store := t.store, saved := t.saved)
    && |t.store| == |s.store|
  }

  /** What a callback may do to one object: move it, hide or show it, mark
      it destroyed, or change its class-specific fields; never its hitbox,
      its movement or entity fields, never un-destroy it, never touch a wall. */
  predicate CallbackStep(a: Obj, b: Obj)
  {
    && b.motion == a.motion && b.actor == a.actor && b.base.hitbox == a.base.hitbox
    && (a.base.toDestroy ==> b.base.toDestroy)
    && (a.kind.Wall? ==> b == a)
  }

  /** A callback, in addition, changes every object only as CallbackStep
      allows. */
  predicate CallbackFrame(s: Session, t: Session)
  {
    && Frame(s, t)
    && forall q: nat | q < |s.heap| :: CallbackStep(Get(s, q), Get(t, q))
  }

  lemma CallbackFrameTransitive(a: Session, b: Session, c: Session)
    requires CallbackFrame(a, b) && CallbackFrame(b, c)
    ensures CallbackFrame(a, c)
  {
  }

  lemma FrameKeepsNonWall(s: Session, t: Session, r: Ref)
    requires Frame(s, t) && Refers(s, r) && !Get(s, r).kind.Wall?
    ensures Refers(t, r) && !Get(t, r).kind.Wall?
  {
    assert Keeps(s.heap[r], t.heap[r]);
  }

  /** Marking an object other than a wall destroyed is a callback's step. */
  lemma DestroyCallback(s: Session, r: Ref)
    requires !Get(s, r).kind.Wall?
    ensures CallbackFrame(s, Put(s, r, Destroy(Get(s, r))))
  {
    PutCallback(s, r, Destroy(Get(s, r)));
  }

  lemma PutCallback(s: Session, r: Ref, o: Obj)
    requires Keeps(Get(s, r), o) && CallbackStep(Get(s, r), o)
    ensures CallbackFrame(s, Put(s, r, o))
  {
    PutSameClass(s, r, o);
  }

  /** GameController.onLivesChange. A dead player ends the game: GAME_OVER,
      one more lost game and the best score for the current user, and the
      accounts are saved. A living, invincible player is put back at the
      start position (y first, then x; the hitbox is left as it was). */
  function OnLivesChange(s: Session): (t: Session)
    ensures CallbackFrame(s, t)
    ensures forall q :: q != s.player ==> Get(t, q) == Get(s, q)
    ensures Get(t, s.player).kind == Get(s, s.player).kind
    ensures Get(t, s.player).base.hitbox == Get(s, s.player).base.hitbox
    ensures var p := Get(s, s.player);
            p.kind.Player? && Players.IsDead(p) ==>
              && t.state == GameOver && t.heap == s.heap
              && (s.currentUser.Some? && s.currentUser.value < |s.store| ==>
                    var u := s.currentUser.value;
                    && t.store == s.store[u := Users.RecordScore(Users.IncrementLostGames(s.store[u]), s.points)]
                    && t.saved == UserDatabase.SaveUsers(DbUsers(t)))
    ensures var p := Get(s, s.player);
            p.kind.Player? && !Players.IsDead(p) && p.kind.invincible ==>
              && s.player < |s.heap|
              && Get(t, s.player).base == p.base.(x := Players.START_X, y := Players.START_Y)
              && t.state == s.state && t.store == s.store && t.saved == s.saved
    ensures var p := Get(s, s.player);
            !(p.kind.Player? && (Players.IsDead(p) || p.kind.invincible)) ==> t == s
  {
    var p := Get(s, s.player);
    if !p.kind.Player? then s
    else if Players.IsDead(p) then
      var s1 := s.(state := GameOver);
      match s.currentUser
      case None => s1
      case Some(u) =>
        if u < |s.store| then
          Save(s1.(store := s.store[u := Users.RecordScore(Users.IncrementLostGames(s.store[u]), s.points)]))
        else s1
    else if p.kind.invincible then
      Put(s, s.player, SetX(SetY(p, Players.START_Y), Players.START_X))
    else s
  }

  /** Player.isHit with its notification: a vulnerable player loses a life,
      becomes invincible, the controller reacts, and then the timer is armed. */
  function HitPlayer(s: Session, p: Ref): (t: Session)
    requires Get(s, p).kind.Player?
    ensures CallbackFrame(s, t)
    ensures Get(s, p).kind.invincible ==> t == s
    ensures !Get(s, p).kind.invincible ==>
              Get(t, p).kind == Player(Get(s, p).kind.lives - 1, true, Players.INVINCIBILITY_DURATION)
    ensures forall q :: q != p && q != s.player ==> Get(t, q) == Get(s, q)
  {
    var r := Players.IsHit(Get(s, p));
    if !r.1 then s
    else
      var s1 := Put(s, p, Players.Wounded(Get(s, p)));
      var s2 := OnLivesChange(s1);
      Put(s2, p, Players.ArmTimer(Get(s2, p)))
  }

  /** Player.increaseLives with its notification. */
  function GainLife(s: Session, p: Ref): (t: Session)
    requires Get(s, p).kind.Player? && p < |s.heap|
    ensures CallbackFrame(s, t)
    ensures Get(t, p).kind.lives == Get(s, p).kind.lives + 1
    ensures Get(t, p).kind.invincible == Get(s, p).kind.invincible
    ensures forall q :: q != p && q != s.player ==> Get(t, q) == Get(s, q)
  {
    OnLivesChange(Put(s, p, Players.IncreaseLives(Get(s, p))))
  }

  /** Enemy.collision: a player is hurt by an enemy that is not captured;
      anything else is ignored. */
  function EnemyCollision(s: Session, e: Ref, o: Ref): (t: Session)
    requires Get(s, e).kind.Enemy?
    ensures CallbackFrame(s, t)
    ensures !(Get(s, o).kind.Player? && Enemies.HurtsPlayer(Get(s, e))) ==> t == s
    ensures Get(s, o).kind.Player? && Enemies.HurtsPlayer(Get(s, e)) && !Get(s, o).kind.invincible ==>
              Get(t, o).kind.lives == Get(s, o).kind.lives - 1 && Get(t, o).kind.invincible
  {
    if Get(s, o).kind.Player? && Enemies.HurtsPlayer(Get(s, e)) then HitPlayer(s, o) else s
  }

  /** Bubble.collision: a bubble that may still catch captures an enemy it
      touches; a player pops a bubble that holds an enemy, destroying both. */
  function BubbleCollision(s: Session, b: Ref, o: Ref): (t: Session)
    requires Get(s, b).kind.Bubble?
    ensures CallbackFrame(s, t)
    ensures t.state == s.state && t.store == s.store && t.saved == s.saved
    ensures var bub, other := Get(s, b), Get(s, o);
            other.kind.Enemy? && bub.kind.canCatch ==>
              && Get(t, o) == Enemies.CaughtBy(other)
              && Get(t, b) == Projectiles.Catch(bub, o).0
              && Get(t, b).kind.caughtEnemy == Some(o)
    ensures var bub, other := Get(s, b), Get(s, o);
            other.kind.Player? && bub.kind.caughtEnemy.Some? && bub.kind.caughtEnemy.value != b
            && bub.kind.caughtEnemy.value < |s.heap| && Get(s, bub.kind.caughtEnemy.value).kind.Enemy? ==>
              Get(t, b).base.toDestroy && Get(t, bub.kind.caughtEnemy.value).base.toDestroy
    ensures var bub, other := Get(s, b), Get(s, o);
            !(other.kind.Enemy? && bub.kind.canCatch) && !(other.kind.Player? && bub.kind.caughtEnemy.Some?) ==>
              t == s
  {
    var bub, other := Get(s, b), Get(s, o);
    if other.kind.Enemy? then
      if bub.kind.canCatch then BubbleCatch(s, b, o) else s
    else if other.kind.Player? then
      match bub.kind.caughtEnemy
      case Some(e) => BubblePop(s, b, e)
      case None => s
    else s
  }

  /** A catching bubble takes the enemy it touches. */
  function BubbleCatch(s: Session, b: Ref, o: Ref): (t: Session)
    requires Get(s, b).kind.Bubble? && Get(s, b).kind.canCatch && Get(s, o).kind.Enemy?
    ensures CallbackFrame(s, t) && t == s.(heap := t.heap)
    ensures Get(t, o) == Enemies.CaughtBy(Get(s, o))
    ensures Get(t, b) == Projectiles.Catch(Get(s, b), o).0
    ensures Get(t, b).kind.caughtEnemy == Some(o)
  {
    var s1 := Put(s, o, Enemies.CaughtBy(Get(s, o)));
    Put(s1, b, Projectiles.Catch(Get(s1, b), o).0)
  }

  /** A popped bubble is destroyed, and so is the enemy it holds. */
  function BubblePop(s: Session, b: Ref, e: Ref): (t: Session)
    requires Get(s, b).kind.Bubble?
    ensures CallbackFrame(s, t) && t == s.(heap := t.heap)
    ensures Get(t, b).base.toDestroy
    ensures e != b && Get(s, e).kind.Enemy? ==> Get(t, e).base.toDestroy
  {
    var s1 := if Get(s, e).kind.Enemy? then Put(s, e, Destroy(Get(s, e))) else s;
    Put(s1, b, Destroy(Get(s1, b)))
  }

  /** Boulder.collision: a player is hit and the boulder is spent; anything
      else is ignored. */
  function BoulderCollision(s: Session, b: Ref, o: Ref): (t: Session)
    requires Get(s, b).kind.Boulder?
    ensures CallbackFrame(s, t)
    ensures !Get(s, o).kind.Player? ==> t == s
    ensures Get(s, o).kind.Player? && b < |s.heap| ==> Get(t, b).base.toDestroy
    ensures Get(s, o).kind.Player? && !Get(s, o).kind.invincible ==>
              Get(t, o).kind.lives == Get(s, o).kind.lives - 1 && Get(t, o).kind.invincible
  {
    if Get(s, o).kind.Player? then
      var s1 := HitPlayer(s, o);
      FrameKeepsNonWall(s, s1, b);
      DestroyCallback(s1, b);
      CallbackFrameTransitive(s, s1, Put(s1, b, Destroy(Get(s1, b))));
      Put(s1, b, Destroy(Get(s1, b)))
    else s
  }

  /** PowerUp.collision: a player collects it, gaining a life for a cake,
      grapes, a carrot or a turnip; anything else is ignored. */
  function PowerUpCollision(s: Session, u: Ref, o: Ref): (t: Session)
    requires Get(s, u).kind.PowerUp?
    ensures CallbackFrame(s, t)
    ensures !Get(s, o).kind.Player? ==> t == s
    ensures Get(s, o).kind.Player? && u < |s.heap| ==> Get(t, u).base.toDestroy
    ensures Get(s, o).kind.Player? && o < |s.heap| ==>
              Get(t, o).kind.lives
              == Get(s, o).kind.lives + (if PowerUps.GrantsLife(Get(s, u).kind.powerUpType) then 1 else 0)
  {
    if Get(s, o).kind.Player? then
      var s1 := if PowerUps.GrantsLife(Get(s, u).kind.powerUpType) && o < |s.heap| then GainLife(s, o) else s;
      FrameKeepsNonWall(s, s1, u);
      DestroyCallback(s1, u);
      CallbackFrameTransitive(s, s1, Put(s1, u, Destroy(Get(s1, u))));
      Put(s1, u, Destroy(Get(s1, u)))
    else s
  }

  /** The `collision` method of the class of `a`, applied to `o`. Player's
      own method hands the call back to the other object, so it never
      reaches this dispatch; walls have no method. */
  function Respond(s: Session, a: Ref, o: Ref): (t: Session)
    ensures CallbackFrame(s, t)
    ensures Get(s, a).kind.Wall? || Get(s, a).kind.Player? ==> t == s
  {
    match Get(s, a).kind
    case Enemy(_, _, _, _) => EnemyCollision(s, a, o)
    case Bubble(_, _, _, _, _, _) => BubbleCollision(s, a, o)
    case Boulder => BoulderCollision(s, a, o)
    case PowerUp(_, _) => PowerUpCollision(s, a, o)
    case _ => s
  }

  /** `a.collision(o)`: for a player, `o.collision(player)`. */
  function Collide(s: Session, a: Ref, o: Ref): (t: Session)
    ensures CallbackFrame(s, t)
  {
    if Get(s, a).kind.Player? then Respond(s, o, a) else Respond(s, a, o)
  }

  /** A player bumping into something has exactly the effect of that thing
      bumping into the player. */
  lemma PlayerCollisionIsMirrored(s: Session, p: Ref, o: Ref)
    requires Get(s, p).kind.Player? && !Get(s, o).kind.Player?
    ensures Collide(s, p, o) == Collide(s, o, p)
  {
  }

  /** CollisionDetection.collisionDetection: a hit iff the candidate
      rectangle overlaps the other's hitbox; the direction is taken before
      the callback, which runs once and only for a Collidable other. */
  function Detect(s: Session, a: Ref, candidate: Rect, o: Ref): (r: (Session, Detection))
    ensures CallbackFrame(s, r.0)
    ensures r.1.Hit? <==> Intersects(candidate, Get(s, o).base.hitbox)
    ensures r.1.Hit? ==> r.1.direction == CalculateDirection(candidate, Get(s, o).base.hitbox)
    ensures r.1.Miss? ==> r.0 == s
    ensures !IsCollidable(Get(s, o)) ==> r.0 == s
  {
    var h := Get(s, o).base.hitbox;
    if Intersects(candidate, h) then
      var dir := CalculateDirection(candidate, h);
      if IsCollidable(Get(s, o)) then (Collide(s, a, o), Hit(dir)) else (s, Hit(dir))
    else (s, Miss)
  }

  /** A hit on a collidable object runs exactly the acting object's callback. */
  lemma HitRunsCallbackOnce(s: Session, a: Ref, candidate: Rect, o: Ref)
    requires Intersects(candidate, Get(s, o).base.hitbox) && IsCollidable(Get(s, o))
    ensures Detect(s, a, candidate, o).0 == Collide(s, a, o)
  {
  }
}

=== FILE: controller.dfy ===
/** GameController (src/Controller/GameController.java): the level table, the
    frame update with its sweeps over the enemy and object lists, the delayed
    level change, starting a game, the player's bubble, pausing, switching
    screens and registering a user. */
module Controller {
  import opened Wrappers
  import opened Geometry
  import opened GameObjects
  import opened World
  import opened Collisions
  import Movement
  import Entities
  import Projectiles
  import PowerUps
  import Players
  import Users
  import UserDatabase
  import LevelMap
  import ScrollLogin
  import RankPanel
  import Utility

  const MAX_LEVEL: int := 8

  /** The delay of the level-change timer, in milliseconds. */
  const LEVEL_CHANGE_DELAY: int := 7000

  /** Where the player is put back at every new level. */
  const RESPAWN_X: real := 20.0
  const RESPAWN_Y: real := 392.0

  /** The classes the `objects` list holds. */
  predicate IsItem(o: Obj) { o.kind.Bubble? || o.kind.Boulder? || o.kind.PowerUp? }

  predicate ItemAt(s: Session, r: Ref) { Refers(s, r) && IsItem(s.heap[r]) }

  /** What a frame update may do to a session: the existing objects evolve
      as Keeps allows and new ones may be allocated; the state, the
      accounts, the saved file, the points and the draw counter may change;
      the enemy list only loses elements; the object list only gains items;
      nothing else changes. */
  predicate Grows(s: Session, t: Session)
  {
    && Extends(s, t)
    && t == s.(heap := t.heap, state := t.state, store := t.store, saved := t.saved,
               enemies := t.enemies, objects := t.objects, points := t.points, draws := t.draws)
    && |t.store| == |s.store|
    && (forall r <- t.enemies :: r in s.enemies)
    && (forall r <- t.objects :: r in s.objects || ItemAt(t, r))
  }

  lemma KeepsItem(a: Obj, b: Obj)
    requires Keeps(a, b) && IsItem(a)
    ensures IsItem(b)
  {
    assert ClassOf(a) in {BubbleClass, BoulderClass, PowerUpClass};
  }

  lemma KeepsBoulder(a: Obj, b: Obj)
    requires Keeps(a, b) && a.kind.Boulder?
    ensures b.kind.Boulder?
  {
    assert ClassOf(b) == BoulderClass;
  }

  lemma GrowsTransitive(a: Session, b: Session, c: Session)
    requires Grows(a, b) && Grows(b, c)
    ensures Grows(a, c)
  {
    forall r <- c.objects ensures r in a.objects || ItemAt(c, r) {
      if r !in b.objects {
        assert ItemAt(c, r);
      } else if r !in a.objects {
        assert ItemAt(b, r);
        KeepsItem(b.heap[r], c.heap[r]);
      }
    }
  }

  lemma FrameGrows(s: Session, t: Session)
    requires Frame(s, t)
    ensures Grows(s, t)
  {
  }

  /** A session reached by Grows from a well-formed one is well formed. */
  lemma GrowsKeepsWf(s: Session, t: Session)
    requires Wf(s) && Grows(s, t)
    ensures Wf(t)
  {
    assert Keeps(s.heap[s.player], t.heap[t.player]);
    forall r <- t.walls ensures Refers(t, r) && t.heap[r].kind.Wall? {
      assert Keeps(s.heap[r], t.heap[r]);
    }
    forall r <- t.enemies ensures Refers(t, r) && t.heap[r].kind.Enemy? {
      assert Keeps(s.heap[r], t.heap[r]);
      assert ClassOf(s.heap[r]) in {ZenChanClass, MightaClass, BlubbaClass};
    }
    forall r <- t.objects ensures ItemAt(t, r) {
      if r in s.objects {
        KeepsItem(s.heap[r], t.heap[r]);
      }
    }
  }

  // ---------------------------------------------------------------- levels

  /** getLevelComponent: levels 1 to 8 read their file (an unreadable file
      gives no component, as readFromFile returns null); any other level
      throws IllegalArgumentException. The component is the walls and the
      enemies of the grid. */
  function LevelComponent(s: Session, n: int): (r: Result<Option<(seq<Obj>, seq<Obj>)>>)
    ensures r.Failure? <==> !(1 <= n <= MAX_LEVEL)
    ensures r.Failure? ==> r.error == IllegalArgument(n)
    ensures r.Success? ==> (r.value.Some? <==> LevelMap.LevelFor(n).value in s.levelFiles)
    ensures r.Success? && r.value.Some? ==>
              var l := LevelMap.LevelFor(n).value;
              && LevelMap.LevelNumber(l) == n
              && (forall w <- r.value.value.0 :: w.kind == Wall(LevelMap.WallTypeOf(l)))
              && (forall e <- r.value.value.1 :: e.kind.Enemy?)
  {
    match LevelMap.LevelFor(n)
    case None => Failure(IllegalArgument(n))
    case Some(l) =>
      if l in s.levelFiles then
        var lines := s.levelFiles[l];
        LevelMap.GridFacts(lines, |lines|, LevelMap.WallTypeOf(l));
        LevelMap.GridEnemiesAreEnemies(lines, |lines|);
        Success(Some((LevelMap.GridWalls(lines, |lines|, LevelMap.WallTypeOf(l)), LevelMap.GridEnemies(lines, |lines|))))
      else Success(None)
  }

  /** Allocate a level's walls and enemies and make them the lists; the
      object list starts empty. */
  function Install(s: Session, walls: seq<Obj>, enemies: seq<Obj>): (t: Session)
    requires Wf(s)
    requires forall w <- walls :: w.kind.Wall?
    requires forall e <- enemies :: e.kind.Enemy?
    ensures Wf(t) && Extends(s, t)
    ensures t == s.(heap := t.heap, walls := t.walls, enemies := t.enemies, objects := [])
    ensures |t.walls| == |walls| && forall k | 0 <= k < |walls| :: Get(t, t.walls[k]) == walls[k]
    ensures |t.enemies| == |enemies| && forall k | 0 <= k < |enemies| :: Get(t, t.enemies[k]) == enemies[k]
    ensures Get(t, t.player) == Get(s, s.player)
  {
    var t := s.(heap := s.heap + walls + enemies,
                walls := Span(|s.heap|, |walls|),
                enemies := Span(|s.heap| + |walls|, |enemies|),
                objects := []);
    InstallFacts(s, walls, enemies, t);
    t
  }

  lemma InstallFacts(s: Session, walls: seq<Obj>, enemies: seq<Obj>, t: Session)
    requires Wf(s)
    requires forall w <- walls :: w.kind.Wall?
    requires forall e <- enemies :: e.kind.Enemy?
    requires t == s.(heap := s.heap + walls + enemies,
                     walls := Span(|s.heap|, |walls|),
                     enemies := Span(|s.heap| + |walls|, |enemies|),
                     objects := [])
    ensures Wf(t) && Extends(s, t)
    ensures forall k | 0 <= k < |walls| :: Get(t, t.walls[k]) == walls[k]
    ensures forall k | 0 <= k < |enemies| :: Get(t, t.enemies[k]) == enemies[k]
    ensures Get(t, t.player) == Get(s, s.player)
  {
    WallsLanded(s.heap, walls, enemies);
    EnemiesLanded(s.heap, walls, enemies);
    assert t.heap[t.player] == s.heap[s.player];
  }

  lemma WallsLanded(h: seq<Obj>, walls: seq<Obj>, enemies: seq<Obj>)
    requires forall w <- walls :: w.kind.Wall?
    ensures forall i | 0 <= i < |h| :: (h + walls + enemies)[i] == h[i]
    ensures forall k | 0 <= k < |walls| :: (h + walls + enemies)[Span(|h|, |walls|)[k]] == walls[k]
    ensures forall r <- Span(|h|, |walls|) :: r < |h + walls + enemies| && (h + walls + enemies)[r].kind.Wall?
  {
    var sp := Span(|h|, |walls|);
    forall r <- sp ensures r < |h + walls + enemies| && (h + walls + enemies)[r].kind.Wall? {
      var k :| 0 <= k < |walls| && sp[k] == r;
      assert (h + walls + enemies)[r] == walls[k];
    }
  }

  lemma EnemiesLanded(h: seq<Obj>, walls: seq<Obj>, enemies: seq<Obj>)
    requires forall e <- enemies :: e.kind.Enemy?
    ensures forall k | 0 <= k < |enemies| :: (h + walls + enemies)[Span(|h| + |walls|, |enemies|)[k]] == enemies[k]
    ensures forall r <- Span(|h| + |walls|, |enemies|) :: r < |h + walls + enemies| && (h + walls + enemies)[r].kind.Enemy?
  {
    var sp := Span(|h| + |walls|, |enemies|);
    forall r <- sp ensures r < |h + walls + enemies| && (h + walls + enemies)[r].kind.Enemy? {
      var k :| 0 <= k < |enemies| && sp[k] == r;
      assert (h + walls + enemies)[r] == enemies[k];
    }
  }

  /** The references base, base + 1, ..., base + n - 1. */
  function Span(base: nat, n: nat): (r: seq<Ref>)
    ensures |r| == n && forall k | 0 <= k < n :: r[k] == base + k
  {
    seq(n, k => base + k)
  }

  /** repositionPlayer(20, HEIGHT - 40): y first, then x; the hitbox is
      left as it was. */
  function Reposition(s: Session): (t: Session)
    requires Wf(s)
    ensures Wf(t) && Frame(s, t) && t == s.(heap := t.heap)
    ensures var p := Get(s, s.player);
            && Get(t, s.player).base == p.base.(x := RESPAWN_X, y := RESPAWN_Y)
            && Get(t, s.player).kind == p.kind && Get(t, s.player).motion == p.motion
            && Get(t, s.player).actor == p.actor
    ensures forall q :: q != s.player ==> Get(t, q) == Get(s, q)
  {
    var p := SetX(SetY(Get(s, s.player), RESPAWN_Y), RESPAWN_X);
    Movement.PutFrame(s, s.player, p);
    var t := Put(s, s.player, p);
    FrameGrows(s, t);
    GrowsKeepsWf(s, t);
    t
  }

  /** The bookkeeping of a won game: one more won game and the best score
      for the current user, then the accounts are saved. */
  function CreditVictory(s: Session): (t: Session)
    ensures t == s.(store := t.store, saved := t.saved) && |t.store| == |s.store|
    ensures s.currentUser.Some? && s.currentUser.value < |s.store| ==>
              var u := s.currentUser.value;
              && t.store == s.store[u := Users.RecordScore(Users.IncrementWonGames(s.store[u]), s.points)]
              && t.saved == UserDatabase.SaveUsers(DbUsers(t))
    ensures !(s.currentUser.Some? && s.currentUser.value < |s.store|) ==> t == s
  {
    match s.currentUser
    case Some(u) =>
      if u < |s.store| then
        Save(s.(store := s.store[u := Users.RecordScore(Users.IncrementWonGames(s.store[u]), s.points)]))
      else s
    case None => s
  }

  /** changeLevel: the level number goes up; past the last level the game
      is won (VICTORY, the won game and best score recorded, the accounts
      saved); otherwise the player is put back at the start and, when the
      level's file can be read, its walls and enemies replace the lists
      and the objects are cleared. A failure to load is caught after the
      player was already moved, and leaves the lists as they were. */
  function ChangeLevel(s: Session): (t: Session)
    requires Wf(s)
    ensures Wf(t)
    ensures t == s.(heap := t.heap, walls := t.walls, enemies := t.enemies, objects := t.objects,
                    currentLevel := t.currentLevel, state := t.state, store := t.store, saved := t.saved)
    ensures t.currentLevel == s.currentLevel + 1
    ensures s.currentLevel + 1 > MAX_LEVEL ==>
              && t.state == Victory && t.heap == s.heap
              && t.walls == s.walls && t.enemies == s.enemies && t.objects == s.objects
              && (s.currentUser.Some? ==>
                   var u := s.currentUser.value;
                   && StoreGet(t.store, u).wonGames == Users.Inc32(StoreGet(s.store, u).wonGames)
                   && StoreGet(t.store, u).highestScore >= s.points
                   && t.saved == UserDatabase.SaveUsers(DbUsers(t)))
    ensures s.currentLevel + 1 <= MAX_LEVEL ==>
              && t.state == s.state && t.store == s.store && t.saved == s.saved
              && Get(t, t.player).base.x == RESPAWN_X && Get(t, t.player).base.y == RESPAWN_Y
              && Get(t, t.player).kind == Get(s, s.player).kind
    ensures s.currentLevel + 1 <= MAX_LEVEL ==>
              match LevelComponent(s, s.currentLevel + 1)
              case Success(Some(c)) =>
                && |t.walls| == |c.0| && (forall k | 0 <= k < |c.0| :: Get(t, t.walls[k]) == c.0[k])
                && |t.enemies| == |c.1| && (forall k | 0 <= k < |c.1| :: Get(t, t.enemies[k]) == c.1[k])
                && t.objects == []
              case _ => t.walls == s.walls && t.enemies == s.enemies && t.objects == s.objects
  {
    var n := s.currentLevel + 1;
    if n > MAX_LEVEL then Triumph(s.(currentLevel := n)) else Advance(s, n)
  }

  /** The branch of changeLevel past the last level. */
  function Triumph(s: Session): (t: Session)
    requires Wf(s)
    ensures Wf(t)
    ensures t == s.(state := Victory, store := t.store, saved := t.saved)
    ensures s.currentUser.Some? ==>
              var u := s.currentUser.value;
              && StoreGet(t.store, u).wonGames == Users.Inc32(StoreGet(s.store, u).wonGames)
              && StoreGet(t.store, u).highestScore >= s.points
              && t.saved == UserDatabase.SaveUsers(DbUsers(t))
  {
    var t := CreditVictory(s.(state := Victory));
    assert Wf(t);
    t
  }

  /** The branch of changeLevel that moves on to level `n`. */
  function Advance(s: Session, n: int): (t: Session)
    requires Wf(s) && n <= MAX_LEVEL
    ensures Wf(t)
    ensures t == s.(heap := t.heap, walls := t.walls, enemies := t.enemies, objects := t.objects, currentLevel := n)
    ensures Get(t, t.player).base.x == RESPAWN_X && Get(t, t.player).base.y == RESPAWN_Y
    ensures Get(t, t.player).kind == Get(s, s.player).kind
    ensures match LevelComponent(s, n)
            case Success(Some(c)) =>
              && |t.walls| == |c.0| && (forall k | 0 <= k < |c.0| :: Get(t, t.walls[k]) == c.0[k])
              && |t.enemies| == |c.1| && (forall k | 0 <= k < |c.1| :: Get(t, t.enemies[k]) == c.1[k])
              && t.objects == []
            case _ => t.walls == s.walls && t.enemies == s.enemies && t.objects == s.objects
  {
    var s1 := s.(currentLevel := n);
    var s2 := Reposition(s1);
    match LevelComponent(s1, n)
    case Success(Some(c)) => Install(s2, c.0, c.1)
    case _ => s2
  }

  /** The timer task scheduled by `update`: once it is due it changes the
      level and then clears the flag. */
  function LevelTimer(s: Session, now: int): (t: Session)
    requires Wf(s)
    ensures Wf(t)
    ensures !(s.levelChangeScheduled && s.levelChangeDue <= now) ==> t == s
    ensures s.levelChangeScheduled && s.levelChangeDue <= now ==>
              !t.levelChangeScheduled && t.currentLevel == s.currentLevel + 1
  {
    if s.levelChangeScheduled && s.levelChangeDue <= now then
      ChangeLevel(s).(levelChangeScheduled := false)
    else s
  }

  // ------------------------------------------------------------ the sweeps

  /** The two lists `updatePosition` walks. */
  datatype Roster = EnemyList | ObjectList

  function ListOf(s: Session, w: Roster): seq<Ref>
  {
    match w
    case EnemyList => s.enemies
    case ObjectList => s.objects
  }

  function WithList(s: Session, w: Roster, l: seq<Ref>): (t: Session)
    ensures ListOf(t, w) == l
  {
    match w
    case EnemyList => s.(enemies := l)
    case ObjectList => s.(objects := l)
  }

  /** `iterator.remove()` on the element at the cursor. */
  function RemoveAt(l: seq<Ref>, i: nat): (r: seq<Ref>)
    requires i < |l|
    ensures |r| == |l| - 1 && r[..i] == l[..i] && r[i..] == l[i + 1..]
    ensures forall x <- r :: x in l
  {
    l[..i] + l[i + 1..]
  }

  /** `f` maps each position of `r` to a position of `l` holding the same
      reference, strictly increasingly: `r` is `l` with some elements left
      out and the rest in their order. */
  predicate Embedding(f: seq<nat>, r: seq<Ref>, l: seq<Ref>)
  {
    && |f| == |r|
    && (forall k | 0 <= k < |f| :: f[k] < |l| && r[k] == l[f[k]])
    && (forall j, k | 0 <= j < k < |f| :: f[j] < f[k])
  }

  ghost predicate Subsequence(r: seq<Ref>, l: seq<Ref>)
  {
    exists f :: Embedding(f, r, l)
  }

  lemma SubsequenceReflexive(l: seq<Ref>)
    ensures Subsequence(l, l)
  {
    var f := seq(|l|, k requires 0 <= k < |l| => k);
    assert Embedding(f, l, l);
  }

  /** Removing one element leaves the others in order. */
  lemma RemoveAtSubsequence(l: seq<Ref>, i: nat)
    requires i < |l|
    ensures Subsequence(RemoveAt(l, i), l)
  {
    var r := RemoveAt(l, i);
    var f := seq(|r|, k requires 0 <= k < |r| => if k < i then k else k + 1);
    forall k | 0 <= k < |f| ensures f[k] < |l| && r[k] == l[f[k]] {
      if k < i {
        assert r[k] == r[..i][k];
      } else {
        assert r[k] == r[i..][k - i];
      }
    }
    assert Embedding(f, r, l);
  }

  lemma SubsequenceTransitive(a: seq<Ref>, b: seq<Ref>, c: seq<Ref>)
    requires Subsequence(a, b) && Subsequence(b, c)
    ensures Subsequence(a, c)
  {
    var f :| Embedding(f, a, b);
    var g :| Embedding(g, b, c);
    var h := seq(|f|, k requires 0 <= k < |f| => g[f[k]]);
    assert Embedding(h, a, c);
  }

  /** The hitboxes of `getComponents()`. */
  function Hitboxes(s: Session): (h: seq<Rect>)
    ensures |h| == |Components(s)|
    ensures forall k | 0 <= k < |h| :: h[k] == Get(s, Components(s)[k]).base.hitbox
  {
    var c := Components(s);
    seq(|c|, k requires 0 <= k < |c| => Get(s, c[k]).base.hitbox)
  }

  /** The reward for a destroyed enemy: a random power-up at a random spot
      that no component's hitbox contains, appended to the object list. No
      spot among the supplied candidates means the source is still
      sampling. */
  function SpawnPowerUp(s: Session, dice: Dice): (r: Option<Session>)
    ensures r.None? <==> Utility.RandomPosition(Hitboxes(s), dice.spots(s.draws)).None?
    ensures r.Some? ==>
              var t := r.value;
              && t == s.(heap := t.heap, objects := t.objects, draws := t.draws)
              && t.draws == s.draws + 1
              && |t.heap| == |s.heap| + 1 && t.heap[..|s.heap|] == s.heap
              && t.objects == s.objects + [|s.heap|]
              && var u := t.heap[|s.heap|];
                 && u.kind.PowerUp? && u.kind.powerUpType == PowerUps.Types[dice.kind(s.draws)]
                 && !u.base.toDestroy
                 && forall k | 0 <= k < |Components(s)| ::
                      !Contains(Get(s, Components(s)[k]).base.hitbox, u.base.x.Floor, u.base.y.Floor)
  {
    var spot :- Utility.RandomPosition(Hitboxes(s), dice.spots(s.draws));
    var u := PowerUps.CreateRandomPowerUp(spot.0 as real, spot.1 as real, dice.kind(s.draws));
    var a := Alloc(s, [u]);
    Some(a.0.(objects := s.objects + a.1, draws := s.draws + 1))
  }

  lemma SpawnGrows(s: Session, dice: Dice)
    requires SpawnPowerUp(s, dice).Some?
    ensures Grows(s, SpawnPowerUp(s, dice).value)
  {
    var t := SpawnPowerUp(s, dice).value;
    assert ItemAt(t, |s.heap|);
  }

  /** The removal branch of `updatePosition`: a destroyed enemy leaves a
      power-up behind, a destroyed power-up adds its points, and the element
      leaves the list. */
  function Retire(s: Session, w: Roster, i: nat, dice: Dice): (r: Option<Session>)
    requires Wf(s) && i < |ListOf(s, w)|
    ensures var o := Get(s, ListOf(s, w)[i]);
            r.None? <==> o.kind.Enemy? && Utility.RandomPosition(Hitboxes(s), dice.spots(s.draws)).None?
    ensures r.Some? ==> Grows(s, r.value) && ListOf(r.value, w) == RemoveAt(ListOf(s, w), i)
    ensures r.Some? ==>
              var o := Get(s, ListOf(s, w)[i]);
              r.value.points == s.points + (if o.kind.PowerUp? then o.kind.points else 0)
    ensures r.Some? && w == EnemyList ==>
              s.objects <= r.value.objects && |r.value.objects| == |s.objects| + 1
    ensures r.Some? && w == ObjectList ==> r.value.enemies == s.enemies
  {
    var l := ListOf(s, w);
    if Get(s, l[i]).kind.Enemy? then
      assert w == EnemyList;
      RetireEnemy(s, i, dice)
    else
      assert w == ObjectList;
      Some(RetireItem(s, i))
  }

  /** A destroyed enemy: the power-up it leaves, then the removal. */
  function RetireEnemy(s: Session, i: nat, dice: Dice): (r: Option<Session>)
    requires i < |s.enemies|
    ensures r.None? <==> Utility.RandomPosition(Hitboxes(s), dice.spots(s.draws)).None?
    ensures r.Some? ==> Grows(s, r.value) && r.value.enemies == RemoveAt(s.enemies, i)
    ensures r.Some? ==> r.value.points == s.points
    ensures r.Some? ==> s.objects <= r.value.objects && |r.value.objects| == |s.objects| + 1
  {
    var s1 :- SpawnPowerUp(s, dice);
    SpawnGrows(s, dice);
    Some(s1.(enemies := RemoveAt(s.enemies, i)))
  }

  /** A destroyed bubble, boulder or power-up: a power-up adds its points,
      then the removal. */
  function RetireItem(s: Session, i: nat): (t: Session)
    requires i < |s.objects|
    ensures Grows(s, t) && t.objects == RemoveAt(s.objects, i) && t.enemies == s.enemies
    ensures var o := Get(s, s.objects[i]);
            t.points == s.points + (if o.kind.PowerUp? then o.kind.points else 0)
  {
    var o := Get(s, s.objects[i]);
    s.(objects := RemoveAt(s.objects, i), points := s.points + (if o.kind.PowerUp? then o.kind.points else 0))
  }

  /** A Mighta's attack: a boulder one body-width ahead of the enemy, at
      its height, heading its way, appended to the object list. */
  function ThrowBoulder(s: Session, e: Obj): (t: Session)
    ensures Grows(s, t) && t == s.(heap := t.heap, objects := t.objects)
    ensures t.objects == s.objects + [|s.heap|] && |t.heap| == |s.heap| + 1
    ensures var b := Get(t, |s.heap|);
            && b.kind.Boulder? && b.motion.direction == e.motion.direction && b.base.y == e.base.y
            && b.base.x == (if e.motion.direction == FacingRight then e.base.x + e.base.width
                            else e.base.x - e.base.width)
  {
    var x := if e.motion.direction == FacingRight then e.base.x + e.base.width else e.base.x - e.base.width;
    var al := Alloc(s, [Projectiles.NewBoulder(x, e.base.y, e.motion.direction)]);
    var t := al.0.(objects := s.objects + al.1);
    assert ItemAt(t, |s.heap|);
    t
  }

  /** The attack branch for an enemy: `attack()` is tried on every enemy,
      and a Mighta whose attack starts throws a boulder; then the enemy
      moves. */
  function EnemyAct(s: Session, self: Ref, dice: Dice, now: int): (t: Session)
    requires Refers(s, self) && Get(s, self).kind.Enemy?
    ensures Grows(s, t) && t.enemies == s.enemies && t.points == s.points
    ensures s.objects <= t.objects
    ensures var e := Get(s, self);
            |t.objects| == |s.objects| + (if e.kind.archetype == Mighta && Entities.Attack(e, now).1 then 1 else 0)
    ensures var e := Get(s, self);
            e.kind.archetype == Mighta && Entities.Attack(e, now).1 ==>
              t.objects[|s.objects|] == |s.heap| && Get(t, |s.heap|).kind.Boulder?
  {
    var a := Entities.Attack(Get(s, self), now);
    Movement.PutFrame(s, self, a.0);
    var s1 := Put(s, self, a.0);
    FrameGrows(s, s1);
    if a.1 && a.0.kind.archetype == Mighta then
      var s2 := ThrowBoulder(s1, a.0);
      GrowsTransitive(s, s1, s2);
      var t := Movement.EnemyMove(s2, self, dice, now);
      MoveGrows(s2, self, dice, now);
      assert s2.heap[|s.heap|].kind.Boulder?;
      assert Keeps(s2.heap[|s.heap|], t.heap[|s.heap|]);
      KeepsBoulder(s2.heap[|s.heap|], t.heap[|s.heap|]);
      assert t.objects == s.objects + [|s.heap|];
      GrowsTransitive(s, s2, t);
      t
    else
      var t := Movement.EnemyMove(s1, self, dice, now);
      MoveGrows(s1, self, dice, now);
      GrowsTransitive(s, s1, t);
      t
  }

  lemma MoveGrows(s: Session, self: Ref, dice: Dice, now: int)
    requires Refers(s, self) && Get(s, self).kind.Enemy?
    ensures var t := Movement.EnemyMove(s, self, dice, now);
            Grows(s, t) && t.enemies == s.enemies && t.objects == s.objects && t.points == s.points
  {
    var t := Movement.EnemyMove(s, self, dice, now);
    var s' := s.(draws := t.draws);
    assert Grows(s, s');
    FrameGrows(s', t);
    GrowsTransitive(s, s', t);
  }

  /** The update branch for a live element: an enemy attacks and moves;
      bubbles, boulders and power-ups run their own position update against
      `getComponents()`. */
  function Act(s: Session, w: Roster, i: nat, dice: Dice, now: int): (t: Session)
    requires Wf(s) && i < |ListOf(s, w)|
    ensures Grows(s, t) && ListOf(t, w) == ListOf(s, w) && t.points == s.points
    ensures s.objects <= t.objects
    ensures w == ObjectList ==> t.objects == s.objects && t.enemies == s.enemies
  {
    ListedObject(s, w, i);
    ActOn(s, w, ListOf(s, w)[i], dice, now)
  }

  /** An element of a list of a well-formed session is allocated, and the
      object list holds no enemy. */
  lemma ListedObject(s: Session, w: Roster, i: nat)
    requires Wf(s) && i < |ListOf(s, w)|
    ensures Refers(s, ListOf(s, w)[i])
    ensures w == ObjectList ==> !Get(s, ListOf(s, w)[i]).kind.Enemy?
  {
    assert ListOf(s, w)[i] in ListOf(s, w);
  }

  /** Act on the element `o` of the list `w`: an enemy when it is one,
      which the object list never holds, an item otherwise. */
  function ActOn(s: Session, w: Roster, o: Ref, dice: Dice, now: int): (t: Session)
    requires Refers(s, o) && (w == ObjectList ==> !Get(s, o).kind.Enemy?)
    ensures Grows(s, t) && ListOf(t, w) == ListOf(s, w) && t.points == s.points
    ensures s.objects <= t.objects
    ensures w == ObjectList ==> t.objects == s.objects && t.enemies == s.enemies
  {
    if Get(s, o).kind.Enemy? then EnemyAct(s, o, dice, now) else ItemAct(s, o, now)
  }

  /** A live bubble, boulder or power-up runs its own position update
      against `getComponents()`; anything else is left alone. */
  function ItemAct(s: Session, o: Ref, now: int): (t: Session)
    requires Refers(s, o)
    ensures Frame(s, t)
    ensures Grows(s, t) && t.enemies == s.enemies && t.objects == s.objects && t.points == s.points
    ensures !IsItem(Get(s, o)) ==> t == s
  {
    var x := Get(s, o);
    var t :=
      if x.kind.Bubble? then Movement.BubbleUpdate(s, o, Components(s), now)
      else if x.kind.Boulder? then Movement.BoulderUpdate(s, o, Components(s))
      else if x.kind.PowerUp? then Movement.EntityUpdate(s, o, Components(s), now)
      else s;
    FrameGrows(s, t);
    t
  }

  /** `updatePosition(list)`: an iterator over the live list, from the
      cursor `i` on. A destroyed element is retired and removed (the cursor
      stays); any other acts (the cursor moves on). */
  function Sweep(s: Session, w: Roster, i: nat, dice: Dice, now: int): (r: Option<Session>)
    requires Wf(s) && i <= |ListOf(s, w)|
    ensures r.Some? ==> Wf(r.value) && Grows(s, r.value)
    ensures r.Some? ==> i <= |ListOf(r.value, w)| && ListOf(r.value, w)[..i] == ListOf(s, w)[..i]
    ensures r.Some? ==> forall x <- ListOf(r.value, w) :: x in ListOf(s, w)
    ensures r.Some? ==> Subsequence(ListOf(r.value, w), ListOf(s, w))
    ensures r.Some? ==> forall x <- ListOf(s, w)[i..] :: x !in ListOf(r.value, w) ==> Get(r.value, x).base.toDestroy
    ensures r.Some? ==> forall x <- ListOf(s, w)[i..] ::
              Get(s, x).base.toDestroy && x !in ListOf(s, w)[..i] ==> x !in ListOf(r.value, w)
    ensures r.Some? && w == EnemyList ==>
              && r.value.points == s.points && s.objects <= r.value.objects
              && |r.value.objects| - |s.objects| >= |s.enemies| - |r.value.enemies|
    ensures r.Some? && w == ObjectList ==> r.value.enemies == s.enemies
    decreases |ListOf(s, w)| - i
  {
    var l := ListOf(s, w);
    if i == |l| then SubsequenceReflexive(l); Some(s)
    else if Get(s, l[i]).base.toDestroy then
      var s1 :- Retire(s, w, i, dice);
      GrowsKeepsWf(s, s1);
      var r := Sweep(s1, w, i, dice, now);
      if r.Some? then
        SweepRemovedStep(s, s1, r.value, w, i);
        RemoveAtSubsequence(l, i);
        SubsequenceTransitive(ListOf(r.value, w), ListOf(s1, w), l);
        GrowsTransitive(s, s1, r.value);
        r
      else r
    else
      var s1 := Act(s, w, i, dice, now);
      GrowsKeepsWf(s, s1);
      var r := Sweep(s1, w, i + 1, dice, now);
      if r.Some? then
        SweepKeptStep(s, s1, r.value, w, i);
        GrowsTransitive(s, s1, r.value);
        r
      else r
  }

  /** The list facts of a sweep step that removed the element at the cursor. */
  lemma SweepRemovedStep(s: Session, s1: Session, t: Session, w: Roster, i: nat)
    requires i < |ListOf(s, w)| && Get(s, ListOf(s, w)[i]).base.toDestroy
    requires Grows(s, s1) && Grows(s1, t) && Wf(s)
    requires ListOf(s1, w) == RemoveAt(ListOf(s, w), i)
    requires i <= |ListOf(t, w)| && ListOf(t, w)[..i] == ListOf(s1, w)[..i]
    requires forall x <- ListOf(t, w) :: x in ListOf(s1, w)
    requires forall x <- ListOf(s1, w)[i..] :: x !in ListOf(t, w) ==> Get(t, x).base.toDestroy
    requires forall x <- ListOf(s1, w)[i..] ::
               Get(s1, x).base.toDestroy && x !in ListOf(s1, w)[..i] ==> x !in ListOf(t, w)
    ensures ListOf(t, w)[..i] == ListOf(s, w)[..i]
    ensures forall x <- ListOf(t, w) :: x in ListOf(s, w)
    ensures forall x <- ListOf(s, w)[i..] :: x !in ListOf(t, w) ==> Get(t, x).base.toDestroy
    ensures forall x <- ListOf(s, w)[i..] ::
              Get(s, x).base.toDestroy && x !in ListOf(s, w)[..i] ==> x !in ListOf(t, w)
  {
    var l := ListOf(s, w);
    var l1 := ListOf(s1, w);
    assert Wf(s);
    forall x <- l[i..] | x !in ListOf(t, w) ensures Get(t, x).base.toDestroy {
      if x == l[i] {
        assert Refers(s, x) by { assert x in l; }
        assert Keeps(s.heap[x], s1.heap[x]);
        assert Keeps(s1.heap[x], t.heap[x]);
      } else {
        assert x in l[i + 1..];
        assert x in l1[i..];
      }
    }
    forall x <- l[i..] | Get(s, x).base.toDestroy && x !in l[..i] ensures x !in ListOf(t, w) {
      assert Refers(s, x) by { assert x in l; }
      assert Keeps(s.heap[x], s1.heap[x]);
      if x in l1[i..] {
        assert x !in l1[..i];
      } else {
        assert x !in l1 by { assert l1 == l1[..i] + l1[i..]; }
      }
    }
  }

  /** The list facts of a sweep step that kept the element at the cursor. */
  lemma SweepKeptStep(s: Session, s1: Session, t: Session, w: Roster, i: nat)
    requires i < |ListOf(s, w)| && !Get(s, ListOf(s, w)[i]).base.toDestroy
    requires Grows(s, s1) && Grows(s1, t) && Wf(s)
    requires ListOf(s1, w) == ListOf(s, w)
    requires i + 1 <= |ListOf(t, w)| && ListOf(t, w)[..i + 1] == ListOf(s1, w)[..i + 1]
    requires forall x <- ListOf(t, w) :: x in ListOf(s1, w)
    requires forall x <- ListOf(s1, w)[i + 1..] :: x !in ListOf(t, w) ==> Get(t, x).base.toDestroy
    requires forall x <- ListOf(s1, w)[i + 1..] ::
               Get(s1, x).base.toDestroy && x !in ListOf(s1, w)[..i + 1] ==> x !in ListOf(t, w)
    ensures ListOf(t, w)[..i] == ListOf(s, w)[..i]
    ensures forall x <- ListOf(t, w) :: x in ListOf(s, w)
    ensures forall x <- ListOf(s, w)[i..] :: x !in ListOf(t, w) ==> Get(t, x).base.toDestroy
    ensures forall x <- ListOf(s, w)[i..] ::
              Get(s, x).base.toDestroy && x !in ListOf(s, w)[..i] ==> x !in ListOf(t, w)
  {
    var l := ListOf(s, w);
    assert ListOf(t, w)[..i] == ListOf(t, w)[..i + 1][..i];
    assert ListOf(t, w)[i] == l[i];
    forall x <- l[i..] | x !in ListOf(t, w) ensures Get(t, x).base.toDestroy {
      assert x != l[i];
      assert x in l[i + 1..];
    }
    forall x <- l[i..] | Get(s, x).base.toDestroy && x !in l[..i] ensures x !in ListOf(t, w) {
      assert Refers(s, x) by { assert x in l; }
      assert Keeps(s.heap[x], s1.heap[x]);
      assert x != l[i];
      assert x in l[i + 1..];
      assert l[..i + 1] == l[..i] + [l[i]];
    }
  }

  // ------------------------------------------------------------ the frame

  /** The body of update while RUNNING, before the scheduling test: the
      player moves, then the enemy list and the object list are swept. */
  function Step(s: Session, dice: Dice, now: int): (r: Option<Session>)
    requires Wf(s)
    ensures r.Some? ==> Wf(r.value) && Grows(s, r.value)
    ensures r.Some? ==> forall e <- s.enemies :: e !in r.value.enemies ==> Get(r.value, e).base.toDestroy
  {
    var s1 := Movement.PlayerUpdate(s, now);
    FrameGrows(s, s1);
    GrowsKeepsWf(s, s1);
    var s2 :- Sweep(s1, EnemyList, 0, dice, now);
    var s3 :- Sweep(s2, ObjectList, 0, dice, now);
    GrowsTransitive(s, s1, s2);
    GrowsTransitive(s, s2, s3);
    SweepsDestroy(s, s2, s3);
    Some(s3)
  }

  /** An enemy the enemy sweep removed stays marked through the object sweep. */
  lemma SweepsDestroy(s: Session, s2: Session, s3: Session)
    requires Wf(s) && Extends(s, s2) && Extends(s2, s3) && s3.enemies == s2.enemies
    requires forall x <- s.enemies[0..] :: x !in s2.enemies ==> Get(s2, x).base.toDestroy
    ensures forall e <- s.enemies :: e !in s3.enemies ==> Get(s3, e).base.toDestroy
  {
    forall e <- s.enemies | e !in s3.enemies ensures Get(s3, e).base.toDestroy {
      assert e in s.enemies[0..];
      assert Refers(s2, e);
      assert Keeps(s2.heap[e], s3.heap[e]);
    }
  }

  /** update: only while RUNNING. After the step, once no enemy is left and
      no change is pending, a level change is scheduled 7 seconds later. */
  function Update(s: Session, dice: Dice, now: int): (r: Option<Session>)
    requires Wf(s)
    ensures s.state != Running ==> r == Some(s)
    ensures r.Some? ==> Wf(r.value)
    ensures r.Some? ==>
              var t := r.value;
              && t.player == s.player && t.walls == s.walls && t.currentLevel == s.currentLevel
              && t.currentUser == s.currentUser && |t.store| == |s.store|
              && (forall e <- t.enemies :: e in s.enemies)
              && (forall e <- s.enemies :: e !in t.enemies ==> Get(t, e).base.toDestroy)
    ensures r.Some? && s.state == Running ==>
              (r.value.levelChangeScheduled <==> s.levelChangeScheduled || r.value.enemies == [])
    ensures r.Some? && s.levelChangeScheduled ==>
              r.value.levelChangeScheduled && r.value.levelChangeDue == s.levelChangeDue
    ensures r.Some? && s.state == Running && !s.levelChangeScheduled && r.value.enemies == [] ==>
              r.value.levelChangeDue == now + LEVEL_CHANGE_DELAY
  {
    if s.state != Running then Some(s)
    else
      var t :- Step(s, dice, now);
      Some(Schedule(s, t, now))
  }

  /** The scheduling test at the end of update. */
  function Schedule(s: Session, t: Session, now: int): (u: Session)
    requires Wf(s) && Wf(t) && Grows(s, t)
    requires forall e <- s.enemies :: e !in t.enemies ==> Get(t, e).base.toDestroy
    ensures Wf(u)
    ensures && u.player == s.player && u.walls == s.walls && u.currentLevel == s.currentLevel
            && u.currentUser == s.currentUser && |u.store| == |s.store|
            && (forall e <- u.enemies :: e in s.enemies)
            && (forall e <- s.enemies :: e !in u.enemies ==> Get(u, e).base.toDestroy)
    ensures u.levelChangeScheduled <==> s.levelChangeScheduled || u.enemies == []
    ensures s.levelChangeScheduled ==> u.levelChangeDue == s.levelChangeDue
    ensures !s.levelChangeScheduled && u.enemies == [] ==> u.levelChangeDue == now + LEVEL_CHANGE_DELAY
  {
    if t.enemies == [] && !t.levelChangeScheduled then
      var u := t.(levelChangeScheduled := true, levelChangeDue := now + LEVEL_CHANGE_DELAY);
      assert forall e :: Get(u, e) == Get(t, e);
      u
    else t
  }

  // ------------------------------------------------------- game lifecycle

  /** startGame: a new player and level 1 are set first; then level 1's
      walls and enemies are installed, the objects cleared, the points reset
      and the game runs. When level 1's file cannot be read the component
      is null and the NullPointerException ends the call right after the
      player and level were set; the second component says whether the
      call completed. */
  function StartGame(s: Session): (r: (Session, bool))
    requires Wf(s)
    ensures Wf(r.0)
    ensures r.1 <==> LevelMap.LevelOne in s.levelFiles
    ensures r.0.player == |s.heap| && Get(r.0, r.0.player) == Players.NewPlayer()
    ensures r.0 == s.(heap := r.0.heap, player := r.0.player, walls := r.0.walls, enemies := r.0.enemies,
                      objects := r.0.objects, currentLevel := r.0.currentLevel, points := r.0.points, state := r.0.state)
    ensures r.0.currentLevel == 1
    ensures r.1 ==> r.0.state == Running && r.0.points == 0 && r.0.objects == []
    ensures r.1 ==> var c := LevelComponent(s, 1).value.value;
              && |r.0.walls| == |c.0| && (forall k | 0 <= k < |c.0| :: Get(r.0, r.0.walls[k]) == c.0[k])
              && |r.0.enemies| == |c.1| && (forall k | 0 <= k < |c.1| :: Get(r.0, r.0.enemies[k]) == c.1[k])
    ensures !r.1 ==> r.0 == s.(heap := r.0.heap, player := r.0.player, currentLevel := 1)
  {
    var s1 := FreshPlayer(s);
    LevelOneLoads(s);
    match LevelComponent(s, 1)
    case Success(Some(c)) => (Begin(s1, c.0, c.1), true)
    case _ => (s1, false)
  }

  /** The rest of startGame once level 1 is read: its walls and enemies,
      no objects, no points, and the game runs. */
  function Begin(s: Session, walls: seq<Obj>, enemies: seq<Obj>): (t: Session)
    requires Wf(s)
    requires forall w <- walls :: w.kind.Wall?
    requires forall e <- enemies :: e.kind.Enemy?
    ensures Wf(t)
    ensures t == s.(heap := t.heap, walls := t.walls, enemies := t.enemies, objects := [], points := 0, state := Running)
    ensures |t.walls| == |walls| && forall k | 0 <= k < |walls| :: Get(t, t.walls[k]) == walls[k]
    ensures |t.enemies| == |enemies| && forall k | 0 <= k < |enemies| :: Get(t, t.enemies[k]) == enemies[k]
    ensures Get(t, t.player) == Get(s, s.player)
  {
    var i := Install(s, walls, enemies);
    var t := i.(points := 0, state := Running);
    assert forall r :: Get(t, r) == Get(i, r);
    t
  }

  /** Level 1 is a valid level: its component is there exactly when its
      file can be read. */
  lemma LevelOneLoads(s: Session)
    ensures LevelComponent(s, 1).Success?
    ensures LevelComponent(s, 1).value.Some? <==> LevelMap.LevelOne in s.levelFiles
  {
    assert LevelMap.LevelFor(1) == Some(LevelMap.LevelOne);
  }

  /** The first two statements of startGame: a new player, at level 1. */
  function FreshPlayer(s: Session): (t: Session)
    requires Wf(s)
    ensures Wf(t) && Extends(s, t)
    ensures t == s.(heap := s.heap + [Players.NewPlayer()], player := |s.heap|, currentLevel := 1)
    ensures Get(t, t.player) == Players.NewPlayer()
  {
    var a := Alloc(s, [Players.NewPlayer()]);
    assert Grows(s, a.0);
    GrowsKeepsWf(s, a.0);
    a.0.(player := |s.heap|, currentLevel := 1)
  }

  /** playerBubble: when the player's attack starts, a bubble appears one
      body-width ahead of the player, at its height, heading its way. */
  function PlayerBubble(s: Session, now: int): (t: Session)
    requires Wf(s)
    ensures Wf(t)
    ensures var p := Get(s, s.player);
            !Entities.Attack(p, now).1 ==> t == s
    ensures var p := Get(s, s.player);
            Entities.Attack(p, now).1 ==>
              && t == s.(heap := t.heap, objects := t.objects)
              && Get(t, s.player) == Entities.Attack(p, now).0
              && t.objects == s.objects + [|s.heap|] && |t.heap| == |s.heap| + 1
              && var b := Get(t, |s.heap|);
                 && b.kind.Bubble? && b.motion.direction == p.motion.direction && b.base.y == p.base.y
                 && b.base.x == (if p.motion.direction == FacingRight then p.base.x + p.base.width
                                 else p.base.x - p.base.width)
  {
    var p := Get(s, s.player);
    var a := Entities.Attack(p, now);
    if a.1 then
      Movement.PutFrame(s, s.player, a.0);
      var s1 := Put(s, s.player, a.0);
      FrameGrows(s, s1);
      var x := if p.motion.direction == FacingRight then p.base.x + p.base.width else p.base.x - p.base.width;
      var al := Alloc(s1, [Projectiles.NewBubble(x, p.base.y, p.motion.direction)]);
      var t := al.0.(objects := s.objects + al.1);
      assert ItemAt(t, |s.heap|);
      assert Grows(s1, t);
      GrowsTransitive(s, s1, t);
      GrowsKeepsWf(s, t);
      t
    else s
  }

  /** An attack lasts until an update clears it: a second bubble with no
      update in between adds nothing, however much later it comes. */
  lemma OneBubblePerAttack(s: Session, now: int, later: int)
    requires Wf(s) && Entities.Attack(Get(s, s.player), now).1
    ensures |PlayerBubble(PlayerBubble(s, now), later).objects| == |s.objects| + 1
  {
    var t := PlayerBubble(s, now);
    assert !Entities.Attack(Get(t, t.player), later).1;
  }

  /** pause: RUNNING becomes PAUSE; nothing else changes. */
  function Pause(s: Session): (t: Session)
    ensures s.state == Running ==> t == s.(state := GameState.Pause)
    ensures s.state != Running ==> t == s
  {
    if s.state == Running then s.(state := GameState.Pause) else s
  }

  /** resume: PAUSE becomes RUNNING; nothing else changes. */
  function Resume(s: Session): (t: Session)
    ensures s.state == GameState.Pause ==> t == s.(state := Running)
    ensures s.state != GameState.Pause ==> t == s
  {
    if s.state == GameState.Pause then s.(state := Running) else s
  }

  /** Pausing and resuming undo each other, and a paused game does not
      move. */
  lemma PauseResumeInverse(s: Session, dice: Dice, now: int)
    requires Wf(s)
    ensures s.state == Running ==> Resume(Pause(s)) == s
    ensures s.state == GameState.Pause ==> Pause(Resume(s)) == s
    ensures s.state == Running ==> Update(Pause(s), dice, now) == Some(Pause(s))
  {
  }

  /** The database's list as the ranking screen sorts it: by best score,
      highest first. */
  function Ranked(s: Session): (us: seq<nat>)
    ensures multiset(us) == multiset(s.users)
    ensures RankPanel.Descending(us, (r: nat) => StoreGet(s.store, r).highestScore)
    ensures forall u <- us :: u in s.users
  {
    var us := RankPanel.CreateDisplay(s.users, (r: nat) => StoreGet(s.store, r).highestScore).0;
    assert forall u <- us :: u in s.users by {
      forall u <- us ensures u in s.users {
        assert u in multiset(us);
      }
    }
    us
  }

  /** changePanel: switching to LOGIN rebuilds the saved-games list from
      the database, switching to RANK sorts the database's list by best
      score in place; then the state is the panel's. */
  function ChangePanel(s: Session, panel: GameState): (t: Session)
    requires ScrollLogin.Valid(s.login)
    ensures t.state == panel && ScrollLogin.Valid(t.login)
    ensures Wf(s) ==> Wf(t)
    ensures panel == LoginState ==>
              && t == s.(state := panel, login := t.login)
              && t.login.selectedUser == 0
              && (|s.users| > 0 ==> t.login.labelCount == |s.users|)
    ensures panel == Rank ==>
              && t == s.(state := panel, users := t.users)
              && multiset(t.users) == multiset(s.users)
              && RankPanel.Descending(t.users, (r: nat) => StoreGet(s.store, r).highestScore)
    ensures panel != LoginState && panel != Rank ==> t == s.(state := panel)
  {
    match panel
    case LoginState => s.(login := ScrollLogin.SetUsers(s.login, |s.users|), state := panel)
    case Rank => s.(users := Ranked(s), state := panel)
    case _ => s.(state := panel)
  }

  /** The ranking keeps the order of equal scores and shows exactly the
      accounts of the database. */
  lemma RankKeepsTies(s: Session, k: int)
    requires ScrollLogin.Valid(s.login)
    ensures var key := (r: nat) => StoreGet(s.store, r).highestScore;
            RankPanel.WithKey(ChangePanel(s, Rank).users, key, k) == RankPanel.WithKey(s.users, key, k)
  {
  }

  /** addUser: a new account with the next id becomes the current user, is
      appended to the database, and the database is saved; the id counter
      steps on as a Java int. */
  function AddUser(s: Session, nickname: string, avatar: string): (t: Session)
    requires Wf(s)
    ensures Wf(t)
    ensures t == s.(store := t.store, users := t.users, currentUser := t.currentUser, idCounter := t.idCounter, saved := t.saved)
    ensures |t.store| == |s.store| + 1 && t.store[..|s.store|] == s.store
    ensures var u := t.store[|s.store|];
            && u.id == s.idCounter && u.nickname == nickname && u.avatar == avatar
            && u.playedGames == 0 && u.highestScore == 0 && u.level == 1
    ensures t.idCounter == Users.Inc32(s.idCounter)
    ensures t.users == s.users + [|s.store|] && t.currentUser == Some(|s.store|)
    ensures DbUsers(t) == UserDatabase.AddUser(DbUsers(s), t.store[|s.store|])
    ensures t.saved == UserDatabase.SaveUsers(DbUsers(t))
  {
    var n := Users.NewUser(nickname, avatar, s.idCounter);
    var s1 := s.(store := s.store + [n.0], users := s.users + [|s.store|], currentUser := Some(|s.store|), idCounter := n.1);
    assert DbUsers(s1) == DbUsers(s) + [n.0] by {
      forall k | 0 <= k < |s.users| ensures DbUsers(s1)[k] == DbUsers(s)[k] {
        assert s.users[k] in s.users;
      }
    }
    Save(s1)
  }
}

=== FILE: enemies.dfy ===
/** Enemy (ZenChan, Mighta, Blubba): the PATROL/CAUGHT/FREED state machine
    and the decision half of `move`, taking the random draw `n` in [0, 100)
    as a parameter. The position update that follows each decision is in
    Movement. */
module Enemies {
  import opened Wrappers
  import opened Geometry
  import Utility
  import opened GameObjects
  import Entities

  /** NORMAL_SPEED - NORMAL_SPEED * 0.10. */
  const PATROL_SPEED: real := 1.8
  /** NORMAL_SPEED * 1.3, whatever the speed was before. */
  const FREED_SPEED: real := 2.6
  /** TILE_SIZE * 10. */
  const ATTACK_RANGE: real := 180.0

  /** A draw of `r.nextDouble() * 100`. */
  type Roll = n: real | 0.0 <= n < 100.0

  predicate IsEnemy(e: Obj) { e.kind.Enemy? }

  /** Enemy.patrol. */
  function Patrol(e: Obj): (r: Obj)
    requires IsEnemy(e)
    ensures IsEnemy(r) && r.kind.state == EnemyState.Patrol && r.motion.speed == PATROL_SPEED
    ensures r.base == e.base && r.actor == e.actor
  {
    e.(kind := e.kind.(state := EnemyState.Patrol), motion := e.motion.(speed := PATROL_SPEED))
  }

  /** The ZenChan, Mighta and Blubba constructors: a 20 x 20 entity that
      starts patrolling. */
  function NewEnemy(a: Archetype, x: real, y: real): (e: Obj)
    ensures IsEnemy(e) && e.kind.archetype == a && e.kind.state == EnemyState.Patrol
    ensures e.motion.speed == PATROL_SPEED && !e.actor.canAttack
    ensures !e.kind.up && !e.kind.down && !e.motion.right && !e.motion.left
    ensures e.base.x == x && e.base.y == y && e.base.width == 20.0 && e.base.height == 20.0
    ensures e.base.visible && !e.base.toDestroy && InSync(e.base)
  {
    Patrol(Obj(NewBase(x, y, 20.0, 20.0), InitialMotion, InitialActor, Enemy(a, EnemyState.Patrol, false, false)))
  }

  /** Enemy.caught: captured and hidden, speed untouched. */
  function CaughtBy(e: Obj): (r: Obj)
    requires IsEnemy(e)
    ensures IsEnemy(r) && r.kind.state == Caught && !r.base.visible
    ensures r.motion == e.motion && r.actor == e.actor
    ensures r.kind.archetype == e.kind.archetype && r.kind.up == e.kind.up && r.kind.down == e.kind.down
    ensures r.base == e.base.(visible := false)
  {
    e.(kind := e.kind.(state := Caught), base := e.base.(visible := false))
  }

  /** Enemy.free: released, shown again, and faster, from any state. */
  function Free(e: Obj): (r: Obj)
    requires IsEnemy(e)
    ensures IsEnemy(r) && r.kind.state == Freed && r.base.visible && r.motion.speed == FREED_SPEED
    ensures r.actor == e.actor && r.kind.archetype == e.kind.archetype
    ensures r.base == e.base.(visible := true)
    ensures r.motion == e.motion.(speed := FREED_SPEED)
  {
    e.(kind := e.kind.(state := Freed), base := e.base.(visible := true),
       motion := e.motion.(speed := FREED_SPEED))
  }

  /** Capture followed by release leaves the enemy where it was, visible,
      freed and faster than a patrolling one; no step leads back to PATROL. */
  lemma CaptureAndRelease(e: Obj)
    requires IsEnemy(e) && e.base.visible
    ensures Free(CaughtBy(e)).base == e.base
    ensures Free(CaughtBy(e)).motion.speed > PATROL_SPEED
    ensures ObjEvolves(e, CaughtBy(e)) && ObjEvolves(CaughtBy(e), Free(CaughtBy(e)))
  {
  }

  /** Enemy.collision: only a player is affected, and only by an enemy that
      is not captured. */
  predicate HurtsPlayer(e: Obj)
    requires IsEnemy(e)
  {
    e.kind.state != Caught
  }

  /** The enemy is on the player's row: player.y <= y <= player.y + 20. */
  predicate RowAligned(e: Obj, p: Obj)
  {
    p.base.y + 20.0 >= e.base.y && e.base.y >= p.base.y
  }

  /** The random-walk table of Enemy.move (right, left) and Blubba.move
      (down, up): keep going with 90%, start from idle either way with 50%,
      otherwise stop. */
  function Walk(forward: bool, backward: bool, n: Roll): (r: (bool, bool))
    ensures !(r.0 && r.1)
    ensures forward && n < 90.0 ==> r == (true, false)
    ensures !forward && backward && n < 90.0 ==> r == (false, true)
    ensures !forward && !backward ==> (r.0 <==> n < 50.0) && (r.1 <==> n >= 50.0)
    ensures (forward || backward) && n >= 90.0 ==> r == (false, false)
  {
    if forward && n < 90.0 then (true, false)
    else if backward && n < 90.0 then (false, true)
    else if !forward && !backward && n < 50.0 then (true, false)
    else if !forward && !backward && n < 100.0 then (false, true)
    else (false, false)
  }

  /** An idle walker always starts moving, and a moving one either keeps its
      direction or stops: it never reverses in one step. */
  lemma WalkNeverReverses(forward: bool, backward: bool, n: Roll)
    ensures !forward && !backward ==> Walk(forward, backward, n).0 != Walk(forward, backward, n).1
    ensures forward && !backward ==> !Walk(forward, backward, n).1
    ensures !forward && backward ==> !Walk(forward, backward, n).0
  {
  }

  /** The jump chance when the enemy is not on the player's row: an even
      chance when it is between one and four tiles below the player, one in
      two hundred otherwise. */
  predicate WantsJump(e: Obj, p: Obj, n: Roll)
  {
    if e.base.y > p.base.y + p.base.height && e.base.y <= p.base.y + 4.0 * Utility.TILE_SIZE as real
    then n < 50.0 else n < 0.5
  }

  /** The decision half of Enemy.move: head for the player on the same row,
      otherwise perhaps jump and take a random-walk step; a captured enemy
      requests no horizontal movement. */
  function Decide(e: Obj, p: Obj, n: Roll): (r: Obj)
    requires IsEnemy(e)
    ensures IsEnemy(r) && r.kind == e.kind && r.base == e.base
    ensures r.motion.speed == e.motion.speed && r.motion.direction == e.motion.direction
    ensures e.kind.state == Caught ==> !r.motion.right && !r.motion.left
    ensures e.kind.state != Caught && RowAligned(e, p) ==>
              && (p.base.x > e.base.x ==> r.motion.right && !r.motion.left)
              && (p.base.x < e.base.x ==> r.motion.left && !r.motion.right)
              && (p.base.x == e.base.x ==> r.motion == e.motion)
    ensures e.kind.state != Caught && !RowAligned(e, p) ==>
              (r.motion.right, r.motion.left) == Walk(e.motion.right, e.motion.left, n)
    ensures RowAligned(e, p) ==> r.actor == e.actor
    ensures !RowAligned(e, p) ==> r.actor == (if WantsJump(e, p, n) then Entities.SetJump(e).actor else e.actor)
  {
    var e1 :=
      if RowAligned(e, p) then
        var dx := p.base.x - e.base.x;
        if dx > 0.0 then e.(motion := e.motion.(right := true, left := false))
        else if dx < 0.0 then e.(motion := e.motion.(left := true, right := false))
        else e
      else
        var j := if WantsJump(e, p, n) then Entities.SetJump(e) else e;
        var w := Walk(e.motion.right, e.motion.left, n);
        j.(motion := j.motion.(right := w.0, left := w.1));
    if e1.kind.state == Caught then e1.(motion := e1.motion.(right := false, left := false)) else e1
  }

  /** An enemy never requests both directions at once after deciding,
      provided it did not before. */
  lemma DecideKeepsDirectionsExclusive(e: Obj, p: Obj, n: Roll)
    requires IsEnemy(e) && !(e.motion.right && e.motion.left)
    ensures !(Decide(e, p, n).motion.right && Decide(e, p, n).motion.left)
  {
  }

  /** Mighta.isPlayerInAttackRange: on the same row and strictly closer
      than ten tiles horizontally. */
  predicate InAttackRange(e: Obj, p: Obj)
  {
    RowAligned(e, p) && Distance(p.base.x, e.base.x) < ATTACK_RANGE
  }

  function Distance(a: real, b: real): real { if a < b then b - a else a - b }

  /** The attack gate Mighta.move sets before the inherited move. */
  function MightaGate(e: Obj, p: Obj): (r: Obj)
    requires IsEnemy(e)
    ensures r.actor.canAttack <==> InAttackRange(e, p) && e.kind.state != Caught
    ensures r.base == e.base && r.motion == e.motion && r.kind == e.kind
    ensures r.actor == e.actor.(canAttack := r.actor.canAttack)
  {
    e.(actor := e.actor.(canAttack := InAttackRange(e, p) && e.kind.state != Caught))
  }

  /** A captured Mighta cannot attack, and one exactly ten tiles away cannot
      either. */
  lemma MightaGateBoundaries(e: Obj, p: Obj)
    requires IsEnemy(e)
    ensures e.kind.state == Caught ==> !Entities.Attack(MightaGate(e, p), 0).1
    ensures Distance(p.base.x, e.base.x) == 180.0 ==> !MightaGate(e, p).actor.canAttack
  {
  }

  /** The vertical walk Blubba.move takes before the inherited move. */
  function BlubbaVertical(e: Obj, n: Roll): (r: Obj)
    requires IsEnemy(e)
    ensures IsEnemy(r) && r.kind.state == e.kind.state && r.kind.archetype == e.kind.archetype
    ensures r.base == e.base && r.motion == e.motion && r.actor == e.actor
    ensures e.kind.state == Caught ==> !r.kind.up && !r.kind.down
    ensures e.kind.state != Caught ==> (r.kind.down, r.kind.up) == Walk(e.kind.down, e.kind.up, n)
    ensures !(r.kind.up && r.kind.down)
  {
    var w := Walk(e.kind.down, e.kind.up, n);
    var k := if e.kind.state == Caught then e.kind.(down := false, up := false)
             else e.kind.(down := w.0, up := w.1);
    e.(kind := k)
  }
}

=== FILE: entities.dfy ===
/** The object-level rules of Entity: attack gating, jump gating, the
    horizontal intent, the gravity step and the jump arc. The scans over the
    other objects, which run collision callbacks, live in Movement. */
module Entities {
  import opened Wrappers
  import opened Geometry
  import Utility
  import opened GameObjects

  /** An attack stays active for one whole second of the wall clock. */
  const ATTACK_MS: int := 1000

  /** The jump impulse lost at every tick of a jump. */
  const JUMP_DECAY: real := 0.55

  /** Entity.attack: succeeds only when attacks are allowed and none is
      active; success records the start time. */
  function Attack(e: Obj, now: int): (r: (Obj, bool))
    ensures r.1 <==> e.actor.canAttack && !e.actor.attack
    ensures r.1 ==> r.0.actor.attack && r.0.actor.attackStart == Some(now)
    ensures r.1 ==> r.0.base == e.base && r.0.motion == e.motion && r.0.kind == e.kind
    ensures !r.1 ==> r.0 == e
  {
    if e.actor.canAttack && !e.actor.attack then
      (e.(actor := e.actor.(attack := true, attackStart := Some(now))), true)
    else (e, false)
  }

  /** The first lines of Entity.updatePosition: an active attack is shown as
      attacking, and an attack started at least a second ago ends. */
  function RefreshAttack(e: Obj, now: int): (r: Obj)
    ensures e.actor.attack ==> r.actor.attacking
    ensures !e.actor.attack ==> r.actor.attacking == e.actor.attacking
    ensures e.actor.attackStart.Some? && now - e.actor.attackStart.value >= ATTACK_MS
            ==> !r.actor.attack && r.actor.attackStart.None?
    ensures !(e.actor.attackStart.Some? && now - e.actor.attackStart.value >= ATTACK_MS)
            ==> r.actor.attack == e.actor.attack && r.actor.attackStart == e.actor.attackStart
    ensures r.base == e.base && r.motion == e.motion && r.kind == e.kind
    ensures r.actor.canAttack == e.actor.canAttack && r.actor.jumping == e.actor.jumping
  {
    var a := if e.actor.attack then e.actor.(attacking := true) else e.actor;
    var a' := if a.attackStart.Some? && now - a.attackStart.value >= ATTACK_MS
              then a.(attack := false, attackStart := None) else a;
    e.(actor := a')
  }

  /** One attack per second: after a successful attack a second one fails,
      until a refresh at least a second later re-arms it. */
  lemma AttackOncePerSecond(e: Obj, now: int, later: int)
    requires Attack(e, now).1
    ensures !Attack(Attack(e, now).0, later).1
    ensures later - now >= ATTACK_MS ==> Attack(RefreshAttack(Attack(e, now).0, later), later).1
    ensures later - now < ATTACK_MS ==> !Attack(RefreshAttack(Attack(e, now).0, later), later).1
  {
  }

  /** Entity.setJump (Blubba overrides it with a no-op). */
  function SetJump(e: Obj): (r: Obj)
    ensures e.kind.Enemy? && e.kind.archetype == Blubba ==> r == e
    ensures !(e.kind.Enemy? && e.kind.archetype == Blubba) ==>
              if !e.actor.falling && !e.actor.jumping && !e.actor.jump
              then r.actor.jumping && r.actor.jump && r.actor.falling == e.actor.falling
                   && r.base == e.base && r.motion == e.motion && r.kind == e.kind
              else r == e
  {
    if e.kind.Enemy? && e.kind.archetype == Blubba then e
    else if !e.actor.falling && !e.actor.jumping && !e.actor.jump then
      e.(actor := e.actor.(jumping := true, jump := true))
    else e
  }

  /** A jump request has an effect at most once. */
  lemma SetJumpIdempotent(e: Obj)
    ensures SetJump(SetJump(e)) == SetJump(e)
  {
  }

  /** What the horizontal step aims for: the candidate hitbox, moved by
      `speed` toward the one direction requested, with the flags recording
      which way; with both or neither direction requested it is the current
      hitbox. */
  datatype Intent = Intent(candidate: Rect, movingRight: bool, movingLeft: bool)

  function HorizontalIntent(e: Obj): (r: Intent)
    ensures e.motion.right == e.motion.left ==>
              r.candidate == e.base.hitbox && !r.movingRight && !r.movingLeft
    ensures e.motion.right && !e.motion.left ==>
              r.candidate == e.base.hitbox.(x := Trunc(e.base.x + e.motion.speed), y := Trunc(e.base.y))
              && r.movingRight && !r.movingLeft
    ensures !e.motion.right && e.motion.left ==>
              r.candidate == e.base.hitbox.(x := Trunc(e.base.x - e.motion.speed), y := Trunc(e.base.y))
              && r.movingLeft && !r.movingRight
    ensures r.candidate.width == e.base.hitbox.width && r.candidate.height == e.base.hitbox.height
  {
    if e.motion.right && !e.motion.left then
      Intent(e.base.hitbox.(x := Trunc(e.base.x + e.motion.speed), y := Trunc(e.base.y)), true, false)
    else if !e.motion.right && e.motion.left then
      Intent(e.base.hitbox.(x := Trunc(e.base.x - e.motion.speed), y := Trunc(e.base.y)), false, true)
    else Intent(e.base.hitbox, false, false)
  }

  /** The direction the horizontal step records. */
  function IntentFacing(e: Obj): (r: Facing)
    ensures e.motion.right && !e.motion.left ==> r == FacingRight
    ensures !e.motion.right && e.motion.left ==> r == FacingLeft
    ensures e.motion.right == e.motion.left ==> r == e.motion.direction
  {
    if e.motion.right && !e.motion.left then FacingRight
    else if !e.motion.right && e.motion.left then FacingLeft
    else e.motion.direction
  }

  /** The horizontal clamp against an obstacle hit from the side: flush
      against its right edge on a LEFT hit, its left edge on a RIGHT hit;
      vertical hits leave the candidate alone. */
  function ClampHorizontal(candidate: Rect, d: CollisionDirection, other: Base): (r: Rect)
    ensures d == Left ==> r == candidate.(x := Trunc(other.x + other.width))
    ensures d == Right ==> r == candidate.(x := Trunc(other.x - candidate.width as real))
    ensures d == Top || d == Bottom ==> r == candidate
    ensures r.y == candidate.y && r.width == candidate.width && r.height == candidate.height
  {
    match d
    case Left => candidate.(x := Trunc(other.x + other.width))
    case Right => candidate.(x := Trunc(other.x - candidate.width as real))
    case _ => candidate
  }

  /** A clamp against an obstacle whose sides lie on integer coordinates puts
      the candidate edge to edge with it, so the two no longer overlap. */
  lemma ClampSeparates(candidate: Rect, d: CollisionDirection, other: Base)
    requires d == Left || d == Right
    requires other.x == other.hitbox.x as real && other.width == other.hitbox.width as real
    ensures !Intersects(ClampHorizontal(candidate, d, other), other.hitbox)
  {
    var r := ClampHorizontal(candidate, d, other);
    if d == Left {
      assert r.x == other.hitbox.x + other.hitbox.width;
    } else {
      assert r.x + r.width == other.hitbox.x;
    }
  }

  /** The vertical speed of a gravity step: accelerated by gravity and capped
      at terminal velocity. */
  function FallSpeed(e: Obj): (vs: real)
    ensures vs <= e.motion.terminalVelocity
    ensures vs == e.motion.verticalSpeed + e.motion.gravity || vs == e.motion.terminalVelocity
    ensures e.motion.verticalSpeed + e.motion.gravity <= e.motion.terminalVelocity
            ==> vs == e.motion.verticalSpeed + e.motion.gravity
  {
    var v := e.motion.verticalSpeed + e.motion.gravity;
    if v > e.motion.terminalVelocity then e.motion.terminalVelocity else v
  }

  /** From rest, the fall speed reaches terminal velocity on the second
      gravity step and stays there. */
  lemma FallSpeedSaturates(e: Obj)
    requires e.motion == InitialMotion
    ensures FallSpeed(e) == 3.0
    ensures FallSpeed(e.(motion := e.motion.(verticalSpeed := 3.0))) == 4.0
    ensures FallSpeed(e.(motion := e.motion.(verticalSpeed := 4.0))) == 4.0
  {
  }

  /** The rectangle a gravity step tries. */
  function GravityCandidate(e: Obj, vs: real): (r: Rect)
    ensures r == Rect(Trunc(e.base.x), Trunc(e.base.y + vs), Trunc(e.base.width), Trunc(e.base.height))
  {
    Rect(Trunc(e.base.x), Trunc(e.base.y + vs), Trunc(e.base.width), Trunc(e.base.height))
  }

  /** Landing on an obstacle found below: flush on top of it when falling,
      flush under it otherwise; the fall ends. */
  function LandOn(e: Obj, vs: real, other: Base): (r: Obj)
    ensures vs > 0.0 ==> r.base.y + e.base.height == other.y
    ensures vs <= 0.0 ==> r.base.y == other.y + other.height
    ensures r.motion.verticalSpeed == 0.0 && !r.actor.jump && !r.actor.falling
    ensures r.base.x == e.base.x && r.base.hitbox == e.base.hitbox && r.kind == e.kind
  {
    var y := if vs > 0.0 then other.y - e.base.height else other.y + other.height;
    e.(base := e.base.(y := y),
       motion := e.motion.(verticalSpeed := 0.0),
       actor := e.actor.(jump := false, falling := false))
  }

  /** The wrap at the bottom of the arena: whatever falls out reappears at
      the top. */
  function Wrap(y: real): (r: real)
    ensures r < Utility.HEIGHT as real
    ensures y < Utility.HEIGHT as real ==> r == y
    ensures y >= Utility.HEIGHT as real ==> r == 0.0
  {
    if y >= Utility.HEIGHT as real then 0.0 else y
  }

  /** The arithmetic of one tick of Entity.jump, before the landing scan:
      the impulse is added to the vertical speed, the entity rises by it, and
      the impulse decays; once it is spent the jump ends and the impulse is
      re-armed from the current speed. */
  function JumpArc(e: Obj): (r: Obj)
    ensures r.base.y == e.base.y - (e.motion.verticalSpeed + e.actor.jumpSpeed)
    ensures e.actor.jumpSpeed - JUMP_DECAY > 0.0 ==>
              r.actor.jumping == e.actor.jumping && r.actor.jumpSpeed == e.actor.jumpSpeed - JUMP_DECAY
              && r.motion.verticalSpeed == e.motion.verticalSpeed + e.actor.jumpSpeed
    ensures e.actor.jumpSpeed - JUMP_DECAY <= 0.0 ==>
              !r.actor.jumping && r.actor.jumpSpeed == 1.9 * e.motion.speed && r.motion.verticalSpeed == 0.0
    ensures r.base.x == e.base.x && r.base.hitbox == e.base.hitbox && r.kind == e.kind
    ensures r.motion == e.motion.(verticalSpeed := r.motion.verticalSpeed)
    ensures r.actor == e.actor.(jumpSpeed := r.actor.jumpSpeed, jumping := r.actor.jumping)
  {
    var vs := e.motion.verticalSpeed + e.actor.jumpSpeed;
    var y := e.base.y - vs;
    var js := e.actor.jumpSpeed - JUMP_DECAY;
    if js <= 0.0 then
      e.(base := e.base.(y := y), motion := e.motion.(verticalSpeed := 0.0),
         actor := e.actor.(jumpSpeed := 1.9 * e.motion.speed, jumping := false))
    else
      e.(base := e.base.(y := y), motion := e.motion.(verticalSpeed := vs),
         actor := e.actor.(jumpSpeed := js))
  }

  /** The end-of-jump landing rule against one overlapping obstacle (y grows
      downward): under it when the entity's top lies below the obstacle's
      middle, on top of it otherwise. */
  function LandingY(e: Obj, other: Base): (y: real)
    ensures e.base.y > other.y + other.height / 2.0 ==> y == other.y + other.height
    ensures e.base.y <= other.y + other.height / 2.0 ==> y + e.base.height == other.y
  {
    if e.base.y > other.y + other.height / 2.0 then other.y + other.height else other.y - e.base.height
  }

  /** k ticks of the jump arc. */
  function Arc(e: Obj, k: nat): (r: Obj)
    decreases k
  {
    if k == 0 then e else Arc(JumpArc(e), k - 1)
  }

  /** While the impulse lasts, every tick takes exactly JUMP_DECAY off it and
      the entity keeps jumping; the tick that spends it ends the jump. */
  lemma {:induction false} ArcDecays(e: Obj, k: nat)
    requires e.actor.jumping
    requires e.actor.jumpSpeed - (k as real) * JUMP_DECAY > 0.0
    ensures Arc(e, k).actor.jumping
    ensures Arc(e, k).actor.jumpSpeed == e.actor.jumpSpeed - (k as real) * JUMP_DECAY
    ensures Arc(e, k).motion.speed == e.motion.speed
    decreases k
  {
    if k > 0 {
      var e1 := JumpArc(e);
      assert e1.actor.jumpSpeed == e.actor.jumpSpeed - JUMP_DECAY;
      ArcDecays(e1, k - 1);
    }
  }

  /** A jump started with the initial impulse 3.8 lasts seven ticks: it is
      still under way after six and over after the seventh, with the
      vertical speed zeroed and the impulse re-armed as 1.9 * speed. */
  lemma FreshJumpLastsSevenTicks(e: Obj)
    requires e.actor.jumping && e.actor.jumpSpeed == 3.8
    ensures Arc(e, 6).actor.jumping
    ensures !Arc(e, 7).actor.jumping
    ensures Arc(e, 7).motion.verticalSpeed == 0.0
    ensures Arc(e, 7).actor.jumpSpeed == 1.9 * e.motion.speed
  {
    ArcDecays(e, 6);
    var e6 := Arc(e, 6);
    assert Arc(e, 7) == JumpArc(e6) by {
      ArcShift(e, 6);
    }
  }

  lemma {:induction false} ArcShift(e: Obj, k: nat)
    ensures Arc(e, k + 1) == JumpArc(Arc(e, k))
    decreases k
  {
    if k > 0 {
      ArcShift(JumpArc(e), k - 1);
    }
  }
}

=== FILE: game_objects.dfy ===
/** The object records of the arena: GameObject (position, size, hitbox,
    visibility, destruction), MovableObject (speed, gravity, intent flags),
    Entity (jump/attack flags) and the per-class fields, composed into one
    immutable record with a tagged kind. */
module GameObjects {
  import opened Wrappers
  import opened Geometry

  /** A reference to an object: its index in the world's heap. */
  type Ref = nat

  datatype Facing = FacingLeft | FacingRight

  datatype WallType = TypeOne | TypeTwo | TypeThree | TypeFour | TypeFive | TypeSix | TypeSeven | TypeEight

  datatype Archetype = ZenChan | Mighta | Blubba

  datatype EnemyState = Patrol | Caught | Freed | Attack

  datatype PowerUpType =
    Mushroom | Cherry | GreenPepper | Grape | Carrot | IceCream | Watermelon | Turnip | Hamburger | Cake

  /** GameObject fields. */
  datatype Base = Base(x: real, y: real, width: real, height: real, hitbox: Rect, visible: bool, toDestroy: bool)

  /** MovableObject fields (inert for walls, which are not movable). */
  datatype Motion = Motion(
    speed: real, gravity: real, verticalSpeed: real, terminalVelocity: real,
    direction: Facing, right: bool, left: bool, moving: bool)

  /** Entity fields (inert for walls, bubbles and boulders). `attackStart` is
      the clock reading of the last successful attack, in milliseconds. */
  datatype Actor = Actor(
    canAttack: bool, jump: bool, attack: bool, jumping: bool, falling: bool,
    attacking: bool, jumpSpeed: real, attackStart: Option<int>)

  /** The fields of the concrete classes. A bubble's `goingUp` is the source's
      UP flag; `reachedTime` is in milliseconds. */
  datatype Kind =
    | Wall(wallType: WallType)
    | Player(lives: int, invincible: bool, invincibilityTimer: int)
    | Enemy(archetype: Archetype, state: EnemyState, up: bool, down: bool)
    | Bubble(canCatch: bool, goingUp: bool, offset: real, caughtEnemy: Option<Ref>,
             reachedTopMiddle: bool, reachedTime: int)
    | Boulder
    | PowerUp(powerUpType: PowerUpType, points: int)

  datatype Obj = Obj(base: Base, motion: Motion, actor: Actor, kind: Kind)

  /** The runtime class, as `getClass()` distinguishes it. */
  datatype Class =
    WallClass | PlayerClass | ZenChanClass | MightaClass | BlubbaClass | BubbleClass | BoulderClass | PowerUpClass

  function ClassOf(o: Obj): Class
  {
    match o.kind
    case Wall(_) => WallClass
    case Player(_, _, _) => PlayerClass
    case Enemy(a, _, _, _) => (match a case ZenChan => ZenChanClass case Mighta => MightaClass case Blubba => BlubbaClass)
    case Bubble(_, _, _, _, _, _) => BubbleClass
    case Boulder => BoulderClass
    case PowerUp(_, _) => PowerUpClass
  }

  /** Classes implementing Collidable: every MovableObject, never a Wall. */
  predicate IsCollidable(o: Obj) { !o.kind.Wall? }

  /** Player, Enemy and PowerUp extend Entity. */
  predicate IsEntity(o: Obj) { o.kind.Player? || o.kind.Enemy? || o.kind.PowerUp? }

  const NORMAL_SPEED: real := 2.0

  /** The hitbox agrees with the truncated position and size. */
  predicate InSync(b: Base)
  {
    b.hitbox == Rect(Trunc(b.x), Trunc(b.y), Trunc(b.width), Trunc(b.height))
  }

  /** GameObject's constructor (note the source's parameter order: height
      before width) followed by initHitbox. */
  function NewBase(x: real, y: real, height: real, width: real): (b: Base)
    ensures b.visible && !b.toDestroy && InSync(b)
    ensures b.x == x && b.y == y && b.width == width && b.height == height
  {
    Base(x, y, width, height, Rect(Trunc(x), Trunc(y), Trunc(width), Trunc(height)), true, false)
  }

  /** MovableObject's constructor values. */
  const InitialMotion: Motion :=
    Motion(NORMAL_SPEED, 1.5 * NORMAL_SPEED, 0.0, 2.0 * NORMAL_SPEED, FacingRight, false, false, false)

  /** Entity's constructor values. */
  const InitialActor: Actor :=
    Actor(false, false, false, false, false, false, 1.9 * NORMAL_SPEED, None)

  lemma InitialMotionValues()
    ensures InitialMotion.speed == 2.0 && InitialMotion.gravity == 3.0
    ensures InitialMotion.terminalVelocity == 4.0 && InitialMotion.verticalSpeed == 0.0
    ensures !InitialMotion.right && !InitialMotion.left && !InitialMotion.moving
    ensures InitialMotion.direction == FacingRight
    ensures InitialActor.jumpSpeed == 3.8 && !InitialActor.canAttack && InitialActor.attackStart.None?
  {
  }

  /** A wall: a fixed 18 x 18 obstacle with a cosmetic type. */
  function NewWall(x: real, y: real, t: WallType): (w: Obj)
    ensures w.base.width == 18.0 && w.base.height == 18.0
    ensures w.base.visible && !w.base.toDestroy && InSync(w.base)
    ensures w.kind == Wall(t) && !IsCollidable(w)
    ensures w.base.x == x && w.base.y == y
  {
    Obj(NewBase(x, y, 18.0, 18.0), InitialMotion, InitialActor, Wall(t))
  }

  /** GameObject.setX: only the coordinate changes, the hitbox is left as it was. */
  function SetX(o: Obj, x: real): (r: Obj)
    ensures r.base.x == x && r.base.hitbox == o.base.hitbox
    ensures r == o.(base := r.base) && r.base == o.base.(x := x)
  {
    o.(base := o.base.(x := x))
  }

  /** GameObject.setY: only the coordinate changes, the hitbox is left as it was. */
  function SetY(o: Obj, y: real): (r: Obj)
    ensures r.base.y == y && r.base.hitbox == o.base.hitbox
    ensures r == o.(base := r.base) && r.base == o.base.(y := y)
  {
    o.(base := o.base.(y := y))
  }

  /** Moving an object to a position with a different truncation leaves its
      hitbox stale until the next updateHitbox. */
  lemma SetXLeavesHitboxStale(o: Obj, x: real)
    requires InSync(o.base) && Trunc(x) != Trunc(o.base.x)
    ensures !InSync(SetX(o, x).base)
  {
  }

  lemma SetYLeavesHitboxStale(o: Obj, y: real)
    requires InSync(o.base) && Trunc(y) != Trunc(o.base.y)
    ensures !InSync(SetY(o, y).base)
  {
  }

  /** GameObject.destroy. */
  function Destroy(o: Obj): (r: Obj)
    ensures r.base.toDestroy
    ensures r.kind == o.kind && r.motion == o.motion && r.actor == o.actor
    ensures r.base == o.base.(toDestroy := true)
  {
    o.(base := o.base.(toDestroy := true))
  }

  function SetVisible(o: Obj, visible: bool): (r: Obj)
    ensures r.base.visible == visible && r.base == o.base.(visible := visible)
    ensures r.kind == o.kind && r.motion == o.motion && r.actor == o.actor
  {
    o.(base := o.base.(visible := visible))
  }

  /** GameObject.updateHitbox: the hitbox follows the position; its size is
      untouched, so an object whose hitbox size was right is back in sync. */
  function UpdateHitbox(o: Obj): (r: Obj)
    ensures r.base.hitbox.width == o.base.hitbox.width && r.base.hitbox.height == o.base.hitbox.height
    ensures r.base.hitbox.x == Trunc(o.base.x) && r.base.hitbox.y == Trunc(o.base.y)
    ensures r.base.x == o.base.x && r.base.y == o.base.y
    ensures o.base.hitbox.width == Trunc(o.base.width) && o.base.hitbox.height == Trunc(o.base.height)
            ==> InSync(r.base)
    ensures r.kind == o.kind && r.motion == o.motion && r.actor == o.actor
    ensures r.base == o.base.(hitbox := r.base.hitbox)
  {
    o.(base := o.base.(hitbox := o.base.hitbox.(x := Trunc(o.base.x), y := Trunc(o.base.y))))
  }

  /** GameObject.equals: same runtime class and equal hitboxes. The class
      is the kind of object and, for enemies, the archetype; the position
      fields, motion and state take no part. */
  function Equal(a: Obj, b: Obj): (e: bool)
    ensures e <==> a.base.hitbox == b.base.hitbox
                   && a.kind.Wall? == b.kind.Wall? && a.kind.Player? == b.kind.Player?
                   && a.kind.Enemy? == b.kind.Enemy? && a.kind.Bubble? == b.kind.Bubble?
                   && a.kind.Boulder? == b.kind.Boulder? && a.kind.PowerUp? == b.kind.PowerUp?
                   && (a.kind.Enemy? && b.kind.Enemy? ==> a.kind.archetype == b.kind.archetype)
  {
    ClassOf(a) == ClassOf(b) && a.base.hitbox == b.base.hitbox
  }

  /** equals is an equivalence relation. */
  lemma EqualIsEquivalence(a: Obj, b: Obj, c: Obj)
    ensures Equal(a, a)
    ensures Equal(a, b) ==> Equal(b, a)
    ensures Equal(a, b) && Equal(b, c) ==> Equal(a, c)
  {
  }

  /** Objects that are equal are indistinguishable to the collision test:
      every candidate hits both or neither, from the same direction. */
  lemma EqualObjectsCollideAlike(a: Obj, b: Obj, candidate: Rect)
    requires Equal(a, b)
    ensures Intersects(candidate, a.base.hitbox) == Intersects(candidate, b.base.hitbox)
    ensures CalculateDirection(candidate, a.base.hitbox) == CalculateDirection(candidate, b.base.hitbox)
  {
  }

  /** MovableObject setters. */
  function SetDirection(o: Obj, d: Facing): (r: Obj)
    ensures r.motion.direction == d && r.motion == o.motion.(direction := d)
    ensures r.base == o.base && r.actor == o.actor && r.kind == o.kind
  {
    o.(motion := o.motion.(direction := d))
  }

  function SetSpeed(o: Obj, s: real): (r: Obj)
    ensures r.motion.speed == s && r.motion == o.motion.(speed := s)
    ensures r.base == o.base && r.actor == o.actor && r.kind == o.kind
  {
    o.(motion := o.motion.(speed := s))
  }

  function SetRight(o: Obj, b: bool): (r: Obj)
    ensures r.motion.right == b && r.motion == o.motion.(right := b)
    ensures r.base == o.base && r.actor == o.actor && r.kind == o.kind
  {
    o.(motion := o.motion.(right := b))
  }

  function SetLeft(o: Obj, b: bool): (r: Obj)
    ensures r.motion.left == b && r.motion == o.motion.(left := b)
    ensures r.base == o.base && r.actor == o.actor && r.kind == o.kind
  {
    o.(motion := o.motion.(left := b))
  }

  /** Setting a value and reading it back yields the value set; setting the
      same field twice keeps only the last write. */
  lemma SettersRoundTrip(o: Obj, d: Facing, d': Facing, s: real, s': real)
    ensures SetDirection(o, d).motion.direction == d
    ensures SetDirection(SetDirection(o, d), d') == SetDirection(o, d')
    ensures SetSpeed(o, s).motion.speed == s
    ensures SetSpeed(SetSpeed(o, s), s') == SetSpeed(o, s')
    ensures SetRight(SetLeft(o, true), true) == SetLeft(SetRight(o, true), true)
  {
  }

  /** How one object may change across any step of the game: class and size
      are fixed, a destroyed object stays destroyed, walls never change,
      a bubble never regains the ability to catch, keeps the enemy it caught
      (catching one only while it may catch, and losing the ability in doing
      so), records reaching the top middle once, enemies never return to
      PATROL, and power-ups keep their type and value. */
  ghost predicate ObjEvolves(a: Obj, b: Obj)
  {
    && ClassOf(a) == ClassOf(b)
    && a.base.width == b.base.width && a.base.height == b.base.height
    && (a.base.toDestroy ==> b.base.toDestroy)
    && (a.kind.Wall? ==> b == a)
    && (a.kind.Bubble? ==>
          && (!a.kind.canCatch ==> !b.kind.canCatch)
          && (a.kind.caughtEnemy.Some? ==> b.kind.caughtEnemy == a.kind.caughtEnemy)
          && (a.kind.caughtEnemy.None? && b.kind.caughtEnemy.Some? ==> a.kind.canCatch && !b.kind.canCatch)
          && (a.kind.reachedTopMiddle ==> b.kind.reachedTopMiddle && b.kind.reachedTime == a.kind.reachedTime))
    && (a.kind.Enemy? ==> b.kind.state == a.kind.state || b.kind.state == Caught || b.kind.state == Freed)
    && (a.kind.PowerUp? ==> b.kind == a.kind)
  }

  lemma ObjEvolvesTransitive(a: Obj, b: Obj, c: Obj)
    requires ObjEvolves(a, b) && ObjEvolves(b, c)
    ensures ObjEvolves(a, c)
  {
  }

  /** Every base operation is an allowed evolution of a movable object. */
  lemma BaseOperationsEvolve(o: Obj, x: real, v: bool, d: Facing, s: real, b: bool)
    requires !o.kind.Wall?
    ensures ObjEvolves(o, SetX(o, x)) && ObjEvolves(o, SetY(o, x))
    ensures ObjEvolves(o, Destroy(o)) && ObjEvolves(o, UpdateHitbox(o))
    ensures ObjEvolves(o, SetVisible(o, v)) && ObjEvolves(o, SetDirection(o, d))
    ensures ObjEvolves(o, SetSpeed(o, s)) && ObjEvolves(o, SetRight(o, b)) && ObjEvolves(o, SetLeft(o, b))
  {
  }
}

=== FILE: geometry.dfy ===
/** Integer rectangles (java.awt.Rectangle), the Java `(int)` cast and the
    collision direction classifier of CollisionDetection. */
module Geometry {

  /** A java.awt.Rectangle: integer corner and integer size. */
  datatype Rect = Rect(x: int, y: int, width: int, height: int)

  /** Java's `(int)` cast of a double: truncation toward zero. Saturation at
      the int range is not modelled. */
  function Trunc(r: real): (n: int)
    ensures r >= 0.0 ==> n as real <= r < n as real + 1.0
    ensures r < 0.0 ==> n as real - 1.0 < r <= n as real
  {
    if r >= 0.0 then r.Floor else -((-r).Floor)
  }

  /** Rectangle.intersects as the JDK writes it; with unbounded integers the
      "overflow" disjuncts can only hold for non-positive sizes, which the
      first test already rejects. */
  function Intersects(a: Rect, r: Rect): (b: bool)
    ensures b <==> a.width > 0 && a.height > 0 && r.width > 0 && r.height > 0
                   && r.x < a.x + a.width && a.x < r.x + r.width
                   && r.y < a.y + a.height && a.y < r.y + r.height
  {
    if r.width <= 0 || r.height <= 0 || a.width <= 0 || a.height <= 0 then false
    else
      var rw := r.width + r.x;
      var rh := r.height + r.y;
      var tw := a.width + a.x;
      var th := a.height + a.y;
      (rw < r.x || rw > a.x) && (rh < r.y || rh > a.y) &&
      (tw < a.x || tw > r.x) && (th < a.y || th > r.y)
  }

  /** Rectangle.contains(int, int) (Rectangle.inside in the JDK). */
  function Contains(a: Rect, px: int, py: int): (b: bool)
    ensures b <==> a.x <= px < a.x + a.width && a.y <= py < a.y + a.height
  {
    if a.width < 0 || a.height < 0 then false
    else if px < a.x || py < a.y then false
    else
      var w := a.width + a.x;
      var h := a.height + a.y;
      (w < a.x || w > px) && (h < a.y || h > py)
  }

  /** Two rectangles intersect exactly when some integer point lies in both:
      the JDK formula agrees with the geometric reading, in both directions. */
  lemma IntersectsIffSharedPoint(a: Rect, b: Rect)
    ensures Intersects(a, b) <==> exists px, py :: Contains(a, px, py) && Contains(b, px, py)
  {
    if Intersects(a, b) {
      var px := if a.x < b.x then b.x else a.x;
      var py := if a.y < b.y then b.y else a.y;
      assert Contains(a, px, py) && Contains(b, px, py);
    }
    if exists px, py :: Contains(a, px, py) && Contains(b, px, py) {
      var px, py :| Contains(a, px, py) && Contains(b, px, py);
      assert a.width > 0 && b.width > 0 && a.height > 0 && b.height > 0;
    }
  }

  /** Rectangles that only share an edge do not intersect. */
  lemma TouchingEdgesMiss(a: Rect, b: Rect)
    requires a.x + a.width == b.x || a.y + a.height == b.y
    ensures !Intersects(a, b) && !Intersects(b, a)
  {
  }

  /** The coarse direction of a hit: where the other rectangle's centre lies
      relative to the candidate's centre along the dominant axis. */
  datatype CollisionDirection = Top | Bottom | Right | Left

  /** Twice the x coordinate of the centre: getCenterX() is x + width / 2.0,
      and doubling keeps the comparison in integers. */
  function CentreX2(r: Rect): int { 2 * r.x + r.width }
  function CentreY2(r: Rect): int { 2 * r.y + r.height }

  function Abs(n: int): nat { if n < 0 then -n else n }

  /** CollisionDetection.calculateDirection: the other centre lies in the
      quarter-plane cone around the returned direction (y grows downward);
      the diagonals belong to the vertical cones. */
  function CalculateDirection(a: Rect, b: Rect): (d: CollisionDirection)
    ensures d == Right ==> CentreX2(b) - CentreX2(a) > Abs(CentreY2(b) - CentreY2(a))
    ensures d == Left ==> CentreX2(a) - CentreX2(b) > Abs(CentreY2(b) - CentreY2(a))
    ensures d == Bottom ==> CentreY2(b) - CentreY2(a) > 0 && CentreY2(b) - CentreY2(a) >= Abs(CentreX2(b) - CentreX2(a))
    ensures d == Top ==> CentreY2(a) - CentreY2(b) >= Abs(CentreX2(b) - CentreX2(a))
  {
    var dx := CentreX2(b) - CentreX2(a);
    var dy := CentreY2(b) - CentreY2(a);
    if Abs(dx) > Abs(dy) then (if dx > 0 then Right else Left)
    else (if dy > 0 then Bottom else Top)
  }

  function Mirror(d: CollisionDirection): CollisionDirection
  {
    match d
    case Top => Bottom
    case Bottom => Top
    case Right => Left
    case Left => Right
  }

  /** Horizontal directions are chosen only when the horizontal offset of the
      centres strictly dominates; ties go vertical. */
  lemma HorizontalOnlyWhenDominant(a: Rect, b: Rect)
    ensures CalculateDirection(a, b) in {Left, Right} <==>
            Abs(CentreX2(b) - CentreX2(a)) > Abs(CentreY2(b) - CentreY2(a))
    ensures CalculateDirection(a, b) == Right <==>
            CentreX2(b) - CentreX2(a) > Abs(CentreY2(b) - CentreY2(a))
    ensures CalculateDirection(a, b) == Bottom <==>
            CentreY2(b) - CentreY2(a) > 0 && Abs(CentreX2(b) - CentreX2(a)) <= CentreY2(b) - CentreY2(a)
  {
  }

  /** Coincident centres classify as TOP. */
  lemma CoincidentCentresGiveTop(a: Rect, b: Rect)
    requires CentreX2(a) == CentreX2(b) && CentreY2(a) == CentreY2(b)
    ensures CalculateDirection(a, b) == Top
  {
  }

  /** Swapping the rectangles mirrors the direction when the centres differ. */
  lemma SwapMirrors(a: Rect, b: Rect)
    requires CentreX2(a) != CentreX2(b) || CentreY2(a) != CentreY2(b)
    ensures CalculateDirection(b, a) == Mirror(CalculateDirection(a, b))
  {
  }

  /** The direction depends on the two centres only: moving both rectangles
      by the same offset, or reshaping them around the same centres, does not
      change it. */
  lemma DirectionDependsOnCentresOnly(a: Rect, b: Rect, a': Rect, b': Rect)
    requires CentreX2(b) - CentreX2(a) == CentreX2(b') - CentreX2(a')
    requires CentreY2(b) - CentreY2(a) == CentreY2(b') - CentreY2(a')
    ensures CalculateDirection(a, b) == CalculateDirection(a', b')
  {
  }
}

=== FILE: key_handler.dfy ===
/** KeyHandler (src/Controller/KeyHandler.java): what a key press, a key
    release or a typed character does in each game state. */
module KeyHandler {
  import opened Wrappers
  import opened GameObjects
  import opened World
  import Controller
  import Entities
  import MenuPanel
  import RegisterPanel
  import ScrollLogin
  import LevelMap

  /** The key codes the handler tests; every other key is `OtherKey`. */
  datatype Key = Enter | Up | Down | Left | Right | KeyN | KeyP | KeyS | KeyZ | Space | BackSpace | Delete | OtherKey

  /** What the handlers rely on: a well-formed session and panels whose
      cursors lie on an entry. */
  predicate Ready(s: Session)
  {
    Wf(s) && MenuPanel.Valid(s.menu) && RegisterPanel.Valid(s.register) && ScrollLogin.Valid(s.login)
  }

  /** Character.isISOControl: U+0000 to U+001F and U+007F to U+009F. */
  predicate IsIsoControl(c: char)
  {
    c <= '\U{1F}' || ('\U{7F}' <= c <= '\U{9F}')
  }

  /** keyTyped: on the registration screen a printable character is
      appended to the nickname through `setText`, which the five-character
      filter may refuse. */
  function KeyTyped(s: Session, c: char): (t: Session)
    requires Ready(s)
    ensures Ready(t) && t == s.(register := t.register)
    ensures t.register.selectedImage == s.register.selectedImage
    ensures var f := s.register.nickname;
            if s.state == RegisterState && !IsIsoControl(c) && |f.text| < RegisterPanel.MAX_CHARACTERS
            then t.register.nickname == RegisterPanel.TextField(f.text + [c], |f.text| + 1)
            else t == s
  {
    if s.state == RegisterState && !IsIsoControl(c) then
      var f := s.register.nickname;
      s.(register := s.register.(nickname := RegisterPanel.SetText(f, f.text + [c])))
    else s
  }

  /** handleBackspace: the character before the caret goes, if there is one. */
  function HandleBackspace(s: Session): (t: Session)
    requires Ready(s)
    ensures Ready(t) && t == s.(register := t.register)
    ensures var f := s.register.nickname;
            f.caret > 0 ==>
              && t.register.nickname.text == f.text[..f.caret - 1] + f.text[f.caret..]
              && t.register.nickname.caret == f.caret - 1
    ensures s.register.nickname.caret == 0 ==> t == s
  {
    var f := s.register.nickname;
    if f.caret > 0 then
      match RegisterPanel.RemoveAt(f, f.caret - 1)
      case Success(g) => s.(register := s.register.(nickname := g))
      case Failure(_) => s
    else s
  }

  /** handleDelete: the character after the caret goes, if there is one. */
  function HandleDelete(s: Session): (t: Session)
    requires Ready(s)
    ensures Ready(t) && t == s.(register := t.register)
    ensures var f := s.register.nickname;
            f.caret < |f.text| ==>
              && t.register.nickname.text == f.text[..f.caret] + f.text[f.caret + 1..]
              && t.register.nickname.caret == f.caret
    ensures s.register.nickname.caret == |s.register.nickname.text| ==> t == s
  {
    var f := s.register.nickname;
    if f.caret < |f.text| then
      match RegisterPanel.RemoveAt(f, f.caret)
      case Success(g) => s.(register := s.register.(nickname := g))
      case Failure(_) => s
    else s
  }

  /** Typing a character into a nickname with room left and erasing it with
      backspace gives back the nickname. */
  lemma TypeThenBackspace(s: Session, c: char)
    requires Ready(s) && s.state == RegisterState && !IsIsoControl(c)
    requires |s.register.nickname.text| < RegisterPanel.MAX_CHARACTERS
    ensures HandleBackspace(KeyTyped(s, c)).register.nickname.text == s.register.nickname.text
  {
    var f := s.register.nickname;
    assert (f.text + [c])[..|f.text|] == f.text;
  }

  /** Applies an update of the player object. */
  function WithPlayer(s: Session, p: Obj): (t: Session)
    requires Wf(s) && ClassOf(p) == ClassOf(Get(s, s.player))
    ensures Wf(t) && t == s.(heap := t.heap) && Get(t, s.player) == p
    ensures forall q :: q != s.player ==> Get(t, q) == Get(s, q)
  {
    var t := Put(s, s.player, p);
    assert ClassOf(t.heap[t.player]) == PlayerClass;
    t
  }

  /** The start of a game from the key handler: when startGame completes,
      the panel switches to RUNNING; when it throws, nothing more runs. */
  function Launch(s: Session): (t: Session)
    requires Ready(s)
    ensures Ready(t)
    ensures t.state == (if HasLevelOne(s) then Running else s.state)
    ensures t.currentUser == s.currentUser && t.currentLevel == 1
  {
    var r := Controller.StartGame(s);
    if r.1 then Controller.ChangePanel(r.0, Running) else r.0
  }

  /** Whether level 1's file can be read. */
  predicate HasLevelOne(s: Session) { LevelMap.LevelOne in s.levelFiles }

  /** handleLoginState. ENTER plays as the selected user; an empty list
      makes `users.get` throw, which ends the handler with nothing
      changed. */
  function LoginKey(s: Session, k: Key): (t: Session)
    requires Ready(s) && s.state == LoginState
    ensures Ready(t)
    ensures k == Down ==> t == s.(login := ScrollLogin.MoveSelectionDown(s.login))
    ensures k == Up ==> t == s.(login := ScrollLogin.MoveSelectionUp(s.login))
    ensures k == KeyN ==> t == s.(state := MenuState)
    ensures k == Enter ==>
              match ScrollLogin.SelectedUser(s.login, s.users)
              case Success(u) => t.currentUser == Some(u) && t.currentLevel == 1
                                 && (t.state == Running <==> HasLevelOne(s))
              case Failure(_) => t == s
    ensures k !in {Down, Up, KeyN, Enter} ==> t == s
  {
    match k
    case Down => s.(login := ScrollLogin.MoveSelectionDown(s.login))
    case Up => s.(login := ScrollLogin.MoveSelectionUp(s.login))
    case KeyN => Controller.ChangePanel(s, MenuState)
    case Enter =>
      (match ScrollLogin.SelectedUser(s.login, s.users)
       case Success(u) =>
         assert u in s.users;
         Launch(s.(currentUser := Some(u)))
       case Failure(_) => s)
    case _ => s
  }

  /** handleMenuState. ENTER opens the registration screen, the saved
      games, or ends the program (None). */
  function MenuKey(s: Session, k: Key): (r: Option<Session>)
    requires Ready(s) && s.state == MenuState
    ensures r.Some? ==> Ready(r.value)
    ensures r.None? <==> k == Enter && s.menu.selectedOption == MenuPanel.EXIT
    ensures k == Up ==> r == Some(s.(menu := MenuPanel.MoveSelectionUp(s.menu)))
    ensures k == Down ==> r == Some(s.(menu := MenuPanel.MoveSelectionDown(s.menu)))
    ensures k == Enter && s.menu.selectedOption == MenuPanel.NEW_GAME ==> r == Some(s.(state := RegisterState))
    ensures k == Enter && s.menu.selectedOption == MenuPanel.CONTINUE ==>
              r.Some? && r.value.state == LoginState && r.value.login.selectedUser == 0
              && r.value == s.(state := LoginState, login := r.value.login)
    ensures k == KeyN ==> r == Some(s.(state := StartState))
    ensures k !in {Up, Down, Enter, KeyN} ==> r == Some(s)
  {
    match k
    case Up => Some(s.(menu := MenuPanel.MoveSelectionUp(s.menu)))
    case Down => Some(s.(menu := MenuPanel.MoveSelectionDown(s.menu)))
    case Enter =>
      if s.menu.selectedOption == MenuPanel.NEW_GAME then Some(Controller.ChangePanel(s, RegisterState))
      else if s.menu.selectedOption == MenuPanel.CONTINUE then Some(Controller.ChangePanel(s, LoginState))
      else None
    case KeyN => Some(Controller.ChangePanel(s, StartState))
    case _ => Some(s)
  }

  /** handleRegisterState. ENTER registers the nickname with the shown
      avatar, then starts the game. */
  function RegisterKey(s: Session, k: Key): (t: Session)
    requires Ready(s) && s.state == RegisterState
    ensures Ready(t)
    ensures k == Right ==> t == s.(register := RegisterPanel.MoveSelectionUp(s.register))
    ensures k == Left ==> t == s.(register := RegisterPanel.MoveSelectionDown(s.register))
    ensures k == BackSpace ==> t == HandleBackspace(s)
    ensures k == Delete ==> t == HandleDelete(s)
    ensures k == Enter ==>
              && |t.store| == |s.store| + 1 && t.currentUser == Some(|s.store|)
              && t.store[|s.store|].nickname == s.register.nickname.text
              && t.store[|s.store|].avatar == RegisterPanel.CurrentImagePath(s.register)
              && t.users == s.users + [|s.store|] && t.currentLevel == 1
    ensures k == KeyN ==> t == s.(state := MenuState)
    ensures k !in {Right, Left, BackSpace, Delete, Enter, KeyN} ==> t == s
  {
    match k
    case Right => s.(register := RegisterPanel.MoveSelectionUp(s.register))
    case Left => s.(register := RegisterPanel.MoveSelectionDown(s.register))
    case BackSpace => HandleBackspace(s)
    case Delete => HandleDelete(s)
    case Enter => RegisterEnter(s)
    case KeyN => Controller.ChangePanel(s, MenuState)
    case _ => s
  }

  /** ENTER on the registration screen: the nickname and the shown avatar
      become a new account, which is current, and the game starts. */
  function RegisterEnter(s: Session): (t: Session)
    requires Ready(s) && s.state == RegisterState
    ensures Ready(t)
    ensures |t.store| == |s.store| + 1 && t.currentUser == Some(|s.store|)
    ensures t.store[|s.store|].nickname == s.register.nickname.text
    ensures t.store[|s.store|].avatar == RegisterPanel.CurrentImagePath(s.register)
    ensures t.users == s.users + [|s.store|] && t.currentLevel == 1
  {
    var s1 := Controller.AddUser(s, s.register.nickname.text, RegisterPanel.CurrentImagePath(s.register));
    Launch(s1)
  }

  /** handleRunningState: P pauses, SPACE jumps, the arrows start moving,
      Z blows a bubble and S skips to the next level. */
  function RunningKey(s: Session, k: Key, now: int): (t: Session)
    requires Ready(s) && s.state == Running
    ensures Ready(t)
    ensures k == KeyP ==> t == s.(state := Pause)
    ensures k == Space ==> t == s.(heap := t.heap) && Get(t, s.player) == Entities.SetJump(Get(s, s.player))
    ensures k == Left ==> t == s.(heap := t.heap) && Get(t, s.player) == SetLeft(Get(s, s.player), true)
    ensures k == Right ==> t == s.(heap := t.heap) && Get(t, s.player) == SetRight(Get(s, s.player), true)
    ensures k == KeyZ ==> t == Controller.PlayerBubble(s, now)
    ensures k == KeyS ==> t.currentLevel == s.currentLevel + 1
    ensures k !in {KeyP, Space, Left, Right, KeyZ, KeyS} ==> t == s
  {
    var p := Get(s, s.player);
    match k
    case KeyP => Controller.ChangePanel(s, Pause)
    case Space => WithPlayer(s, Entities.SetJump(p))
    case Left => WithPlayer(s, SetLeft(p, true))
    case Right => WithPlayer(s, SetRight(p, true))
    case KeyZ => Controller.PlayerBubble(s, now)
    case KeyS => Controller.ChangeLevel(s)
    case _ => s
  }

  /** keyPressed: dispatch on the game state. None is the program's exit. */
  function KeyPressed(s: Session, k: Key, now: int): (r: Option<Session>)
    requires Ready(s)
    ensures r.Some? ==> Ready(r.value)
    ensures r.None? <==> s.state == MenuState && k == Enter && s.menu.selectedOption == MenuPanel.EXIT
    ensures s.state in {GameOver, Victory} ==>
              r == Some(if k == Enter then Controller.ChangePanel(s, Rank) else s)
    ensures s.state == Pause ==> r == Some(if k == KeyP then s.(state := Running) else s)
    ensures s.state == Rank ==> r == Some(if k == Enter then s.(state := StartState) else s)
    ensures s.state == StartState ==> r == Some(if k == Enter then s.(state := MenuState) else s)
  {
    match s.state
    case GameOver => Some(if k == Enter then Controller.ChangePanel(s, Rank) else s)
    case LoginState => Some(LoginKey(s, k))
    case MenuState => MenuKey(s, k)
    case Pause => Some(if k == KeyP then Controller.ChangePanel(s, Running) else s)
    case Rank => Some(if k == Enter then Controller.ChangePanel(s, StartState) else s)
    case RegisterState => Some(RegisterKey(s, k))
    case Running => Some(RunningKey(s, k, now))
    case StartState => Some(if k == Enter then Controller.ChangePanel(s, MenuState) else s)
    case Victory => Some(if k == Enter then Controller.ChangePanel(s, Rank) else s)
  }

  /** keyReleased: while RUNNING, releasing an arrow stops that way. */
  function KeyReleased(s: Session, k: Key): (t: Session)
    requires Ready(s)
    ensures Ready(t)
    ensures s.state == Running && k == Left ==>
              t == s.(heap := t.heap) && Get(t, s.player) == SetLeft(Get(s, s.player), false)
    ensures s.state == Running && k == Right ==>
              t == s.(heap := t.heap) && Get(t, s.player) == SetRight(Get(s, s.player), false)
    ensures !(s.state == Running && k in {Left, Right}) ==> t == s
  {
    if s.state == Running && k == Left then WithPlayer(s, SetLeft(Get(s, s.player), false))
    else if s.state == Running && k == Right then WithPlayer(s, SetRight(Get(s, s.player), false))
    else s
  }

  /** P pauses a running game and P again resumes it exactly as it was. */
  lemma PauseKeyRoundTrip(s: Session, now: int)
    requires Ready(s) && s.state == Running
    ensures KeyPressed(s, KeyP, now).Some?
    ensures KeyPressed(KeyPressed(s, KeyP, now).value, KeyP, now) == Some(s)
  {
  }

  /** Pressing and releasing an arrow leaves the player's flags as they
      were when that way was not already held. */
  lemma PressReleaseRoundTrip(s: Session, now: int)
    requires Ready(s) && s.state == Running
    requires !Get(s, s.player).motion.left
    ensures KeyReleased(KeyPressed(s, Left, now).value, Left) == s
  {
    var p := Get(s, s.player);
    assert SetLeft(SetLeft(p, true), false) == p;
    var t := KeyPressed(s, Left, now).value;
    assert t.heap[s.player := p] == s.heap;
  }

  /** From the start screen, ENTER, then ENTER on NEW GAME, reaches the
      registration screen. */
  lemma StartToRegister(s: Session, now: int)
    requires Ready(s) && s.state == StartState && s.menu.selectedOption == MenuPanel.NEW_GAME
    ensures var t := KeyPressed(s, Enter, now).value;
            KeyPressed(t, Enter, now) == Some(s.(state := RegisterState))
  {
  }
}

=== FILE: level_map.dfy ===
/** LevelMap: the eight levels, the wall type each one uses, and the grid
    reader that turns a level file into walls and enemies, one 18-pixel tile
    per character. The file is given as its lines; an unreadable file is the
    caller's None. */
module LevelMap {
  import opened Wrappers
  import opened GameObjects
  import Enemies

  datatype Level = LevelOne | LevelTwo | LevelThree | LevelFour | LevelFive | LevelSix | LevelSeven | LevelEight

  /** LEVEL_k reads its file with TYPE_k walls. */
  function WallTypeOf(l: Level): (t: WallType)
    ensures LevelNumber(l) == WallNumber(t)
  {
    match l
    case LevelOne => TypeOne case LevelTwo => TypeTwo case LevelThree => TypeThree
    case LevelFour => TypeFour case LevelFive => TypeFive case LevelSix => TypeSix
    case LevelSeven => TypeSeven case LevelEight => TypeEight
  }

  function LevelNumber(l: Level): int
  {
    match l
    case LevelOne => 1 case LevelTwo => 2 case LevelThree => 3 case LevelFour => 4
    case LevelFive => 5 case LevelSix => 6 case LevelSeven => 7 case LevelEight => 8
  }

  function WallNumber(t: WallType): int
  {
    match t
    case TypeOne => 1 case TypeTwo => 2 case TypeThree => 3 case TypeFour => 4
    case TypeFive => 5 case TypeSix => 6 case TypeSeven => 7 case TypeEight => 8
  }

  /** The switch of GameController.getLevelComponent: levels 1 to 8 only. */
  function LevelFor(n: int): (r: Option<Level>)
    ensures r.Some? <==> 1 <= n <= 8
    ensures r.Some? ==> LevelNumber(r.value) == n
  {
    if n == 1 then Some(LevelOne) else if n == 2 then Some(LevelTwo)
    else if n == 3 then Some(LevelThree) else if n == 4 then Some(LevelFour)
    else if n == 5 then Some(LevelFive) else if n == 6 then Some(LevelSix)
    else if n == 7 then Some(LevelSeven) else if n == 8 then Some(LevelEight)
    else None
  }

  const TILE: int := 18

  /** The wall a character puts at (x, y): one for 'W'. */
  function TileWalls(ch: char, x: int, y: int, t: WallType): seq<Obj>
  {
    if ch == 'W' then [NewWall(x as real, y as real, t)] else []
  }

  /** The enemy a character puts at (x, y): 'Z', 'M' and 'B' give a ZenChan,
      a Mighta and a Blubba. */
  function TileEnemies(ch: char, x: int, y: int): seq<Obj>
  {
    match LetterArchetype(ch)
    case None => []
    case Some(a) => [Enemies.NewEnemy(a, x as real, y as real)]
  }

  /** The archetype a letter names, if any. A 'W' names none, so the
      reader's wall test coming first changes nothing. */
  function LetterArchetype(ch: char): Option<Archetype>
  {
    if ch == 'Z' then Some(ZenChan) else if ch == 'M' then Some(Mighta) else if ch == 'B' then Some(Blubba) else None
  }

  /** The walls of the first n characters of a row at height y. */
  function RowWalls(line: string, n: nat, y: int, t: WallType): seq<Obj>
    requires n <= |line|
  {
    if n == 0 then [] else RowWalls(line, n - 1, y, t) + TileWalls(line[n - 1], TILE * (n - 1), y, t)
  }

  function RowEnemies(line: string, n: nat, y: int): seq<Obj>
    requires n <= |line|
  {
    if n == 0 then [] else RowEnemies(line, n - 1, y) + TileEnemies(line[n - 1], TILE * (n - 1), y)
  }

  /** The walls of the first m rows. */
  function GridWalls(lines: seq<string>, m: nat, t: WallType): seq<Obj>
    requires m <= |lines|
  {
    if m == 0 then [] else GridWalls(lines, m - 1, t) + RowWalls(lines[m - 1], |lines[m - 1]|, TILE * (m - 1), t)
  }

  function GridEnemies(lines: seq<string>, m: nat): seq<Obj>
    requires m <= |lines|
  {
    if m == 0 then [] else GridEnemies(lines, m - 1) + RowEnemies(lines[m - 1], |lines[m - 1]|, TILE * (m - 1))
  }

  /** The inner loop of LevelMap.readFromFile: one line of the file, at
      height y, tile by tile. */
  method ReadRow(line: string, y: int, t: WallType) returns (walls: seq<Obj>, enemies: seq<Obj>)
    ensures walls == RowWalls(line, |line|, y, t)
    ensures enemies == RowEnemies(line, |line|, y)
  {
    walls := [];
    enemies := [];
    var x := 0;
    var col := 0;
    while col < |line|
      invariant 0 <= col <= |line| && x == TILE * col
      invariant walls == RowWalls(line, col, y, t)
      invariant enemies == RowEnemies(line, col, y)
    {
      var ch := line[col];
      assert RowWalls(line, col + 1, y, t) == walls + TileWalls(ch, x, y, t);
      assert RowEnemies(line, col + 1, y) == enemies + TileEnemies(ch, x, y);
      if ch == 'W' {
        walls := walls + [NewWall(x as real, y as real, t)];
      } else if ch == 'Z' {
        enemies := enemies + [Enemies.NewEnemy(ZenChan, x as real, y as real)];
      } else if ch == 'M' {
        enemies := enemies + [Enemies.NewEnemy(Mighta, x as real, y as real)];
      } else if ch == 'B' {
        enemies := enemies + [Enemies.NewEnemy(Blubba, x as real, y as real)];
      }
      x := x + TILE;
      col := col + 1;
    }
  }

  /** LevelMap.readFromFile over the lines of a readable file: rows 18
      pixels apart, walls and enemies each collected in reading order. */
  method ReadFromFile(lines: seq<string>, t: WallType) returns (walls: seq<Obj>, enemies: seq<Obj>)
    ensures walls == GridWalls(lines, |lines|, t)
    ensures enemies == GridEnemies(lines, |lines|)
  {
    walls := [];
    enemies := [];
    var y := 0;
    var row := 0;
    while row < |lines|
      invariant 0 <= row <= |lines| && y == TILE * row
      invariant walls == GridWalls(lines, row, t)
      invariant enemies == GridEnemies(lines, row)
    {
      var rowWalls, rowEnemies := ReadRow(lines[row], y, t);
      assert GridWalls(lines, row + 1, t) == walls + rowWalls;
      assert GridEnemies(lines, row + 1) == enemies + rowEnemies;
      walls := walls + rowWalls;
      enemies := enemies + rowEnemies;
      y := y + TILE;
      row := row + 1;
    }
  }

  /** How many of the first n characters of a row are `ch`. */
  function CountRow(line: string, n: nat, ch: char): nat
    requires n <= |line|
  {
    if n == 0 then 0 else CountRow(line, n - 1, ch) + (if line[n - 1] == ch then 1 else 0)
  }

  function CountGrid(lines: seq<string>, m: nat, ch: char): nat
    requires m <= |lines|
  {
    if m == 0 then 0 else CountGrid(lines, m - 1, ch) + CountRow(lines[m - 1], |lines[m - 1]|, ch)
  }

  /** In a row, one wall per 'W', one enemy per 'Z', 'M' or 'B'; every wall
      has the level's type; tiles lie on the row at 18-pixel steps, in
      column order. */
  lemma {:induction false} RowFacts(line: string, n: nat, y: int, t: WallType)
    requires n <= |line|
    ensures |RowWalls(line, n, y, t)| == CountRow(line, n, 'W')
    ensures |RowEnemies(line, n, y)| == CountRow(line, n, 'Z') + CountRow(line, n, 'M') + CountRow(line, n, 'B')
    ensures forall i :: 0 <= i < |RowWalls(line, n, y, t)| ==>
              RowWalls(line, n, y, t)[i].kind == Wall(t) && RowWalls(line, n, y, t)[i].base.y == y as real
              && RowWalls(line, n, y, t)[i].base.x < (TILE * n) as real
    ensures forall i, j :: 0 <= i < j < |RowWalls(line, n, y, t)| ==>
              RowWalls(line, n, y, t)[i].base.x < RowWalls(line, n, y, t)[j].base.x
    decreases n
  {
    RowEnemyTotal(line, n, y);
    if n > 0 {
      RowFacts(line, n - 1, y, t);
      var p := RowWalls(line, n - 1, y, t);
      var q := TileWalls(line[n - 1], TILE * (n - 1), y, t);
      var w := p + q;
      assert RowWalls(line, n, y, t) == w;
      forall i | 0 <= i < |w|
        ensures w[i].kind == Wall(t) && w[i].base.y == y as real && w[i].base.x < (TILE * n) as real
      {
        if i < |p| { assert w[i] == p[i]; } else { assert w[i] == q[0]; }
      }
      forall i, j | 0 <= i < j < |w| ensures w[i].base.x < w[j].base.x {
        if j < |p| { assert w[i] == p[i] && w[j] == p[j]; } else { assert w[i] == p[i] && w[j] == q[0]; }
      }
    }
  }

  lemma {:induction false} RowEnemyTotal(line: string, n: nat, y: int)
    requires n <= |line|
    ensures |RowEnemies(line, n, y)| == CountRow(line, n, 'Z') + CountRow(line, n, 'M') + CountRow(line, n, 'B')
    decreases n
  {
    if n > 0 {
      RowEnemyTotal(line, n - 1, y);
    }
  }

  /** Row-major order: higher rows first, left to right within a row. */
  predicate RowMajor(ws: seq<Obj>)
  {
    forall i, j :: 0 <= i < j < |ws| ==> ws[i].base.y < ws[j].base.y || (ws[i].base.y == ws[j].base.y && ws[i].base.x < ws[j].base.x)
  }

  /** Walls above height y in row-major order, followed by one row at y
      from left to right, are still in row-major order. */
  lemma RowMajorAppend(g: seq<Obj>, r: seq<Obj>, y: real)
    requires RowMajor(g) && forall i :: 0 <= i < |g| ==> g[i].base.y < y
    requires forall i :: 0 <= i < |r| ==> r[i].base.y == y
    requires forall i, j :: 0 <= i < j < |r| ==> r[i].base.x < r[j].base.x
    ensures RowMajor(g + r)
  {
    var w := g + r;
    forall i, j | 0 <= i < j < |w|
      ensures w[i].base.y < w[j].base.y || (w[i].base.y == w[j].base.y && w[i].base.x < w[j].base.x)
    {
      if j < |g| {
        assert w[i] == g[i] && w[j] == g[j];
      } else if i < |g| {
        assert w[i] == g[i] && w[j] == r[j - |g|];
      } else {
        assert w[i] == r[i - |g|] && w[j] == r[j - |g|];
      }
    }
  }

  /** Across the grid: the wall count is the number of 'W's, the enemy count
      the number of 'Z', 'M' and 'B', every wall has the level's type, and
      the walls come in row-major order. */
  lemma {:induction false} GridFacts(lines: seq<string>, m: nat, t: WallType)
    requires m <= |lines|
    ensures |GridWalls(lines, m, t)| == CountGrid(lines, m, 'W')
    ensures |GridEnemies(lines, m)| == CountGrid(lines, m, 'Z') + CountGrid(lines, m, 'M') + CountGrid(lines, m, 'B')
    ensures forall i :: 0 <= i < |GridWalls(lines, m, t)| ==>
              GridWalls(lines, m, t)[i].kind == Wall(t) && GridWalls(lines, m, t)[i].base.y < (TILE * m) as real
    ensures RowMajor(GridWalls(lines, m, t))
    decreases m
  {
    if m > 0 {
      GridFacts(lines, m - 1, t);
      var line := lines[m - 1];
      RowFacts(line, |line|, TILE * (m - 1), t);
      var g := GridWalls(lines, m - 1, t);
      var r := RowWalls(line, |line|, TILE * (m - 1), t);
      assert GridWalls(lines, m, t) == g + r;
      RowMajorAppend(g, r, (TILE * (m - 1)) as real);
      var w := g + r;
      forall i | 0 <= i < |w| ensures w[i].kind == Wall(t) && w[i].base.y < (TILE * m) as real {
        if i < |g| { assert w[i] == g[i]; } else { assert w[i] == r[i - |g|]; }
      }
    }
  }

  /** A wall stands at (x, y) in a row exactly when the character at column
      x / 18 is 'W'. */
  lemma {:induction false} RowWallPlacement(line: string, n: nat, y: int, t: WallType, c: nat)
    requires n <= |line|
    ensures NewWall((TILE * c) as real, y as real, t) in RowWalls(line, n, y, t) <==> c < n && line[c] == 'W'
    decreases n
  {
    if n > 0 {
      RowWallPlacement(line, n - 1, y, t, c);
      RowFacts(line, n - 1, y, t);
    }
  }

  /** The character that places each kind of enemy. */
  function EnemyChar(a: Archetype): char
  {
    match a
    case ZenChan => 'Z' case Mighta => 'M' case Blubba => 'B'
  }

  /** A letter names an archetype exactly when it is that archetype's letter. */
  lemma LetterNamesArchetype(ch: char, a: Archetype)
    ensures LetterArchetype(ch) == Some(a) <==> ch == EnemyChar(a)
  {
  }

  /** How many enemies of archetype `a` a list holds. */
  function CountArchetype(es: seq<Obj>, a: Archetype): nat
  {
    if es == [] then 0
    else CountArchetype(es[..|es| - 1], a) + (if es[|es| - 1].kind.Enemy? && es[|es| - 1].kind.archetype == a then 1 else 0)
  }

  lemma {:induction false} CountArchetypeAppend(xs: seq<Obj>, ys: seq<Obj>, a: Archetype)
    ensures CountArchetype(xs + ys, a) == CountArchetype(xs, a) + CountArchetype(ys, a)
    decreases |ys|
  {
    if ys == [] {
      assert xs + ys == xs;
    } else {
      var ys' := ys[..|ys| - 1];
      assert (xs + ys)[..|xs + ys| - 1] == xs + ys';
      assert (xs + ys)[|xs + ys| - 1] == ys[|ys| - 1];
      CountArchetypeAppend(xs, ys', a);
    }
  }

  /** A row holds exactly as many enemies of each archetype as that
      archetype's letter occurs in it. */
  lemma {:induction false} RowArchetypeCounts(line: string, n: nat, y: int, a: Archetype)
    requires n <= |line|
    ensures CountArchetype(RowEnemies(line, n, y), a) == CountRow(line, n, EnemyChar(a))
    decreases n
  {
    if n > 0 {
      var p := RowEnemies(line, n - 1, y);
      var q := TileEnemies(line[n - 1], TILE * (n - 1), y);
      assert RowEnemies(line, n, y) == p + q;
      RowArchetypeCounts(line, n - 1, y, a);
      CountArchetypeAppend(p, q, a);
      TileCount(line[n - 1], TILE * (n - 1), y, a);
    }
  }

  lemma TileCount(ch: char, x: int, y: int, a: Archetype)
    ensures CountArchetype(TileEnemies(ch, x, y), a) == if ch == EnemyChar(a) then 1 else 0
  {
    var q := TileEnemies(ch, x, y);
    if q != [] {
      assert q[..0] == [];
    }
  }

  /** So does the whole level: ZenChans per 'Z', Mightas per 'M', Blubbas
      per 'B'. */
  lemma {:induction false} GridArchetypeCounts(lines: seq<string>, m: nat, a: Archetype)
    requires m <= |lines|
    ensures CountArchetype(GridEnemies(lines, m), a) == CountGrid(lines, m, EnemyChar(a))
    decreases m
  {
    if m > 0 {
      var line := lines[m - 1];
      var g := GridEnemies(lines, m - 1);
      var r := RowEnemies(line, |line|, TILE * (m - 1));
      assert GridEnemies(lines, m) == g + r;
      GridArchetypeCounts(lines, m - 1, a);
      RowArchetypeCounts(line, |line|, TILE * (m - 1), a);
      CountArchetypeAppend(g, r, a);
    }
  }

  /** The enemy a character places at column c of row y: a fresh enemy of
      the character's archetype at (18 c, y). */
  predicate PlacedAt(e: Obj, line: string, n: nat, y: int)
    requires n <= |line|
  {
    && e.kind.Enemy?
    && exists c | 0 <= c < n :: line[c] == EnemyChar(e.kind.archetype)
                               && e == Enemies.NewEnemy(e.kind.archetype, (TILE * c) as real, y as real)
  }

  /** Every object the reader puts in a row's enemy list is the enemy its
      character names, at that character's column on the row, and the
      enemies come left to right. */
  lemma {:induction false} RowEnemiesAreEnemies(line: string, n: nat, y: int)
    requires n <= |line|
    ensures forall i :: 0 <= i < |RowEnemies(line, n, y)| ==>
              PlacedAt(RowEnemies(line, n, y)[i], line, n, y)
              && RowEnemies(line, n, y)[i].base.y == y as real
              && RowEnemies(line, n, y)[i].base.x < (TILE * n) as real
    ensures forall i, j :: 0 <= i < j < |RowEnemies(line, n, y)| ==>
              RowEnemies(line, n, y)[i].base.x < RowEnemies(line, n, y)[j].base.x
    decreases n
  {
    if n > 0 {
      RowEnemiesAreEnemies(line, n - 1, y);
      var p := RowEnemies(line, n - 1, y);
      var q := TileEnemies(line[n - 1], TILE * (n - 1), y);
      var w := p + q;
      forall i | 0 <= i < |w|
        ensures PlacedAt(w[i], line, n, y) && w[i].base.y == y as real && w[i].base.x < (TILE * n) as real
      {
        if i < |p| {
          assert w[i] == p[i];
          var c :| 0 <= c < n - 1 && line[c] == EnemyChar(p[i].kind.archetype)
                   && p[i] == Enemies.NewEnemy(p[i].kind.archetype, (TILE * c) as real, y as real);
        } else {
          assert w[i] == q[0];
          assert line[n - 1] == EnemyChar(w[i].kind.archetype);
        }
      }
    }
  }

  /** An enemy of archetype a stands at (18 c, y) in a row exactly when the
      character at column c is that archetype's letter. */
  lemma {:induction false} RowEnemyPlacement(line: string, n: nat, y: int, a: Archetype, c: nat)
    requires n <= |line|
    ensures Enemies.NewEnemy(a, (TILE * c) as real, y as real) in RowEnemies(line, n, y)
            <==> c < n && line[c] == EnemyChar(a)
    decreases n
  {
    if n > 0 {
      RowEnemyPlacement(line, n - 1, y, a, c);
      RowEnemiesAreEnemies(line, n - 1, y);
    }
  }

  /** Every object the reader puts in the level's enemy list is an enemy,
      on a row above the first m rows' end. */
  lemma {:induction false} GridEnemiesAreEnemies(lines: seq<string>, m: nat)
    requires m <= |lines|
    ensures forall i :: 0 <= i < |GridEnemies(lines, m)| ==>
              GridEnemies(lines, m)[i].kind.Enemy? && GridEnemies(lines, m)[i].base.y < (TILE * m) as real
    ensures RowMajor(GridEnemies(lines, m))
    decreases m
  {
    if m > 0 {
      GridEnemiesAreEnemies(lines, m - 1);
      var line := lines[m - 1];
      RowEnemiesAreEnemies(line, |line|, TILE * (m - 1));
      var g := GridEnemies(lines, m - 1);
      var r := RowEnemies(line, |line|, TILE * (m - 1));
      assert GridEnemies(lines, m) == g + r;
      RowMajorAppend(g, r, (TILE * (m - 1)) as real);
      var w := g + r;
      forall i | 0 <= i < |w| ensures w[i].kind.Enemy? && w[i].base.y < (TILE * m) as real {
        if i < |g| { assert w[i] == g[i]; } else { assert w[i] == r[i - |g|]; assert PlacedAt(r[i - |g|], line, |line|, TILE * (m - 1)); }
      }
    }
  }

  /** An enemy of archetype a stands at (18 c, 18 r) in the level exactly
      when row r, column c of the file holds that archetype's letter. */
  lemma {:induction false} GridEnemyPlacement(lines: seq<string>, m: nat, a: Archetype, r: nat, c: nat)
    requires m <= |lines|
    ensures Enemies.NewEnemy(a, (TILE * c) as real, (TILE * r) as real) in GridEnemies(lines, m)
            <==> r < m && c < |lines[r]| && lines[r][c] == EnemyChar(a)
    decreases m
  {
    if m > 0 {
      var line := lines[m - 1];
      var e := Enemies.NewEnemy(a, (TILE * c) as real, (TILE * r) as real);
      GridEnemyPlacement(lines, m - 1, a, r, c);
      GridEnemiesAreEnemies(lines, m - 1);
      RowEnemiesAreEnemies(line, |line|, TILE * (m - 1));
      assert GridEnemies(lines, m) == GridEnemies(lines, m - 1) + RowEnemies(line, |line|, TILE * (m - 1));
      if r == m - 1 {
        RowEnemyPlacement(line, |line|, TILE * r, a, c);
      } else {
        assert e !in RowEnemies(line, |line|, TILE * (m - 1));
      }
    }
  }

  /** A wall stands at (18 c, 18 r) in the level exactly when row r,
      column c of the file holds a 'W'. */
  lemma {:induction false} GridWallPlacement(lines: seq<string>, m: nat, t: WallType, r: nat, c: nat)
    requires m <= |lines|
    ensures NewWall((TILE * c) as real, (TILE * r) as real, t) in GridWalls(lines, m, t)
            <==> r < m && c < |lines[r]| && lines[r][c] == 'W'
    decreases m
  {
    if m > 0 {
      var line := lines[m - 1];
      var w := NewWall((TILE * c) as real, (TILE * r) as real, t);
      GridWallPlacement(lines, m - 1, t, r, c);
      GridFacts(lines, m - 1, t);
      RowFacts(line, |line|, TILE * (m - 1), t);
      assert GridWalls(lines, m, t) == GridWalls(lines, m - 1, t) + RowWalls(line, |line|, TILE * (m - 1), t);
      if r == m - 1 {
        RowWallPlacement(line, |line|, TILE * r, t, c);
      } else {
        assert w !in RowWalls(line, |line|, TILE * (m - 1), t);
      }
    }
  }
}

=== FILE: menu_panel.dfy ===
/** The main menu: a selection cursor over the three options NEW GAME,
    CONTINUE and EXIT (src/View/MenuPanel.java). Only the cursor and the
    placement of the selection icon are modelled. */
module MenuPanel {
  import opened Selection

  const OPTION_COUNT: int := 3

  /** Option indices as `getSelectedOption` reports them. */
  const NEW_GAME: int := 0
  const CONTINUE: int := 1
  const EXIT: int := 2

  datatype Menu = Menu(selectedOption: int)

  /** The cursor stays on one of the three labels. */
  predicate Valid(m: Menu) { 0 <= m.selectedOption < OPTION_COUNT }

  function NewMenu(): (m: Menu)
    ensures Valid(m) && m.selectedOption == NEW_GAME
  {
    Menu(0)
  }

  function MoveSelectionDown(m: Menu): (r: Menu)
    requires Valid(m)
    ensures Valid(r)
    ensures m.selectedOption == EXIT ==> r.selectedOption == NEW_GAME
    ensures m.selectedOption < EXIT ==> r.selectedOption == m.selectedOption + 1
  {
    Menu(CycleDown(m.selectedOption, OPTION_COUNT))
  }

  /** Moving up is undone by moving down. */
  function MoveSelectionUp(m: Menu): (r: Menu)
    requires Valid(m)
    ensures Valid(r)
    ensures MoveSelectionDown(r) == m
  {
    CycleInverse(m.selectedOption, OPTION_COUNT);
    Menu(CycleUp(m.selectedOption, OPTION_COUNT))
  }

  lemma UpDownInverse(m: Menu)
    requires Valid(m)
    ensures MoveSelectionUp(MoveSelectionDown(m)) == m
    ensures MoveSelectionDown(MoveSelectionUp(m)) == m
  {
    CycleInverse(m.selectedOption, OPTION_COUNT);
  }

  lemma ThreeDownsAreIdentity(m: Menu)
    requires Valid(m)
    ensures MoveSelectionDown(MoveSelectionDown(MoveSelectionDown(m))) == m
  {
  }

  /** Which labels show the selection icon after `updateSelection`. */
  function Icons(m: Menu): (r: seq<bool>)
    ensures |r| == OPTION_COUNT
    ensures forall i | 0 <= i < OPTION_COUNT :: r[i] <==> i == m.selectedOption
  {
    seq(OPTION_COUNT, i => i == m.selectedOption)
  }

  function CountTrue(s: seq<bool>): nat
  {
    if s == [] then 0 else (if s[0] then 1 else 0) + CountTrue(s[1..])
  }

  /** A valid cursor puts the icon on exactly one label. */
  lemma ExactlyOneIcon(m: Menu)
    requires Valid(m)
    ensures CountTrue(Icons(m)) == 1
  {
    var r := Icons(m);
    assert r == [m.selectedOption == 0, m.selectedOption == 1, m.selectedOption == 2];
    var t1, t2 := r[1..], r[1..][1..];
    assert CountTrue(t2) == (if t2[0] then 1 else 0) + CountTrue(t2[1..]);
    assert t2[1..] == [];
    assert CountTrue(t1) == (if t1[0] then 1 else 0) + CountTrue(t2);
  }
}

=== FILE: movement.dfy ===
/** The position updates of every movable class, run against the live
    session: each scan walks the list of references it was handed, reading
    the current state of each object when it reaches it, and every detected
    hit runs the acting object's callback at once
    (src/Model/Entity.java, Blubba.java, Bubble.java, Boulder.java,
    PowerUp.java, Enemy.java, Mighta.java, Player.java). */
module Movement {
  import opened Wrappers
  import opened Geometry
  import opened GameObjects
  import opened World
  import opened Collisions
  import Entities
  import Utility
  import Players
  import Enemies
  import Projectiles

  /** Boulders and bubbles never block an entity's horizontal step. */
  predicate PassesThrough(o: Obj) { o.kind.Boulder? || o.kind.Bubble? }

  /** The horizontal scan of Entity.updatePosition: boulders and bubbles
      are not examined; any other hit runs the callback, and everything but
      a power-up pushes the candidate back to the obstacle's side. */
  function SideScan(s: Session, self: Ref, others: seq<Ref>, cand: Rect): (r: (Session, Rect))
    ensures CallbackFrame(s, r.0)
    ensures r.1.y == cand.y && r.1.width == cand.width && r.1.height == cand.height
    decreases |others|
  {
    if others == [] then (s, cand)
    else
      var o := others[0];
      if PassesThrough(Get(s, o)) then SideScan(s, self, others[1..], cand)
      else
        var det := Detect(s, self, cand, o);
        var c := if det.1.Hit? && !Get(det.0, o).kind.PowerUp?
                 then Entities.ClampHorizontal(cand, det.1.direction, Get(det.0, o).base) else cand;
        var r := SideScan(det.0, self, others[1..], c);
        CallbackFrameTransitive(s, det.0, r.0);
        r
  }

  /** Every reference is a power-up, a bubble or a boulder. */
  predicate AllItems(s: Session, others: seq<Ref>)
  {
    forall o <- others :: o < |s.heap| && (Get(s, o).kind.PowerUp? || PassesThrough(Get(s, o)))
  }

  /** Among power-ups, bubbles and boulders alone the step is never
      blocked. */
  lemma {:induction false} NothingBlocksAmongItems(s: Session, self: Ref, others: seq<Ref>, cand: Rect)
    requires AllItems(s, others)
    ensures SideScan(s, self, others, cand).1 == cand
    decreases |others|
  {
    if others != [] {
      var o := others[0];
      if !PassesThrough(Get(s, o)) {
        var det := Detect(s, self, cand, o);
        ItemsStayItems(s, det.0, others);
        NothingBlocksAmongItems(det.0, self, others[1..], cand);
      } else {
        ItemsTail(s, others);
        NothingBlocksAmongItems(s, self, others[1..], cand);
      }
    }
  }

  lemma ItemsTail(s: Session, others: seq<Ref>)
    requires AllItems(s, others) && others != []
    ensures AllItems(s, others[1..])
  {
    forall q <- others[1..] ensures q < |s.heap| && (Get(s, q).kind.PowerUp? || PassesThrough(Get(s, q))) {
      assert q in others;
    }
  }

  /** A frame step turns no power-up, bubble or boulder into anything else,
      so the rest of the scan still sees only such objects. */
  lemma ItemsStayItems(s: Session, t: Session, others: seq<Ref>)
    requires Frame(s, t) && AllItems(s, others) && others != []
    ensures AllItems(t, others[1..])
    ensures Get(s, others[0]).kind.PowerUp? ==> Get(t, others[0]).kind.PowerUp?
  {
    forall q <- others ensures q < |t.heap| && (Get(t, q).kind.PowerUp? || PassesThrough(Get(t, q))) {
      assert Keeps(s.heap[q], t.heap[q]);
    }
    ItemsTail(t, others);
  }

  /** Which objects a gravity scan examines: entities and walls, or, for a
      power-up, everything. */
  predicate Examined(o: Obj, everything: bool) { everything || IsEntity(o) || o.kind.Wall? }

  /** The scan of applyGravity. It stops at the first hit from above, landing
      on that obstacle; otherwise it reports whether the LAST object it
      examined was hit, which is what decides the fall. */
  function FallScan(s: Session, self: Ref, others: seq<Ref>, cand: Rect, vs: real, everything: bool, last: bool)
    : (r: (Session, bool, bool))
    requires Refers(s, self)
    ensures Frame(s, r.0)
    ensures r.2 ==> r.1
    ensures forall q: nat | q < |s.heap| && q != self ::
              Get(r.0, q).motion == Get(s, q).motion && Get(r.0, q).actor == Get(s, q).actor
    ensures !r.2 ==> Get(r.0, self).motion == Get(s, self).motion && Get(r.0, self).actor == Get(s, self).actor
    ensures Get(r.0, self).motion == Get(s, self).motion.(verticalSpeed := Get(r.0, self).motion.verticalSpeed)
    ensures Get(r.0, self).actor
         == Get(s, self).actor.(jump := Get(r.0, self).actor.jump, falling := Get(r.0, self).actor.falling)
    ensures r.2 ==> var e := Get(r.0, self);
                    e.motion.verticalSpeed == 0.0 && !e.actor.jump && !e.actor.falling
    ensures !r.2 && (forall o <- others :: !Examined(Get(s, o), everything)) ==> r.1 == last
    decreases |others|
  {
    if others == [] then (s, last, false)
    else
      var o := others[0];
      if !Examined(Get(s, o), everything) then FallScan(s, self, others[1..], cand, vs, everything, last)
      else
        var det := Detect(s, self, cand, o);
        if det.1 == Hit(Bottom) then
          var t := LandHit(det.0, self, vs, Get(det.0, o).base);
          FrameTransitive(s, det.0, t);
          (t, true, true)
        else
          FallScan(det.0, self, others[1..], cand, vs, everything, det.1.Hit?)
  }

  /** The landing of applyGravity on the obstacle hit from above: only the
      falling object changes, and of it only the height and the fall fields. */
  function LandHit(s: Session, self: Ref, vs: real, ob: Base): (t: Session)
    requires Refers(s, self)
    ensures Frame(s, t)
    ensures forall q | q != self :: Get(t, q) == Get(s, q)
    ensures Get(t, self).motion == Get(s, self).motion.(verticalSpeed := 0.0)
    ensures Get(t, self).actor == Get(s, self).actor.(jump := false, falling := false)
    ensures vs > 0.0 ==> Get(t, self).base.y + Get(s, self).base.height == ob.y
    ensures vs <= 0.0 ==> Get(t, self).base.y == ob.y + ob.height
  {
    var e := Entities.LandOn(Get(s, self), vs, ob);
    PutFrame(s, self, e);
    Put(s, self, e)
  }

  /** A fall with no obstacle in the way: none of the examined objects is hit. */
  lemma {:induction false} ClearFallMisses(s: Session, self: Ref, others: seq<Ref>, cand: Rect, vs: real,
                                           everything: bool, last: bool)
    requires Refers(s, self)
    requires forall o <- others :: Examined(Get(s, o), everything) ==> !Intersects(cand, Get(s, o).base.hitbox)
    requires !last
    ensures FallScan(s, self, others, cand, vs, everything, last) == (s, false, false)
    decreases |others|
  {
    if others != [] {
      var o := others[0];
      if !Examined(Get(s, o), everything) {
        ClearFallMisses(s, self, others[1..], cand, vs, everything, last);
      } else {
        ClearFallMisses(s, self, others[1..], cand, vs, everything, false);
      }
    }
  }

  /** The first lines of applyGravity: the fall speed is set and the
      entity is marked as falling. */
  function StartFall(e: Obj): (r: Obj)
    ensures r.motion == e.motion.(verticalSpeed := Entities.FallSpeed(e))
    ensures r.actor == e.actor.(falling := true)
    ensures r.base == e.base && r.kind == e.kind
  {
    e.(motion := e.motion.(verticalSpeed := Entities.FallSpeed(e)), actor := e.actor.(falling := true))
  }

  /** The last lines of applyGravity: the fall is applied unless the scan
      ended on a hit, the bottom wraps to the top, and the hitbox follows. */
  function FinishFall(e: Obj, hit: bool): (r: Obj)
    ensures !hit ==> r.base.y == Entities.Wrap(e.base.y + e.motion.verticalSpeed)
    ensures hit ==> r.base.y == Entities.Wrap(e.base.y)
    ensures r.base.y < Utility.HEIGHT as real
    ensures r.base.hitbox.x == Trunc(r.base.x) && r.base.hitbox.y == Trunc(r.base.y)
    ensures r.base.x == e.base.x
    ensures r.motion == e.motion && r.actor == e.actor && r.kind == e.kind
  {
    var f := if !hit then SetY(e, e.base.y + e.motion.verticalSpeed) else e;
    UpdateHitbox(SetY(f, Entities.Wrap(f.base.y)))
  }

  /** Entity.applyGravity, and PowerUp.applyGravity, which differs only in
      examining every object: the fall speed grows by gravity up to terminal
      velocity, a hit from above lands the entity, the fall is applied only
      when the last object examined was missed, and whatever falls out at
      the bottom reappears at the top. */
  function ApplyGravity(s: Session, self: Ref, others: seq<Ref>): (t: Session)
    requires Refers(s, self)
    ensures Frame(s, t)
    ensures var v, e := Get(t, self).motion.verticalSpeed, Get(s, self);
            v == Entities.FallSpeed(e) || v == 0.0
    ensures Get(t, self).base.y < Utility.HEIGHT as real
    ensures Get(t, self).base.hitbox.x == Trunc(Get(t, self).base.x)
    ensures Get(t, self).base.hitbox.y == Trunc(Get(t, self).base.y)
    ensures Get(t, self).motion == Get(s, self).motion.(verticalSpeed := Get(t, self).motion.verticalSpeed)
    ensures Get(t, self).actor == Get(s, self).actor.(jump := Get(t, self).actor.jump, falling := Get(t, self).actor.falling)
  {
    var scan := GravityScan(s, self, others);
    var g := FinishFall(Get(scan.0, self), scan.1);
    PutFrame(scan.0, self, g);
    FrameTransitive(s, scan.0, Put(scan.0, self, g));
    Put(scan.0, self, g)
  }

  /** The first part of applyGravity: the fall speed is updated, the entity
      marked falling, and the scan run; whether the last object examined was
      hit comes back with the session. */
  function GravityScan(s: Session, self: Ref, others: seq<Ref>): (r: (Session, bool))
    requires Refers(s, self)
    ensures Frame(s, r.0)
    ensures var v, e := Get(r.0, self).motion.verticalSpeed, Get(s, self);
            v == Entities.FallSpeed(e) || v == 0.0
    ensures Get(r.0, self).motion == Get(s, self).motion.(verticalSpeed := Get(r.0, self).motion.verticalSpeed)
    ensures Get(r.0, self).actor == Get(s, self).actor.(jump := Get(r.0, self).actor.jump, falling := Get(r.0, self).actor.falling)
  {
    var e := Get(s, self);
    var st := StartFall(e);
    var s1 := Put(s, self, st);
    PutFrame(s, self, st);
    var scan := FallScan(s1, self, others, Entities.GravityCandidate(st, Entities.FallSpeed(e)),
                         Entities.FallSpeed(e), e.kind.PowerUp?, false);
    FrameTransitive(s, s1, scan.0);
    (scan.0, scan.1)
  }

  /** With nothing in the way, the entity falls by the new fall speed (and
      wraps at the bottom). */
  lemma ClearFall(s: Session, self: Ref, others: seq<Ref>)
    requires Refers(s, self)
    requires forall o <- others ::
               !Intersects(Entities.GravityCandidate(Get(s, self), Entities.FallSpeed(Get(s, self))), Get(s, o).base.hitbox)
    ensures Get(ApplyGravity(s, self, others), self).base.y
         == Entities.Wrap(Get(s, self).base.y + Entities.FallSpeed(Get(s, self)))
  {
    var e := Get(s, self);
    var s1 := Put(s, self, StartFall(e));
    var cand := Entities.GravityCandidate(StartFall(e), Entities.FallSpeed(e));
    assert cand == Entities.GravityCandidate(e, Entities.FallSpeed(e));
    forall o <- others ensures Examined(Get(s1, o), e.kind.PowerUp?) ==> !Intersects(cand, Get(s1, o).base.hitbox) {
      if o != self {
        assert Get(s1, o) == Get(s, o);
      }
    }
    ClearFallMisses(s1, self, others, cand, Entities.FallSpeed(e), e.kind.PowerUp?, false);
  }

  /** Overwriting an object with one of the same class is a step of the game. */
  lemma PutFrame(s: Session, r: Ref, o: Obj)
    requires Keeps(Get(s, r), o)
    ensures Frame(s, Put(s, r, o))
  {
    PutSameClass(s, r, o);
  }

  lemma FrameTransitive(a: Session, b: Session, c: Session)
    requires Frame(a, b) && Frame(b, c)
    ensures Frame(a, c)
  {
  }

  /** One object of the landing scan: on a hit the callback runs, then the
      jumper is set on top of the obstacle or under it. */
  function LandingStep(s: Session, self: Ref, o: Ref): (t: Session)
    requires Refers(s, self) && !Get(s, self).kind.Wall?
    ensures CallbackFrame(s, t)
    ensures !Intersects(Get(s, self).base.hitbox, Get(s, o).base.hitbox) ==> t == s
    ensures Intersects(Get(s, self).base.hitbox, Get(s, o).base.hitbox) && !IsCollidable(Get(s, o)) ==>
              Get(t, self) == SetY(Get(s, self), Entities.LandingY(Get(s, self), Get(s, o).base))
  {
    var det := Detect(s, self, Get(s, self).base.hitbox, o);
    if det.1.Hit? then
      var e := SetY(Get(det.0, self), Entities.LandingY(Get(det.0, self), Get(det.0, o).base));
      FrameKeepsNonWall(s, det.0, self);
      SetYCallback(det.0, self, Entities.LandingY(Get(det.0, self), Get(det.0, o).base));
      CallbackFrameTransitive(s, det.0, Put(det.0, self, e));
      Put(det.0, self, e)
    else det.0
  }

  /** The landing scan at the end of a jump: every other object (skipping
      those equal to the jumper) is checked against the jumper's current
      hitbox, and each hit sets the jumper on or under that obstacle, so the
      last overlapping obstacle decides. */
  function LandingScan(s: Session, self: Ref, others: seq<Ref>): (t: Session)
    requires Refers(s, self) && !Get(s, self).kind.Wall?
    ensures CallbackFrame(s, t)
    decreases |others|
  {
    if others == [] then s
    else
      var o := others[0];
      var s1 := if SameAs(s, self, o) then s else LandingStep(s, self, o);
      var t := LandingScan(s1, self, others[1..]);
      CallbackFrameTransitive(s, s1, t);
      t
  }

  /** Landing on nothing: when the jumper overlaps none of the others, the
      scan leaves the session as it was. */
  lemma {:induction false} LandingOnNothing(s: Session, self: Ref, others: seq<Ref>)
    requires Refers(s, self) && !Get(s, self).kind.Wall?
    requires forall o <- others :: !Intersects(Get(s, self).base.hitbox, Get(s, o).base.hitbox)
    ensures LandingScan(s, self, others) == s
    decreases |others|
  {
    if others != [] {
      LandingOnNothing(s, self, others[1..]);
    }
  }

  /** Entity.jump: one tick of the arc; when the impulse is spent, the
      landing scan; then the hitbox follows. */
  function JumpStep(s: Session, self: Ref, others: seq<Ref>): (t: Session)
    requires Refers(s, self) && IsEntity(Get(s, self))
    ensures Frame(s, t)
    ensures var a, e := Entities.JumpArc(Get(s, self)), Get(t, self);
            && e.actor == a.actor && e.motion == a.motion
            && e.base.hitbox.x == Trunc(e.base.x) && e.base.hitbox.y == Trunc(e.base.y)
    ensures Entities.JumpArc(Get(s, self)).actor.jumping ==>
              Get(t, self).base.y == Entities.JumpArc(Get(s, self)).base.y
  {
    var a := Entities.JumpArc(Get(s, self));
    var s1 := Put(s, self, a);
    PutFrame(s, self, a);
    assert Get(s1, self) == a;
    if a.actor.jumping then
      var t := Put(s1, self, UpdateHitbox(a));
      PutFrame(s1, self, UpdateHitbox(a));
      FrameTransitive(s, s1, t);
      t
    else
      var t := Land(s1, self, others);
      FrameTransitive(s, s1, t);
      t
  }

  /** The end of a jump: the landing scan, then the hitbox follows; the
      entity's movement and entity fields are untouched. */
  function Land(s: Session, self: Ref, others: seq<Ref>): (t: Session)
    requires Refers(s, self) && IsEntity(Get(s, self))
    ensures Frame(s, t)
    ensures Get(t, self).actor == Get(s, self).actor && Get(t, self).motion == Get(s, self).motion
    ensures Get(t, self).base.hitbox.x == Trunc(Get(t, self).base.x) && Get(t, self).base.hitbox.y == Trunc(Get(t, self).base.y)
  {
    var s2 := LandingScan(s, self, others);
    assert CallbackStep(Get(s, self), Get(s2, self));
    var g := UpdateHitbox(Get(s2, self));
    PutFrame(s2, self, g);
    FrameTransitive(s, s2, Put(s2, self, g));
    Put(s2, self, g)
  }

  /** The horizontal step of Entity.updatePosition, when the candidate
      differs from the hitbox: the scan, then the position and the hitbox
      follow the candidate. */
  function SideStep(s: Session, self: Ref, others: seq<Ref>, intent: Entities.Intent): (t: Session)
    requires Refers(s, self)
    ensures Frame(s, t)
    ensures Get(t, self).motion == Get(s, self).motion.(moving := intent.movingRight || intent.movingLeft)
    ensures Get(t, self).actor == Get(s, self).actor
    ensures Get(t, self).base.hitbox.x == Trunc(Get(t, self).base.x)
  {
    var sc := SideScan(s, self, others, intent.candidate);
    var f := Get(sc.0, self);
    var g := UpdateHitbox(f.(base := f.base.(x := sc.1.x as real),
                             motion := f.motion.(moving := intent.movingRight || intent.movingLeft)));
    PutFrame(sc.0, self, g);
    Put(sc.0, self, g)
  }

  /** The branch of Entity.updatePosition taken when not jumping: the
      direction follows the intent, the horizontal step is taken when the
      candidate differs from the hitbox, then gravity applies. */
  function GroundStep(s: Session, self: Ref, others: seq<Ref>): (t: Session)
    requires Refers(s, self)
    ensures Frame(s, t)
    ensures Get(t, self).base.y < Utility.HEIGHT as real
    ensures Get(t, self).motion.direction == Entities.IntentFacing(Get(s, self))
    ensures Get(t, self).motion.speed == Get(s, self).motion.speed
    ensures Get(t, self).motion.right == Get(s, self).motion.right && Get(t, self).motion.left == Get(s, self).motion.left
    ensures Get(t, self).actor == Get(s, self).actor.(jump := Get(t, self).actor.jump, falling := Get(t, self).actor.falling)
  {
    var e1 := Get(s, self);
    var intent := Entities.HorizontalIntent(e1);
    var e2 := SetDirection(e1, Entities.IntentFacing(e1));
    var s2 := Put(s, self, e2);
    PutFrame(s, self, e2);
    var s3 := if intent.candidate != e2.base.hitbox then SideStep(s2, self, others, intent) else s2;
    FrameTransitive(s, s2, s3);
    var t := ApplyGravity(s3, self, others);
    FrameTransitive(s, s3, t);
    t
  }

  /** Entity.updatePosition (also PowerUp's): the attack is refreshed, the
      list loses the first object equal to the entity, and then either a
      horizontal step followed by gravity or, mid-jump, a jump tick. */
  function EntityUpdate(s: Session, self: Ref, others: seq<Ref>, now: int): (t: Session)
    requires Refers(s, self) && IsEntity(Get(s, self))
    ensures Frame(s, t)
    ensures var e := Get(s, self);
            e.actor.attackStart.Some? && now - e.actor.attackStart.value >= Entities.ATTACK_MS
            ==> !Get(t, self).actor.attack && Get(t, self).actor.attackStart.None?
    ensures Get(s, self).actor.attack ==> Get(t, self).actor.attacking
    ensures Get(t, self).actor.canAttack == Get(s, self).actor.canAttack
    ensures Get(t, self).motion.speed == Get(s, self).motion.speed
    ensures Get(t, self).motion.right == Get(s, self).motion.right && Get(t, self).motion.left == Get(s, self).motion.left
    ensures !Get(s, self).actor.jumping ==>
              && Get(t, self).base.y < Utility.HEIGHT as real
              && Get(t, self).motion.direction == Entities.IntentFacing(Get(s, self))
    ensures Get(s, self).actor.jumping && Get(t, self).actor.jumping ==>
              Get(t, self).actor.jumpSpeed == Get(s, self).actor.jumpSpeed - Entities.JUMP_DECAY
    ensures Get(s, self).actor.jumping && !Get(t, self).actor.jumping ==>
              Get(t, self).motion.verticalSpeed == 0.0
              && Get(t, self).actor.jumpSpeed == 1.9 * Get(s, self).motion.speed
  {
    var e0 := Entities.RefreshAttack(Get(s, self), now);
    var e1 := e0.(motion := e0.motion.(moving := false));
    var s1 := Put(s, self, e1);
    PutFrame(s, self, e1);
    assert Entities.IntentFacing(e1) == Entities.IntentFacing(Get(s, self));
    assert Get(s1, self) == e1;
    assert e1.actor.jumping == Get(s, self).actor.jumping && e1.motion.speed == Get(s, self).motion.speed;
    var t := MoveStep(s1, self, RemoveFirstEqual(s1, others, self));
    FrameTransitive(s, s1, t);
    t
  }

  /** The movement half of Entity.updatePosition: a ground step when not
      jumping, a jump tick otherwise; only the jump and fall state of the
      entity's own fields change besides its position and direction. */
  function MoveStep(s: Session, self: Ref, others: seq<Ref>): (t: Session)
    requires Refers(s, self) && IsEntity(Get(s, self))
    ensures Frame(s, t)
    ensures Get(t, self).motion.speed == Get(s, self).motion.speed
    ensures Get(t, self).motion.right == Get(s, self).motion.right && Get(t, self).motion.left == Get(s, self).motion.left
    ensures Get(t, self).actor == Get(s, self).actor.(jump := Get(t, self).actor.jump, falling := Get(t, self).actor.falling,
                                                      jumpSpeed := Get(t, self).actor.jumpSpeed, jumping := Get(t, self).actor.jumping)
    ensures !Get(s, self).actor.jumping ==>
              && Get(t, self).base.y < Utility.HEIGHT as real
              && Get(t, self).motion.direction == Entities.IntentFacing(Get(s, self))
    ensures Get(s, self).actor.jumping && Get(t, self).actor.jumping ==>
              Get(t, self).actor.jumpSpeed == Get(s, self).actor.jumpSpeed - Entities.JUMP_DECAY
    ensures Get(s, self).actor.jumping && !Get(t, self).actor.jumping ==>
              Get(t, self).motion.verticalSpeed == 0.0
              && Get(t, self).actor.jumpSpeed == 1.9 * Get(s, self).motion.speed
  {
    if !Get(s, self).actor.jumping then GroundStep(s, self, others) else JumpStep(s, self, others)
  }

  /** Player.updatePosition: the entity update, then the invincibility
      timer ticks; nothing else changes. */
  function PlayerUpdate(s: Session, now: int): (t: Session)
    requires Refers(s, s.player) && Get(s, s.player).kind.Player?
    ensures Frame(s, t)
    ensures Get(t, s.player).kind.Player?
    ensures !Get(s, s.player).actor.jumping ==> Get(t, s.player).base.y < Utility.HEIGHT as real
    ensures var u := EntityUpdate(s, s.player, Components(s), now);
            && Players.IsPlayer(Get(u, s.player))
            && Get(t, s.player) == Players.UpdateInvincibility(Get(u, s.player))
            && t == u.(heap := t.heap)
            && forall q :: q != s.player ==> Get(t, q) == Get(u, q)
  {
    var s1 := EntityUpdate(s, s.player, Components(s), now);
    FrameKeepsPlayer(s, s1, s.player);
    var p := Players.UpdateInvincibility(Get(s1, s.player));
    InvincibilityKeepsClass(Get(s1, s.player));
    PutFrame(s1, s.player, p);
    FrameTransitive(s, s1, Put(s1, s.player, p));
    Put(s1, s.player, p)
  }

  /** Moving an object other than a wall vertically is a callback's step. */
  lemma SetYCallback(s: Session, r: Ref, y: real)
    requires Refers(s, r) && !Get(s, r).kind.Wall?
    ensures CallbackFrame(s, Put(s, r, SetY(Get(s, r), y)))
  {
    PutCallback(s, r, SetY(Get(s, r), y));
  }

  lemma FrameKeepsPlayer(s: Session, t: Session, r: Ref)
    requires Frame(s, t) && Refers(s, r) && Get(s, r).kind.Player?
    ensures Refers(t, r) && Get(t, r).kind.Player?
  {
    assert Keeps(s.heap[r], t.heap[r]);
  }

  lemma InvincibilityKeepsClass(p: Obj)
    requires Players.IsPlayer(p)
    ensures Keeps(p, Players.UpdateInvincibility(p))
  {
  }

  /** On an empty arena an entity standing in sync at a non-negative x and asked to go right
      moves to the truncated position one speed step to the right, faces
      right and is marked as moving. */
  lemma WalkOnEmptyArena(s: Session, self: Ref, now: int)
    requires Refers(s, self) && IsEntity(Get(s, self))
    requires var e := Get(s, self);
             !e.actor.jumping && e.motion.right && !e.motion.left && InSync(e.base) && e.motion.speed >= 1.0 && e.base.x >= 0.0
    ensures var e, f := Get(s, self), Get(EntityUpdate(s, self, [], now), self);
            f.base.x == Trunc(e.base.x + e.motion.speed) as real
            && f.motion.direction == FacingRight && f.motion.moving
  {
    var e := Get(s, self);
    var e0 := Entities.RefreshAttack(e, now);
    var e1 := e0.(motion := e0.motion.(moving := false));
    var s1 := Put(s, self, e1);
    var intent := Entities.HorizontalIntent(e1);
    var e2 := SetDirection(e1, Entities.IntentFacing(e1));
    var s2 := Put(s1, self, e2);
    assert intent.candidate.x == Trunc(e.base.x + e.motion.speed);
    assert intent.candidate.x != e2.base.hitbox.x;
    var s3 := SideStep(s2, self, [], intent);
    assert Get(s3, self).base.x == Trunc(e.base.x + e.motion.speed) as real;
    assert Get(s3, self).motion.moving;
    assert GroundStep(s1, self, []) == ApplyGravity(s3, self, []);
  }

  /** The four-way clamp of Blubba.updatePosition: flush against the side
      of the obstacle it was hit from; from above it is the Blubba's own
      height that sets it on top. */
  function ClampFourWay(candidate: Rect, d: CollisionDirection, other: Base, height: real): (r: Rect)
    ensures d == Left || d == Right ==> r == Entities.ClampHorizontal(candidate, d, other)
    ensures d == Bottom ==> r == candidate.(y := Trunc(other.y - height))
    ensures d == Top ==> r == candidate.(y := Trunc(other.y + other.height))
    ensures r.width == candidate.width && r.height == candidate.height
  {
    match d
    case Bottom => candidate.(y := Trunc(other.y - height))
    case Top => candidate.(y := Trunc(other.y + other.height))
    case _ => Entities.ClampHorizontal(candidate, d, other)
  }

  /** Against an obstacle on integer coordinates, a vertical clamp of a
      candidate as tall as the Blubba leaves the two edge to edge, no longer
      overlapping. */
  lemma VerticalClampSeparates(candidate: Rect, d: CollisionDirection, other: Base)
    requires d == Top || d == Bottom
    requires other.y == other.hitbox.y as real && other.height == other.hitbox.height as real
    ensures !Intersects(ClampFourWay(candidate, d, other, candidate.height as real), other.hitbox)
  {
    var r := ClampFourWay(candidate, d, other, candidate.height as real);
    if d == Top {
      assert r.y == other.hitbox.y + other.hitbox.height;
    } else {
      assert r.y + r.height == other.hitbox.y;
    }
  }

  /** The scan of Blubba.updatePosition: boulders and bubbles are skipped,
      every other hit runs the callback and clamps the candidate, power-ups
      included. */
  function FourWayScan(s: Session, self: Ref, others: seq<Ref>, cand: Rect): (r: (Session, Rect))
    ensures CallbackFrame(s, r.0)
    ensures r.1.width == cand.width && r.1.height == cand.height
    decreases |others|
  {
    if others == [] then (s, cand)
    else
      var o := others[0];
      if PassesThrough(Get(s, o)) then FourWayScan(s, self, others[1..], cand)
      else
        var det := Detect(s, self, cand, o);
        var c := if det.1.Hit?
                 then ClampFourWay(cand, det.1.direction, Get(det.0, o).base, Get(det.0, self).base.height) else cand;
        var r := FourWayScan(det.0, self, others[1..], c);
        CallbackFrameTransitive(s, det.0, r.0);
        r
  }

  /** The rectangle a Blubba tries: the horizontal intent, moved up or down
      by its speed when exactly one vertical direction is requested. */
  function BlubbaCandidate(e: Obj): (r: Rect)
    requires e.kind.Enemy?
    ensures r.x == Entities.HorizontalIntent(e).candidate.x
    ensures e.kind.up && !e.kind.down ==> r.y == Trunc(e.base.y - e.motion.speed)
    ensures e.kind.down && !e.kind.up ==> r.y == Trunc(e.base.y + e.motion.speed)
    ensures e.kind.up == e.kind.down ==> r.y == Entities.HorizontalIntent(e).candidate.y
    ensures r.width == e.base.hitbox.width && r.height == e.base.hitbox.height
  {
    var c := Entities.HorizontalIntent(e).candidate;
    if e.kind.up && !e.kind.down then c.(y := Trunc(e.base.y - e.motion.speed))
    else if e.kind.down && !e.kind.up then c.(y := Trunc(e.base.y + e.motion.speed))
    else c
  }

  /** Blubba.updatePosition: free flight in four directions, no attack
      refresh, no gravity and no jump. */
  function BlubbaUpdate(s: Session, self: Ref, others: seq<Ref>): (t: Session)
    requires Refers(s, self) && Get(s, self).kind.Enemy?
    ensures Frame(s, t)
    ensures Get(t, self).actor == Get(s, self).actor
    ensures Get(t, self).motion == Get(s, self).motion.(direction := Entities.IntentFacing(Get(s, self)),
                                                          moving := Get(t, self).motion.moving)
    ensures BlubbaCandidate(Get(s, self)) == Get(s, self).base.hitbox ==>
              Get(t, self).base == Get(s, self).base && !Get(t, self).motion.moving
  {
    var e := Get(s, self);
    var rest := RemoveFirstEqual(s, others, self);
    var intent := Entities.HorizontalIntent(e);
    var e1 := SetDirection(e.(motion := e.motion.(moving := false)), Entities.IntentFacing(e));
    var s1 := Put(s, self, e1);
    PutFrame(s, self, e1);
    var cand := BlubbaCandidate(e);
    if cand != e1.base.hitbox then
      var sc := FourWayScan(s1, self, rest, cand);
      assert CallbackStep(Get(s1, self), Get(sc.0, self));
      var f := Get(sc.0, self);
      var g := UpdateHitbox(f.(base := f.base.(x := sc.1.x as real, y := sc.1.y as real),
                               motion := f.motion.(moving := intent.movingRight || intent.movingLeft)));
      PutFrame(sc.0, self, g);
      FrameTransitive(s, s1, sc.0);
      FrameTransitive(s, sc.0, Put(sc.0, self, g));
      Put(sc.0, self, g)
    else s1
  }

  /** On an empty arena a Blubba in sync at a non-negative height and asked
      only to go up rises to the truncated position one speed step higher. */
  lemma BlubbaRisesOnEmptyArena(s: Session, self: Ref)
    requires Refers(s, self) && Get(s, self).kind.Enemy?
    requires var e := Get(s, self);
             e.kind.up && !e.kind.down && InSync(e.base) && e.motion.speed >= 1.0 && e.base.y - e.motion.speed >= 0.0
    ensures var e, f := Get(s, self), Get(BlubbaUpdate(s, self, []), self);
            f.base.y == Trunc(e.base.y - e.motion.speed) as real && f.base.hitbox.y == Trunc(e.base.y - e.motion.speed)
  {
    var e := Get(s, self);
    assert BlubbaCandidate(e).y != e.base.hitbox.y;
  }

  /** Enemy.move for each class: one draw for a ZenChan or a Mighta (whose
      attack gate is set first), two for a Blubba (its vertical walk, then
      the inherited decision); then the class's position update against
      `getComponents()`. The draws are numbered by the session's counter. */
  function EnemyMove(s: Session, self: Ref, dice: Dice, now: int): (t: Session)
    requires Refers(s, self) && Get(s, self).kind.Enemy?
    ensures var blubba := Get(s, self).kind.archetype == Blubba;
            t.draws == s.draws + (if blubba then 2 else 1)
    ensures Frame(s.(draws := t.draws), t)
    ensures Get(s, self).kind.state == Caught ==> !Get(t, self).motion.right && !Get(t, self).motion.left
    ensures Get(s, self).kind.archetype == Mighta ==>
              (Get(t, self).actor.canAttack <==>
                 (Enemies.InAttackRange(Get(s, self), Get(s, s.player)) && Get(s, self).kind.state != Caught))
  {
    var e := Get(s, self);
    var p := Get(s, s.player);
    var s0 := s.(draws := s.draws + (if e.kind.archetype == Blubba then 2 else 1));
    var e1 := match e.kind.archetype
              case Blubba => Enemies.Decide(Enemies.BlubbaVertical(e, dice.roll(s.draws)), p, dice.roll(s.draws + 1))
              case Mighta => Enemies.Decide(Enemies.MightaGate(e, p), p, dice.roll(s.draws))
              case ZenChan => Enemies.Decide(e, p, dice.roll(s.draws));
    SetAndUpdate(s0, self, e1, now)
  }

  /** The enemy with its decision taken, followed by its class's position
      update: a Blubba's own, Entity's for the others. */
  function SetAndUpdate(s: Session, self: Ref, e1: Obj, now: int): (t: Session)
    requires Refers(s, self) && Get(s, self).kind.Enemy? && e1.kind.Enemy? && Keeps(Get(s, self), e1)
    ensures Frame(s, t)
    ensures Get(t, self).motion.right == e1.motion.right && Get(t, self).motion.left == e1.motion.left
    ensures e1.kind.archetype != Blubba ==> Get(t, self).actor.canAttack == e1.actor.canAttack
  {
    var s1 := Put(s, self, e1);
    PutFrame(s, self, e1);
    var t := if e1.kind.archetype == Blubba then BlubbaUpdate(s1, self, Components(s1))
             else EntityUpdate(s1, self, Components(s1), now);
    FrameTransitive(s, s1, t);
    t
  }

  /** A captured Blubba stays exactly where it is, whatever the dice say. */
  lemma CaughtBlubbaStaysPut(s: Session, self: Ref, dice: Dice, now: int)
    requires Refers(s, self) && Get(s, self).kind.Enemy? && Get(s, self).kind.archetype == Blubba
    requires Get(s, self).kind.state == Caught
    ensures Get(EnemyMove(s, self, dice, now), self).base == Get(s, self).base
  {
    var e := Get(s, self);
    var p := Get(s, s.player);
    var e1 := Enemies.Decide(Enemies.BlubbaVertical(e, dice.roll(s.draws)), p, dice.roll(s.draws + 1));
    assert BlubbaCandidate(e1) == e1.base.hitbox;
  }

  /** The scan of Bubble.updatePosition: objects equal to the bubble and
      boulders are skipped, every hit runs the callback, and side hits push
      the candidate back; the row never changes. */
  function BubbleScan(s: Session, self: Ref, others: seq<Ref>, cand: Rect): (r: (Session, Rect))
    ensures CallbackFrame(s, r.0)
    ensures r.1.y == cand.y && r.1.width == cand.width && r.1.height == cand.height
    decreases |others|
  {
    if others == [] then (s, cand)
    else
      var o := others[0];
      if SameAs(s, o, self) || Get(s, o).kind.Boulder? then BubbleScan(s, self, others[1..], cand)
      else
        var det := Detect(s, self, cand, o);
        var c := if det.1.Hit? then Entities.ClampHorizontal(cand, det.1.direction, Get(det.0, o).base) else cand;
        var r := BubbleScan(det.0, self, others[1..], c);
        CallbackFrameTransitive(s, det.0, r.0);
        r
  }

  /** The held enemy is carried along: its coordinates become the bubble's
      (x first, then y), its hitbox is left as it was. */
  function Carry(s: Session, self: Ref): (t: Session)
    requires Refers(s, self) && Get(s, self).kind.Bubble?
    ensures Frame(s, t)
    ensures Get(t, self) == Get(s, self)
    ensures var b := Get(s, self);
            b.kind.caughtEnemy.Some? && b.kind.caughtEnemy.value != self && Get(s, b.kind.caughtEnemy.value).kind.Enemy? ==>
              Get(t, b.kind.caughtEnemy.value) == SetY(SetX(Get(s, b.kind.caughtEnemy.value), b.base.x), b.base.y)
  {
    var b := Get(s, self);
    match b.kind.caughtEnemy
    case Some(e) =>
      if e != self && Get(s, e).kind.Enemy? then
        PutFrame(s, e, SetY(SetX(Get(s, e), b.base.x), b.base.y));
        Put(s, e, SetY(SetX(Get(s, e), b.base.x), b.base.y))
      else s
    case None => s
  }

  /** The end of Bubble.updatePosition: five seconds after reaching the top
      centre the held enemy is freed and the bubble destroyed. */
  function Burst(s: Session, self: Ref, now: int): (t: Session)
    requires Refers(s, self) && Get(s, self).kind.Bubble?
    ensures Frame(s, t)
    ensures Projectiles.Expired(Get(s, self), now) ==> Get(t, self) == Destroy(Get(s, self))
    ensures !Projectiles.Expired(Get(s, self), now) ==> t == s
    ensures var b := Get(s, self);
            Projectiles.Expired(b, now) && b.kind.caughtEnemy.Some? && b.kind.caughtEnemy.value != self
            && Get(s, b.kind.caughtEnemy.value).kind.Enemy? ==>
              Get(t, b.kind.caughtEnemy.value) == Enemies.Free(Get(s, b.kind.caughtEnemy.value))
  {
    var b := Get(s, self);
    if Projectiles.Expired(b, now) then
      var s1 := match b.kind.caughtEnemy
                case Some(e) => if e != self && Get(s, e).kind.Enemy? then Put(s, e, Enemies.Free(Get(s, e))) else s
                case None => s;
      assert Frame(s, s1) by {
        if b.kind.caughtEnemy.Some? && b.kind.caughtEnemy.value != self && Get(s, b.kind.caughtEnemy.value).kind.Enemy? {
          PutFrame(s, b.kind.caughtEnemy.value, Enemies.Free(Get(s, b.kind.caughtEnemy.value)));
        }
      }
      PutFrame(s1, self, Destroy(Get(s1, self)));
      Put(s1, self, Destroy(Get(s1, self)))
    else s
  }

  /** Bubble.updatePosition: steer, scan, move to the candidate (whole
      coordinates), carry the held enemy, re-sync the hitbox, and burst
      when the time at the top is up. */
  function BubbleUpdate(s: Session, self: Ref, others: seq<Ref>, now: int): (t: Session)
    requires Refers(s, self) && Get(s, self).kind.Bubble?
    ensures Frame(s, t)
    ensures var b := Projectiles.BubbleSteer(Get(s, self), now);
            Get(t, self).base.y == Projectiles.BubbleCandidate(b).y as real
    ensures Get(t, self).base.hitbox.x == Trunc(Get(t, self).base.x)
            && Get(t, self).base.hitbox.y == Trunc(Get(t, self).base.y)
    ensures var b := Get(t, self);
            b.kind.caughtEnemy.Some? && b.kind.caughtEnemy.value != self && Get(t, b.kind.caughtEnemy.value).kind.Enemy? ==>
              Get(t, b.kind.caughtEnemy.value).base.x == b.base.x && Get(t, b.kind.caughtEnemy.value).base.y == b.base.y
    ensures var b := Get(t, self);
            Projectiles.Expired(b, now) ==> b.base.toDestroy
  {
    var s4 := BubbleMove(s, self, others, now);
    var t := Burst(s4, self, now);
    FrameTransitive(s, s4, t);
    t
  }

  /** Bubble.updatePosition up to the burst: the bubble ends on the
      candidate with its hitbox in sync and its prisoner on top of it. */
  function BubbleMove(s: Session, self: Ref, others: seq<Ref>, now: int): (t: Session)
    requires Refers(s, self) && Get(s, self).kind.Bubble?
    ensures Frame(s, t) && Get(t, self).kind.Bubble?
    ensures var b := Projectiles.BubbleSteer(Get(s, self), now);
            Get(t, self).base.y == Projectiles.BubbleCandidate(b).y as real
    ensures Get(t, self).base.hitbox.x == Trunc(Get(t, self).base.x)
            && Get(t, self).base.hitbox.y == Trunc(Get(t, self).base.y)
    ensures var b := Get(t, self);
            b.kind.caughtEnemy.Some? && b.kind.caughtEnemy.value != self && Get(t, b.kind.caughtEnemy.value).kind.Enemy? ==>
              Get(t, b.kind.caughtEnemy.value).base.x == b.base.x && Get(t, b.kind.caughtEnemy.value).base.y == b.base.y
  {
    var b := Projectiles.BubbleSteer(Get(s, self), now);
    var s1 := Put(s, self, b);
    PutFrame(s, self, b);
    var sc := BubbleScan(s1, self, others, Projectiles.BubbleCandidate(b));
    assert CallbackStep(Get(s1, self), Get(sc.0, self));
    var f := Get(sc.0, self);
    var f1 := f.(base := f.base.(x := sc.1.x as real, y := sc.1.y as real));
    var s2 := Put(sc.0, self, f1);
    PutFrame(sc.0, self, f1);
    var s3 := Carry(s2, self);
    var s4 := Put(s3, self, UpdateHitbox(f1));
    PutFrame(s3, self, UpdateHitbox(f1));
    FrameTransitive(s, s1, sc.0);
    FrameTransitive(s, sc.0, s2);
    FrameTransitive(s, s2, s3);
    FrameTransitive(s, s3, s4);
    s4
  }

  /** From a non-negative height a bubble never moves down. */
  lemma BubbleNeverSinks(s: Session, self: Ref, others: seq<Ref>, now: int)
    requires Refers(s, self) && Get(s, self).kind.Bubble?
    requires Get(s, self).base.y >= 0.0 && Get(s, self).motion.speed >= 0.0
    ensures Get(BubbleUpdate(s, self, others, now), self).base.y <= Get(s, self).base.y
  {
    Projectiles.BubbleNeverAimsDown(Get(s, self), now);
  }

  /** The scan of Boulder.updatePosition: objects equal to the boulder are
      skipped, every hit runs the callback, and a wall destroys the boulder;
      nothing pushes it back. */
  function BoulderScan(s: Session, self: Ref, others: seq<Ref>, cand: Rect): (t: Session)
    requires Refers(s, self) && Get(s, self).kind.Boulder?
    ensures Frame(s, t)
    ensures Get(t, self).base.hitbox == Get(s, self).base.hitbox
    ensures Get(t, self).motion == Get(s, self).motion
    ensures Get(s, self).base.toDestroy ==> Get(t, self).base.toDestroy
    ensures (exists o <- others :: Get(s, o).kind.Wall? && Intersects(cand, Get(s, o).base.hitbox)
                                   && !SameAs(s, o, self))
            ==> Get(t, self).base.toDestroy
    decreases |others|
  {
    if others == [] then s
    else
      var o := others[0];
      if SameAs(s, o, self) then BoulderScan(s, self, others[1..], cand)
      else
        var s1 := BoulderStep(s, self, o, cand);
        var t := BoulderScan(s1, self, others[1..], cand);
        FrameTransitive(s, s1, t);
        t
  }

  /** One object of the boulder's scan: on a hit the callback runs, and a
      wall destroys the boulder. Walls themselves are left as they were. */
  function BoulderStep(s: Session, self: Ref, o: Ref, cand: Rect): (t: Session)
    requires Refers(s, self) && Get(s, self).kind.Boulder?
    ensures Frame(s, t) && Get(t, self).kind.Boulder?
    ensures Get(t, self).base.hitbox == Get(s, self).base.hitbox
    ensures Get(t, self).motion == Get(s, self).motion
    ensures Get(s, self).base.toDestroy ==> Get(t, self).base.toDestroy
    ensures Get(s, o).kind.Wall? && Intersects(cand, Get(s, o).base.hitbox) ==> Get(t, self).base.toDestroy
    ensures forall q | Get(s, q).kind.Wall? :: Get(t, q) == Get(s, q)
  {
    var det := Detect(s, self, cand, o);
    assert CallbackStep(Get(s, self), Get(det.0, self));
    FrameKeepsNonWall(s, det.0, self);
    assert Get(det.0, self).kind.Boulder? by { assert Keeps(s.heap[self], det.0.heap[self]); }
    if det.1.Hit? && Get(det.0, o).kind.Wall? then
      DestroyCallback(det.0, self);
      FrameTransitive(s, det.0, Put(det.0, self, Destroy(Get(det.0, self))));
      Put(det.0, self, Destroy(Get(det.0, self)))
    else det.0
  }

  /** Boulder.updatePosition: straight ahead by its speed whatever it hits,
      destroyed by any wall on the way. */
  function BoulderUpdate(s: Session, self: Ref, others: seq<Ref>): (t: Session)
    requires Refers(s, self) && Get(s, self).kind.Boulder?
    ensures Frame(s, t)
    ensures var b := Get(s, self);
            && (b.motion.direction == FacingRight ==> Get(t, self).base.x == Trunc(b.base.x + b.motion.speed) as real)
            && (b.motion.direction == FacingLeft ==> Get(t, self).base.x == Trunc(b.base.x - b.motion.speed) as real)
            && Get(t, self).base.y == Trunc(b.base.y) as real
    ensures Get(t, self).base.hitbox.x == Trunc(Get(t, self).base.x)
            && Get(t, self).base.hitbox.y == Trunc(Get(t, self).base.y)
    ensures var b := Projectiles.BoulderSteer(Get(s, self));
            (exists o <- others :: Get(s, o).kind.Wall? && Intersects(Projectiles.BoulderCandidate(b), Get(s, o).base.hitbox)
                                   && !SameAs(s, o, self))
            ==> Get(t, self).base.toDestroy
  {
    var b := Projectiles.BoulderSteer(Get(s, self));
    var s1 := Put(s, self, b);
    PutFrame(s, self, b);
    var cand := Projectiles.BoulderCandidate(b);
    var e := Get(s, self);
    assert b.base == e.base && b.motion.direction == e.motion.direction && b.motion.speed == e.motion.speed;
    assert e.motion.direction == FacingRight ==> cand.x == Trunc(e.base.x + e.motion.speed);
    assert e.motion.direction == FacingLeft ==> cand.x == Trunc(e.base.x - e.motion.speed);
    WallWitnessKept(s, s1, self, others, cand);
    var s2 := BoulderScan(s1, self, others, cand);
    var t := PlaceBoulder(s2, self, cand);
    FrameTransitive(s, s1, s2);
    FrameTransitive(s, s2, t);
    t
  }

  /** Re-steering the boulder changes no wall and neither its class nor its
      hitbox, so a wall it would hit is still one it would hit. */
  lemma WallWitnessKept(s: Session, s1: Session, self: Ref, others: seq<Ref>, cand: Rect)
    requires Refers(s, self) && Get(s, self).kind.Boulder?
    requires s1 == Put(s, self, Projectiles.BoulderSteer(Get(s, self)))
    ensures (exists o <- others :: Get(s, o).kind.Wall? && Intersects(cand, Get(s, o).base.hitbox) && !SameAs(s, o, self))
            ==> exists o <- others :: Get(s1, o).kind.Wall? && Intersects(cand, Get(s1, o).base.hitbox) && !SameAs(s1, o, self)
  {
    if exists o <- others :: Get(s, o).kind.Wall? && Intersects(cand, Get(s, o).base.hitbox) && !SameAs(s, o, self) {
      var o :| o in others && Get(s, o).kind.Wall? && Intersects(cand, Get(s, o).base.hitbox) && !SameAs(s, o, self);
      assert Get(s1, o) == Get(s, o);
      assert Get(s1, self).base.hitbox == Get(s, self).base.hitbox;
    }
  }

  /** The end of Boulder.updatePosition: the boulder moves to the candidate
      and its hitbox follows. */
  function PlaceBoulder(s: Session, self: Ref, cand: Rect): (t: Session)
    requires Refers(s, self) && Get(s, self).kind.Boulder?
    ensures Frame(s, t)
    ensures Get(t, self).base.x == cand.x as real && Get(t, self).base.y == cand.y as real
    ensures Get(t, self).base.hitbox.x == Trunc(Get(t, self).base.x)
            && Get(t, self).base.hitbox.y == Trunc(Get(t, self).base.y)
    ensures Get(t, self).base.toDestroy == Get(s, self).base.toDestroy
  {
    var f := Get(s, self);
    var g := UpdateHitbox(f.(base := f.base.(x := cand.x as real, y := cand.y as real)));
    PutFrame(s, self, g);
    Put(s, self, g)
  }
}

=== FILE: players.dfy ===
/** Player: lives, the hit/invincibility cycle and extra lives. The
    notification to the controller (onLivesChange) is Collisions.OnLivesChange. */
module Players {
  import opened Wrappers
  import opened Geometry
  import Utility
  import opened GameObjects

  const INITIAL_LIVES: int := 2
  const INVINCIBILITY_DURATION: int := 90
  const START_X: real := 20.0
  const START_Y: real := 392.0

  predicate IsPlayer(p: Obj) { p.kind.Player? }

  /** The Player constructor: 24 x 24 at (20, HEIGHT - 40), allowed to attack,
      two lives, not invincible. */
  function NewPlayer(): (p: Obj)
    ensures IsPlayer(p) && p.kind.lives == 2 && !p.kind.invincible && p.kind.invincibilityTimer == 0
    ensures p.actor.canAttack
    ensures p.base.x == 20.0 && p.base.y == (Utility.HEIGHT - 40) as real
    ensures p.base.width == 24.0 && p.base.height == 24.0
    ensures p.base.visible && !p.base.toDestroy && InSync(p.base)
    ensures p.motion == InitialMotion
  {
    Obj(NewBase(START_X, START_Y, 24.0, 24.0), InitialMotion, InitialActor.(canAttack := true),
        Player(INITIAL_LIVES, false, 0))
  }

  /** Player.isDead. */
  predicate IsDead(p: Obj)
    requires IsPlayer(p)
  {
    p.kind.lives <= 0
  }

  /** The part of Player.isHit before the notification: a vulnerable player
      loses one life and becomes invincible. */
  function Wounded(p: Obj): (r: Obj)
    requires IsPlayer(p)
    ensures IsPlayer(r)
    ensures !p.kind.invincible ==> r.kind.lives == p.kind.lives - 1 && r.kind.invincible
    ensures p.kind.invincible ==> r == p
    ensures r.kind.invincibilityTimer == p.kind.invincibilityTimer
    ensures r.base == p.base && r.motion == p.motion && r.actor == p.actor
  {
    if p.kind.invincible then p
    else p.(kind := p.kind.(invincible := true, lives := p.kind.lives - 1))
  }

  /** The part of Player.isHit after the notification: the timer is armed.
      Only ever applied when the hit landed. */
  function ArmTimer(p: Obj): (r: Obj)
    requires IsPlayer(p)
    ensures IsPlayer(r) && r.kind.invincibilityTimer == INVINCIBILITY_DURATION
    ensures r.kind.lives == p.kind.lives && r.kind.invincible == p.kind.invincible
    ensures r.base == p.base && r.motion == p.motion && r.actor == p.actor
  {
    p.(kind := p.kind.(invincibilityTimer := INVINCIBILITY_DURATION))
  }

  /** Player.isHit without observers: whether it notifies, and the player. */
  function IsHit(p: Obj): (r: (Obj, bool))
    requires IsPlayer(p)
    ensures IsPlayer(r.0)
    ensures r.1 <==> !p.kind.invincible
    ensures r.1 ==> r.0.kind == Player(p.kind.lives - 1, true, INVINCIBILITY_DURATION)
    ensures !r.1 ==> r.0 == p
    ensures r.0.base == p.base && r.0.motion == p.motion && r.0.actor == p.actor
  {
    if p.kind.invincible then (p, false) else (ArmTimer(Wounded(p)), true)
  }

  /** Player.updateInvincibility. */
  function UpdateInvincibility(p: Obj): (r: Obj)
    requires IsPlayer(p)
    ensures IsPlayer(r) && r.kind.lives == p.kind.lives
    ensures !p.kind.invincible ==> r == p
    ensures p.kind.invincible ==> r.kind.invincibilityTimer == p.kind.invincibilityTimer - 1
                                  && (r.kind.invincible <==> r.kind.invincibilityTimer > 0)
    ensures r.base == p.base && r.motion == p.motion && r.actor == p.actor
  {
    if !p.kind.invincible then p
    else
      var t := p.kind.invincibilityTimer - 1;
      p.(kind := p.kind.(invincibilityTimer := t, invincible := t > 0))
  }

  /** Player.increaseLives, before the notification. */
  function IncreaseLives(p: Obj): (r: Obj)
    requires IsPlayer(p)
    ensures IsPlayer(r) && r.kind.lives == p.kind.lives + 1
    ensures r.kind.invincible == p.kind.invincible && r.kind.invincibilityTimer == p.kind.invincibilityTimer
    ensures r.base == p.base && r.motion == p.motion && r.actor == p.actor
  {
    p.(kind := p.kind.(lives := p.kind.lives + 1))
  }

  /** k calls of updateInvincibility. */
  function Tick(p: Obj, k: nat): (r: Obj)
    requires IsPlayer(p)
    ensures IsPlayer(r)
    decreases k
  {
    if k == 0 then p else Tick(UpdateInvincibility(p), k - 1)
  }

  /** While the timer has not run out, each call takes one off it and the
      player stays invincible. */
  lemma {:induction false} TimerCountsDown(p: Obj, k: nat)
    requires IsPlayer(p) && p.kind.invincible && p.kind.invincibilityTimer > k
    ensures Tick(p, k).kind.invincible
    ensures Tick(p, k).kind.invincibilityTimer == p.kind.invincibilityTimer - k
    ensures Tick(p, k).kind.lives == p.kind.lives
    decreases k
  {
    if k > 0 {
      TimerCountsDown(UpdateInvincibility(p), k - 1);
    }
  }

  lemma {:induction false} TickShift(p: Obj, k: nat)
    requires IsPlayer(p)
    ensures Tick(p, k + 1) == UpdateInvincibility(Tick(p, k))
    decreases k
  {
    if k > 0 {
      TickShift(UpdateInvincibility(p), k - 1);
    }
  }

  /** After a landed hit, invincibility lasts exactly 90 updates: still on
      after 89, off after the 90th, and a hit during that window changes
      nothing. */
  lemma InvincibilityLastsNinetyUpdates(p: Obj, k: nat)
    requires IsPlayer(p) && !p.kind.invincible
    requires k < INVINCIBILITY_DURATION
    ensures Tick(IsHit(p).0, k).kind.invincible
    ensures IsHit(Tick(IsHit(p).0, k)).0 == Tick(IsHit(p).0, k)
    ensures !Tick(IsHit(p).0, INVINCIBILITY_DURATION).kind.invincible
    ensures Tick(IsHit(p).0, INVINCIBILITY_DURATION).kind.lives == p.kind.lives - 1
  {
    var h := IsHit(p).0;
    TimerCountsDown(h, k);
    TimerCountsDown(h, INVINCIBILITY_DURATION - 1);
    TickShift(h, INVINCIBILITY_DURATION - 1);
  }

  /** A hit costs exactly one life and an extra life gives one back. */
  lemma HitThenExtraLifeRestoresLives(p: Obj)
    requires IsPlayer(p) && !p.kind.invincible
    ensures IncreaseLives(IsHit(p).0).kind.lives == p.kind.lives
    ensures IsDead(IsHit(p).0) <==> p.kind.lives <= 1
  {
  }
}

=== FILE: power_ups.dfy ===
/** PowerUp: the points table of PowerUpFactory, the random factory and the
    reward a player collects. Its gravity step (which scans every object)
    is in Movement. */
module PowerUps {
  import opened Wrappers
  import opened Geometry
  import opened GameObjects

  /** Type.values(), in declaration order. */
  const Types: seq<PowerUpType> :=
    [Mushroom, Cherry, GreenPepper, Grape, Carrot, IceCream, Watermelon, Turnip, Hamburger, Cake]

  /** A draw of `random.nextInt(types.length)`. */
  type TypeIndex = i: int | 0 <= i < 10

  /** The points of PowerUpFactory.createPowerUp. */
  function Points(t: PowerUpType): (p: int)
    ensures p > 0
  {
    match t
    case Mushroom => 100
    case Cherry => 700
    case GreenPepper => 10
    case Grape => 4000
    case Carrot => 30
    case IceCream => 950
    case Watermelon => 600
    case Turnip => 60
    case Hamburger => 2000
    case Cake => 2000
  }

  /** The types whose collection also grants an extra life. */
  predicate GrantsLife(t: PowerUpType)
  {
    t == Cake || t == Grape || t == Carrot || t == Turnip
  }

  predicate IsPowerUp(o: Obj) { o.kind.PowerUp? }

  /** PowerUpFactory.createPowerUp: a 20 x 20 entity worth its type's points. */
  function CreatePowerUp(x: real, y: real, t: PowerUpType): (o: Obj)
    ensures IsPowerUp(o) && o.kind.powerUpType == t && o.kind.points == Points(t)
    ensures o.base.x == x && o.base.y == y && o.base.width == 20.0 && o.base.height == 20.0
    ensures o.base.visible && !o.base.toDestroy && InSync(o.base)
    ensures !o.actor.canAttack && !o.motion.right && !o.motion.left
  {
    Obj(NewBase(x, y, 20.0, 20.0), InitialMotion, InitialActor, PowerUp(t, Points(t)))
  }

  /** PowerUpFactory.createRandomPowerUp with the drawn index. */
  function CreateRandomPowerUp(x: real, y: real, i: TypeIndex): (o: Obj)
    ensures IsPowerUp(o) && o.kind.powerUpType in Types && o.kind.points == Points(o.kind.powerUpType)
    ensures o.kind.powerUpType == Types[i]
  {
    CreatePowerUp(x, y, Types[i])
  }

  /** Every type can be drawn, by exactly one index, so the random factory
      covers the whole table. */
  lemma EveryTypeDrawable(t: PowerUpType)
    ensures exists i: TypeIndex :: Types[i] == t
    ensures forall i: TypeIndex, j: TypeIndex :: Types[i] == Types[j] ==> i == j
  {
    var i: TypeIndex := match t
      case Mushroom => 0 case Cherry => 1 case GreenPepper => 2 case Grape => 3 case Carrot => 4
      case IceCream => 5 case Watermelon => 6 case Turnip => 7 case Hamburger => 8 case Cake => 9;
    assert Types[i] == t;
  }

  /** Exactly four of the ten types grant a life: CAKE worth 2000, GRAPE
      worth 4000, CARROT worth 30 and TURNIP worth 60. */
  lemma LifeGrantingTypes()
    ensures |set i: TypeIndex | GrantsLife(Types[i])| == 4
    ensures forall t :: GrantsLife(t) <==> t in {Cake, Grape, Carrot, Turnip}
    ensures Points(Cake) == 2000 && Points(Grape) == 4000 && Points(Carrot) == 30 && Points(Turnip) == 60
    ensures forall t :: GrantsLife(t) ==> Points(t) in {30, 60, 2000, 4000}
  {
    assert (set i: TypeIndex | GrantsLife(Types[i])) == {3, 4, 7, 9};
  }
}

=== FILE: projectiles.dfy ===
/** Bubble and Boulder: construction and the object-level half of their
    updates (steering, the candidate rectangle, catching, expiry). The scans
    and the moving of a captured enemy are in Movement. */
module Projectiles {
  import opened Wrappers
  import opened Geometry
  import Utility
  import opened GameObjects

  /** 4 * TILE_SIZE: the horizontal run of a bubble. */
  const MAX_OFFSET: real := 72.0
  /** 4 * TILE_SIZE: the height of the top band where bubbles gather. */
  const TOP_BAND: real := 72.0
  /** WIDTH / 2. */
  const CENTRE_X: real := 288.0
  const FIVE_SECONDS: int := 5000
  /** NORMAL_SPEED * 1.5. */
  const BOULDER_SPEED: real := 3.0

  predicate IsBubble(b: Obj) { b.kind.Bubble? }

  /** The Bubble constructor: a 20 x 20 movable object heading `d`, able to
      catch. */
  function NewBubble(x: real, y: real, d: Facing): (b: Obj)
    ensures IsBubble(b) && b.kind.canCatch && CatchReady(b) && b.kind.offset == 0.0 && b.kind.caughtEnemy.None?
    ensures !b.kind.reachedTopMiddle && !b.kind.goingUp
    ensures b.motion.direction == d && b.motion.speed == NORMAL_SPEED
    ensures b.base.x == x && b.base.y == y && b.base.width == 20.0 && b.base.height == 20.0
    ensures b.base.visible && !b.base.toDestroy && InSync(b.base)
  {
    Obj(NewBase(x, y, 20.0, 20.0), InitialMotion.(direction := d), InitialActor,
        Bubble(true, false, 0.0, None, false, 0))
  }

  /** The steering half of Bubble.updatePosition: the horizontal run, then,
      with catching over, rising to the top band and gathering at the centre
      column, where the arrival time is recorded once. The offset always
      grows by the speed. */
  function BubbleSteer(b: Obj, now: int): (r: Obj)
    requires IsBubble(b)
    ensures IsBubble(r) && r.base == b.base && r.actor == b.actor
    ensures r.motion.speed == b.motion.speed && r.motion.direction == b.motion.direction
    ensures r.kind.offset == b.kind.offset + b.motion.speed
    ensures r.kind.caughtEnemy == b.kind.caughtEnemy
    ensures b.kind.offset < MAX_OFFSET ==>
              && r.kind.canCatch == b.kind.canCatch && !r.kind.goingUp
              && r.motion.right == (b.motion.direction == FacingRight)
              && r.motion.left == (b.motion.direction == FacingLeft)
    ensures b.kind.offset >= MAX_OFFSET ==> !r.kind.canCatch
    ensures b.kind.offset >= MAX_OFFSET && b.base.y > TOP_BAND ==>
              r.kind.goingUp && !r.motion.right && !r.motion.left
    ensures b.kind.offset >= MAX_OFFSET && b.base.y <= TOP_BAND ==>
              && !r.kind.goingUp
              && (r.motion.right <==> b.base.x < CENTRE_X)
              && (r.motion.left <==> b.base.x > CENTRE_X)
    ensures b.kind.reachedTopMiddle ==> r.kind.reachedTopMiddle && r.kind.reachedTime == b.kind.reachedTime
    ensures !b.kind.reachedTopMiddle && r.kind.reachedTopMiddle ==>
              r.kind.reachedTime == now && b.base.x == CENTRE_X && b.base.y <= TOP_BAND
              && b.kind.offset >= MAX_OFFSET
    ensures !r.kind.reachedTopMiddle ==> r.kind.reachedTime == b.kind.reachedTime
    ensures ObjEvolves(b, r)
    ensures CatchReady(b) ==> CatchReady(r)
  {
    var k := b.kind;
    var m := b.motion;
    if k.offset < MAX_OFFSET then
      var right := m.direction == FacingRight;
      b.(kind := k.(goingUp := false, offset := k.offset + m.speed),
         motion := m.(right := right, left := !right))
    else if b.base.y <= TOP_BAND then
      if b.base.x < CENTRE_X then
        b.(kind := k.(canCatch := false, goingUp := false, offset := k.offset + m.speed),
           motion := m.(left := false, right := true))
      else if b.base.x > CENTRE_X then
        b.(kind := k.(canCatch := false, goingUp := false, offset := k.offset + m.speed),
           motion := m.(left := true, right := false))
      else
        var k' := if !k.reachedTopMiddle then k.(reachedTopMiddle := true, reachedTime := now) else k;
        b.(kind := k'.(canCatch := false, goingUp := false, offset := k.offset + m.speed),
           motion := m.(left := false, right := false))
    else
      b.(kind := k.(canCatch := false, goingUp := true, offset := k.offset + m.speed),
         motion := m.(left := false, right := false))
  }

  /** The horizontal velocity: the speed to the right, its negation to the
      left (left wins when both are set, as the later assignment). */
  function Velocity(o: Obj): (v: real)
    ensures o.motion.left ==> v == -o.motion.speed
    ensures !o.motion.left && o.motion.right ==> v == o.motion.speed
    ensures !o.motion.left && !o.motion.right ==> v == 0.0
  {
    if o.motion.left then -o.motion.speed else if o.motion.right then o.motion.speed else 0.0
  }

  /** The rectangle a bubble tries: shifted by the velocity and, when rising,
      up by the speed. */
  function BubbleCandidate(b: Obj): (r: Rect)
    requires IsBubble(b)
    ensures r.x == Trunc(b.base.x + Velocity(b))
    ensures b.kind.goingUp ==> r.y == Trunc(b.base.y - b.motion.speed)
    ensures !b.kind.goingUp ==> r.y == Trunc(b.base.y)
    ensures r.width == Trunc(b.base.width) && r.height == Trunc(b.base.height)
  {
    Rect(Trunc(b.base.x + Velocity(b)), Trunc(b.base.y - (if b.kind.goingUp then b.motion.speed else 0.0)),
         Trunc(b.base.width), Trunc(b.base.height))
  }

  /** A bubble never aims downward: from a non-negative height, the candidate
      row is never below the current one. */
  lemma BubbleNeverAimsDown(b: Obj, now: int)
    requires IsBubble(b) && b.base.y >= 0.0 && b.motion.speed >= 0.0
    ensures BubbleCandidate(BubbleSteer(b, now)).y as real <= b.base.y
  {
  }

  /** One steering step of a bubble gathering at the top from an odd column:
      it moves by two pixels, so it does not record its arrival at column
      288 in this step and its candidate column is odd again. Whether it
      stays odd over later frames is not claimed here; the side clamp of
      the movement scan can set it on an even column. */
  lemma OddColumnNeverCentres(b: Obj, now: int, c: int)
    requires IsBubble(b) && b.kind.offset >= MAX_OFFSET && b.base.y <= TOP_BAND
    requires b.motion.speed == 2.0 && b.base.x == c as real && c % 2 == 1
    requires !b.kind.reachedTopMiddle
    ensures !BubbleSteer(b, now).kind.reachedTopMiddle
    ensures BubbleCandidate(BubbleSteer(b, now)).x % 2 == 1
  {
    var r := BubbleSteer(b, now);
    if c < 288 {
      assert Velocity(r) == 2.0;
      assert Trunc(b.base.x + 2.0) == c + 2;
    } else {
      assert Velocity(r) == -2.0;
      assert Trunc(b.base.x - 2.0) == c - 2;
    }
  }

  /** A bubble that may still catch holds no enemy yet. */
  predicate CatchReady(b: Obj)
    requires IsBubble(b)
  {
    b.kind.canCatch ==> b.kind.caughtEnemy.None?
  }

  /** The bubble's half of catching an enemy: only while it may catch, it
      holds on to the enemy and stops catching. */
  function Catch(b: Obj, enemy: Ref): (r: (Obj, bool))
    requires IsBubble(b)
    ensures IsBubble(r.0) && (r.1 <==> b.kind.canCatch)
    ensures r.1 ==> r.0.kind.caughtEnemy == Some(enemy) && !r.0.kind.canCatch
    ensures !r.1 ==> r.0 == b
    ensures r.0.base == b.base && r.0.motion == b.motion
    ensures CatchReady(b) ==> ObjEvolves(b, r.0) && CatchReady(r.0)
  {
    if b.kind.canCatch then (b.(kind := b.kind.(caughtEnemy := Some(enemy), canCatch := false)), true)
    else (b, false)
  }

  /** A bubble catches at most one enemy: a second catch is refused. */
  lemma CatchAtMostOnce(b: Obj, e1: Ref, e2: Ref)
    requires IsBubble(b)
    ensures !Catch(Catch(b, e1).0, e2).1
    ensures Catch(Catch(b, e1).0, e2).0.kind.caughtEnemy == Catch(b, e1).0.kind.caughtEnemy
  {
  }

  /** Five seconds after reaching the top centre the bubble bursts. */
  predicate Expired(b: Obj, now: int)
    requires IsBubble(b)
  {
    b.kind.reachedTopMiddle && now - b.kind.reachedTime >= FIVE_SECONDS
  }

  predicate IsBoulder(b: Obj) { b.kind.Boulder? }

  /** The Boulder constructor: a 20 x 20 projectile heading `d` at 3.0. */
  function NewBoulder(x: real, y: real, d: Facing): (b: Obj)
    ensures IsBoulder(b) && b.motion.direction == d && b.motion.speed == BOULDER_SPEED
    ensures b.base.x == x && b.base.y == y && b.base.width == 20.0 && b.base.height == 20.0
    ensures b.base.visible && !b.base.toDestroy && InSync(b.base)
  {
    Obj(NewBase(x, y, 20.0, 20.0), InitialMotion.(direction := d, speed := BOULDER_SPEED), InitialActor, Boulder)
  }

  /** The steering of Boulder.updatePosition: straight ahead in its fixed
      direction. */
  function BoulderSteer(b: Obj): (r: Obj)
    ensures r.motion.direction == b.motion.direction && r.motion.speed == b.motion.speed
    ensures b.motion.direction == FacingLeft ==> r.motion.left && !r.motion.right
    ensures b.motion.direction == FacingRight ==> r.motion.right && !r.motion.left
    ensures r.base == b.base && r.kind == b.kind && r.actor == b.actor
  {
    if b.motion.direction == FacingLeft then b.(motion := b.motion.(right := false, left := true))
    else b.(motion := b.motion.(left := false, right := true))
  }

  /** The rectangle a boulder tries: one speed step ahead on its row. */
  function BoulderCandidate(b: Obj): (r: Rect)
    ensures b.motion.direction == FacingRight ==> r.x == Trunc(b.base.x + b.motion.speed)
    ensures b.motion.direction == FacingLeft ==> r.x == Trunc(b.base.x - b.motion.speed)
    ensures r.y == Trunc(b.base.y) && r.width == Trunc(b.base.width) && r.height == Trunc(b.base.height)
  {
    var s := BoulderSteer(b);
    Rect(Trunc(b.base.x + Velocity(s)), Trunc(b.base.y), Trunc(b.base.width), Trunc(b.base.height))
  }
}

=== FILE: rank_panel.dfy ===
/** The ranking screen (src/View/RankPanel.java). Building the display sorts
    the list it was given in place, by descending highest score, with
    `Collections.sort` (a stable sort); an empty list is left alone and only
    a placeholder is shown. The sort is modelled generically over the key,
    so that the session can sort its list of user references by the score
    of the account each one points to. */
module RankPanel {

  /** Ordered by non-increasing key. */
  predicate Descending<T>(s: seq<T>, key: T -> int)
  {
    forall i, j | 0 <= i < j < |s| :: key(s[i]) >= key(s[j])
  }

  /** The elements whose key is `k`, in list order. */
  function WithKey<T>(s: seq<T>, key: T -> int, k: int): (r: seq<T>)
    ensures |r| <= |s|
  {
    if s == [] then []
    else if key(s[0]) == k then [s[0]] + WithKey(s[1..], key, k)
    else WithKey(s[1..], key, k)
  }

  /** Places `x` before the first element whose key does not exceed its own. */
  function Insert<T>(x: T, s: seq<T>, key: T -> int): (r: seq<T>)
    ensures |r| == |s| + 1
    ensures multiset(r) == multiset(s) + multiset{x}
  {
    if s == [] || key(x) >= key(s[0]) then [x] + s
    else
      assert s == [s[0]] + s[1..];
      [s[0]] + Insert(x, s[1..], key)
  }

  /** `Collections.sort` with `Integer.compare(u2.score, u1.score)`. */
  function Sort<T>(s: seq<T>, key: T -> int): (r: seq<T>)
    ensures multiset(r) == multiset(s)
  {
    if s == [] then []
    else
      assert s == [s[0]] + s[1..];
      Insert(s[0], Sort(s[1..], key), key)
  }

  lemma {:induction false} InsertKeepsDescending<T>(x: T, s: seq<T>, key: T -> int)
    requires Descending(s, key)
    ensures Descending(Insert(x, s, key), key)
  {
    if s != [] && key(x) < key(s[0]) {
      InsertKeepsDescending(x, s[1..], key);
      forall y | y in s[1..] ensures key(y) <= key(s[0]) {
        var j :| 0 <= j < |s[1..]| && s[1..][j] == y;
        assert s[j + 1] == y;
      }
      InsertBounded(x, s[1..], key, key(s[0]));
      ConsDescending(s[0], Insert(x, s[1..], key), key);
    }
  }

  /** Inserting below a bound keeps every key below it. */
  lemma InsertBounded<T>(x: T, s: seq<T>, key: T -> int, b: int)
    requires key(x) <= b && forall y | y in s :: key(y) <= b
    ensures forall y | y in Insert(x, s, key) :: key(y) <= b
  {
    var t := Insert(x, s, key);
    forall y | y in t ensures key(y) <= b {
      assert y in multiset(t);
      if y != x {
        assert y in multiset(s);
      }
    }
  }

  /** A head no smaller than every key of a descending tail. */
  lemma ConsDescending<T>(h: T, t: seq<T>, key: T -> int)
    requires Descending(t, key) && forall y | y in t :: key(y) <= key(h)
    ensures Descending([h] + t, key)
  {
    var r := [h] + t;
    forall i, j | 0 <= i < j < |r|
      ensures key(r[i]) >= key(r[j])
    {
      if i == 0 {
        assert r[j] == t[j - 1];
        assert t[j - 1] in t;
      } else {
        assert r[i] == t[i - 1] && r[j] == t[j - 1];
      }
    }
  }

  /** Inserting `x` only adds `x` to the elements sharing its key, in front. */
  lemma {:induction false} InsertWithKey<T>(x: T, s: seq<T>, key: T -> int, k: int)
    ensures WithKey(Insert(x, s, key), key, k)
         == (if key(x) == k then [x] + WithKey(s, key, k) else WithKey(s, key, k))
  {
    if s == [] || key(x) >= key(s[0]) {
      assert ([x] + s)[1..] == s;
      if s != [] && key(x) == k && key(s[0]) == k {
      }
    } else {
      var t := Insert(x, s[1..], key);
      InsertWithKey(x, s[1..], key, k);
      assert ([s[0]] + t)[1..] == t;
      if key(x) == k {
        assert key(s[0]) != k;
      }
    }
  }

  lemma {:induction false} SortDescending<T>(s: seq<T>, key: T -> int)
    ensures Descending(Sort(s, key), key)
  {
    if s != [] {
      SortDescending(s[1..], key);
      InsertKeepsDescending(s[0], Sort(s[1..], key), key);
    }
  }

  /** Stability: the users sharing a score keep their relative order. */
  lemma {:induction false} SortStable<T>(s: seq<T>, key: T -> int, k: int)
    ensures WithKey(Sort(s, key), key, k) == WithKey(s, key, k)
  {
    if s != [] {
      SortStable(s[1..], key, k);
      InsertWithKey(s[0], Sort(s[1..], key), key, k);
    }
  }

  /** Building the display: the sorted list, and whether only the
      placeholder is shown. */
  function CreateDisplay<T>(users: seq<T>, key: T -> int): (r: (seq<T>, bool))
    ensures r.1 <==> users == []
    ensures r.1 ==> r.0 == users
    ensures multiset(r.0) == multiset(users)
    ensures Descending(r.0, key)
    ensures forall k :: WithKey(r.0, key, k) == WithKey(users, key, k)
  {
    if users == [] then (users, true)
    else
      SortDescending(users, key);
      forall k ensures WithKey(Sort(users, key), key, k) == WithKey(users, key, k) {
        SortStable(users, key, k);
      }
      (Sort(users, key), false)
  }
}

=== FILE: register_panel.dfy ===
/** The registration screen (src/View/RegisterPanel.java): an avatar cursor
    over three images and a nickname text field whose document filter
    refuses any edit that would leave more than five characters. The text
    field is modelled as its text plus the caret position that Swing's
    default caret keeps. */
module RegisterPanel {
  import opened Wrappers
  import opened Selection

  const IMAGE_COUNT: int := 3
  const MAX_CHARACTERS: int := 5

  /** The image paths of AVATAR_ONE, AVATAR_TWO and AVATAR_THREE, in the
      order the panel puts them in its array. */
  const AvatarPaths: seq<string> :=
    ["./res/Graphics/Avatar/Dino1.png", "./res/Graphics/Avatar/Dino2.png", "./res/Graphics/Avatar/Ghost.png"]

  datatype TextField = TextField(text: string, caret: int)

  predicate WellFormed(f: TextField) { 0 <= f.caret <= |f.text| }

  datatype Register = Register(selectedImage: int, nickname: TextField)

  predicate Valid(r: Register)
  {
    0 <= r.selectedImage < IMAGE_COUNT && WellFormed(r.nickname) && |r.nickname.text| <= MAX_CHARACTERS
  }

  function NewRegister(): (r: Register)
    ensures Valid(r) && r.selectedImage == 0 && r.nickname.text == ""
  {
    Register(0, TextField("", 0))
  }

  function MoveSelectionDown(r: Register): (r': Register)
    requires Valid(r)
    ensures Valid(r') && r'.nickname == r.nickname
    ensures r.selectedImage == IMAGE_COUNT - 1 ==> r'.selectedImage == 0
    ensures r.selectedImage < IMAGE_COUNT - 1 ==> r'.selectedImage == r.selectedImage + 1
  {
    r.(selectedImage := CycleDown(r.selectedImage, IMAGE_COUNT))
  }

  function MoveSelectionUp(r: Register): (r': Register)
    requires Valid(r)
    ensures Valid(r') && r'.nickname == r.nickname
    ensures MoveSelectionDown(r') == r
  {
    CycleInverse(r.selectedImage, IMAGE_COUNT);
    r.(selectedImage := CycleUp(r.selectedImage, IMAGE_COUNT))
  }

  lemma UpDownInverse(r: Register)
    requires Valid(r)
    ensures MoveSelectionUp(MoveSelectionDown(r)) == r
    ensures MoveSelectionDown(MoveSelectionUp(r)) == r
  {
    CycleInverse(r.selectedImage, IMAGE_COUNT);
  }

  /** `getCurrentImagePath`: the label on display is always the selected one. */
  function CurrentImagePath(r: Register): (p: string)
    requires Valid(r)
    ensures p in AvatarPaths
  {
    AvatarPaths[r.selectedImage]
  }

  /** The avatar recorded for a new user identifies the selected image. */
  lemma PathIdentifiesImage(a: Register, b: Register)
    requires Valid(a) && Valid(b)
    ensures CurrentImagePath(a) == CurrentImagePath(b) <==> a.selectedImage == b.selectedImage
  {
    if a.selectedImage != b.selectedImage {
      var pa, pb := AvatarPaths[a.selectedImage], AvatarPaths[b.selectedImage];
      assert pa[25] != pb[25] || pa[26] != pb[26];
    }
  }

  // CharacterLimitFilter(5) over the document text, followed by the
  // document's own location checks (which throw BadLocationException).

  /** `insertString`: applied iff the result has at most five characters. */
  function FilterInsert(doc: string, offset: int, s: string): (r: Result<string>)
    ensures |doc| + |s| > MAX_CHARACTERS ==> r == Success(doc)
    ensures r.Success? && |doc| + |s| <= MAX_CHARACTERS ==>
              (0 <= offset <= |doc| && r.value == doc[..offset] + s + doc[offset..])
                || (s == [] && r.value == doc)
    ensures r.Failure? <==> |doc| + |s| <= MAX_CHARACTERS && s != [] && !(0 <= offset <= |doc|)
    ensures r.Success? && |doc| <= MAX_CHARACTERS ==> |r.value| <= MAX_CHARACTERS
  {
    if |doc| + |s| <= MAX_CHARACTERS then
      if s == [] then Success(doc)
      else if 0 <= offset <= |doc| then Success(doc[..offset] + s + doc[offset..])
      else Failure(BadLocation(offset))
    else Success(doc)
  }

  /** `remove`: always passed through; the document refuses a range that
      does not lie inside the text. */
  function FilterRemove(doc: string, offset: int, length: int): (r: Result<string>)
    ensures r.Failure? <==> length > 0 && !(0 <= offset && offset + length <= |doc|)
    ensures r.Success? && length > 0 ==>
              |r.value| == |doc| - length && r.value == doc[..offset] + doc[offset + length..]
    ensures length <= 0 ==> r == Success(doc)
  {
    if length > 0 then
      if 0 <= offset && offset + length <= |doc| then Success(doc[..offset] + doc[offset + length..])
      else Failure(BadLocation(offset))
    else Success(doc)
  }

  /** `replace`: applied iff the result has at most five characters; the
      removal runs first, then the insertion. */
  function FilterReplace(doc: string, offset: int, length: int, text: string): (r: Result<string>)
    ensures |doc| - length + |text| > MAX_CHARACTERS ==> r == Success(doc)
    ensures r.Success? && |doc| <= MAX_CHARACTERS ==> |r.value| <= MAX_CHARACTERS
    ensures r.Success? && |doc| - length + |text| <= MAX_CHARACTERS && length > 0 ==>
              0 <= offset && offset + length <= |doc| && r.value == doc[..offset] + text + doc[offset + length..]
  {
    if |doc| - length + |text| <= MAX_CHARACTERS then
      if length == 0 && text == [] then Success(doc)
      else
        var removed :- FilterRemove(doc, offset, length);
        FilterInsert(removed, offset, text)
    else Success(doc)
  }

  /** `setText`, which replaces the whole document; when the filter lets it
      through, the caret follows the inserted text to the end. */
  function SetText(f: TextField, t: string): (r: TextField)
    requires WellFormed(f)
    ensures WellFormed(r)
    ensures |t| <= MAX_CHARACTERS ==> r == TextField(t, |t|)
    ensures |t| > MAX_CHARACTERS ==> r == f
  {
    var d := FilterReplace(f.text, 0, |f.text|, t);
    if |t| <= MAX_CHARACTERS then
      assert d == Success(t) by {
        assert |f.text| - |f.text| + |t| <= MAX_CHARACTERS;
        if |f.text| > 0 {
          assert f.text[..0] + t + f.text[|f.text|..] == t;
        } else if t != [] {
          assert FilterRemove(f.text, 0, 0) == Success(f.text);
          assert f.text[..0] + t + f.text[0..] == t;
        }
      }
      TextField(t, |t|)
    else
      f
  }

  /** `Document.remove(offset, 1)` on the field: the caret moves back when it
      stood after the removed character. A bad location leaves the field as
      it was. */
  function RemoveAt(f: TextField, offset: int): (r: Result<TextField>)
    requires WellFormed(f)
    ensures r.Success? <==> 0 <= offset < |f.text|
    ensures r.Success? ==>
              && WellFormed(r.value)
              && r.value.text == f.text[..offset] + f.text[offset + 1..]
              && r.value.caret == (if offset < f.caret then f.caret - 1 else f.caret)
  {
    var d :- FilterRemove(f.text, offset, 1);
    Success(TextField(d, if offset < f.caret then f.caret - 1 else f.caret))
  }

  /** No edit the filter lets through makes the nickname longer than five. */
  lemma NicknameNeverExceedsLimit(doc: string, offset: int, length: int, s: string)
    requires |doc| <= MAX_CHARACTERS
    ensures var r := FilterInsert(doc, offset, s); r.Success? ==> |r.value| <= MAX_CHARACTERS
    ensures var r := FilterReplace(doc, offset, length, s); r.Success? ==> |r.value| <= MAX_CHARACTERS
    ensures var r := FilterRemove(doc, offset, length); r.Success? ==> |r.value| <= MAX_CHARACTERS
  {
  }
}

=== FILE: scroll_login.dfy ===
/** The saved-games list (src/View/ScrollLogin.java): a cursor that moves
    within the panels built for the users. The number of panels is fixed
    when the panels are built, which happens only for a non-empty list. */
module ScrollLogin {
  import opened Wrappers

  datatype Login = Login(selectedUser: int, labelCount: int)

  /** The cursor lies on a panel, or on 0 when there is none. */
  predicate Valid(l: Login)
  {
    0 <= l.labelCount && 0 <= l.selectedUser && (l.selectedUser == 0 || l.selectedUser < l.labelCount)
  }

  /** The constructor sizes the panel array after the list. */
  function NewLogin(count: nat): (l: Login)
    ensures Valid(l) && l.selectedUser == 0 && l.labelCount == count
  {
    Login(0, count)
  }

  /** `setUsers`: the cursor returns to the top; the panel array is rebuilt
      only when the new list is non-empty. */
  function SetUsers(l: Login, count: nat): (r: Login)
    requires Valid(l)
    ensures Valid(r) && r.selectedUser == 0
    ensures count > 0 ==> r.labelCount == count
    ensures count == 0 ==> r.labelCount == l.labelCount
  {
    Login(0, if count > 0 then count else l.labelCount)
  }

  function MoveSelectionUp(l: Login): (r: Login)
    requires Valid(l)
    ensures Valid(r) && r.labelCount == l.labelCount
    ensures r.selectedUser <= l.selectedUser
    ensures r.selectedUser != l.selectedUser <==> l.selectedUser > 0
  {
    if l.selectedUser > 0 then l.(selectedUser := l.selectedUser - 1) else l
  }

  function MoveSelectionDown(l: Login): (r: Login)
    requires Valid(l)
    ensures Valid(r) && r.labelCount == l.labelCount
    ensures r.selectedUser >= l.selectedUser
    ensures r.selectedUser != l.selectedUser <==> l.selectedUser < l.labelCount - 1
  {
    if l.selectedUser < l.labelCount - 1 then l.(selectedUser := l.selectedUser + 1) else l
  }

  /** A move that happened is undone by the opposite move. */
  lemma MovesUndo(l: Login)
    requires Valid(l)
    ensures MoveSelectionDown(l) != l ==> MoveSelectionUp(MoveSelectionDown(l)) == l
    ensures MoveSelectionUp(l) != l ==> MoveSelectionDown(MoveSelectionUp(l)) == l
  {
  }

  /** `getSelectedUser`: `users.get(selectedUser)`, which throws outside
      the list. It never yields a missing user. */
  function SelectedUser<T>(l: Login, users: seq<T>): (r: Result<T>)
    ensures r.Success? <==> 0 <= l.selectedUser < |users|
    ensures r.Success? ==> r.value == users[l.selectedUser]
    ensures r.Failure? ==> r.error == IndexOutOfBounds(l.selectedUser)
  {
    if 0 <= l.selectedUser < |users| then Success(users[l.selectedUser]) else Failure(IndexOutOfBounds(l.selectedUser))
  }

  /** With panels built for the current list, every reachable cursor
      selects a user; on an empty list the selection always fails. */
  lemma SelectionSucceedsIffUsers<T>(l: Login, users: seq<T>)
    requires Valid(l)
    requires l.labelCount <= |users|
    ensures SelectedUser(l, users).Success? <==> |users| > 0
  {
  }
}

=== FILE: selection.dfy ===
/** The wrap-around cursor that MenuPanel and RegisterPanel share: a
    position in [0, n) that moves one step up or down modulo the number of
    entries, which in both panels is the length of a three-element array. */
module Selection {

  /** `(s - 1 + n) % n`; the operands are non-negative, so Java's `%`
      and Dafny's agree here. */
  function CycleUp(s: int, n: int): (r: int)
    requires 0 <= s < n
    ensures 0 <= r < n
    ensures s == 0 ==> r == n - 1
    ensures s > 0 ==> r == s - 1
  {
    (s - 1 + n) % n
  }

  /** `(s + 1) % n`. */
  function CycleDown(s: int, n: int): (r: int)
    requires 0 <= s < n
    ensures 0 <= r < n
    ensures s == n - 1 ==> r == 0
    ensures s < n - 1 ==> r == s + 1
  {
    (s + 1) % n
  }

  lemma CycleInverse(s: int, n: int)
    requires 0 <= s < n
    ensures CycleDown(CycleUp(s, n), n) == s
    ensures CycleUp(CycleDown(s, n), n) == s
  {
  }
}

=== FILE: user_database.dfy ===
/** UserDatabase: the one-line-per-user text format (formatUser and
    parseUser, with Java's Integer.parseInt, String.join and String.split
    spelled out), loading with its id counter, and the list operations.
    Reading and writing the file itself is left to the caller: a file is
    given as its lines. */
module UserDatabase {
  import opened Wrappers
  import opened Users

  predicate IsDigit(c: char) { '0' <= c <= '9' }

  function DigitValue(c: char): (d: nat)
    requires IsDigit(c)
    ensures d < 10
  {
    (c as int) - ('0' as int)
  }

  function DigitChar(d: nat): (c: char)
    requires d < 10
    ensures IsDigit(c) && DigitValue(c) == d
  {
    (('0' as int) + d) as char
  }

  predicate AllDigits(s: string) { forall i :: 0 <= i < |s| ==> IsDigit(s[i]) }

  /** The decimal digits of a natural number, without leading zeros. */
  function NatToString(n: nat): (s: string)
    ensures |s| >= 1 && AllDigits(s)
    ensures |s| > 1 ==> s[0] != '0'
    decreases n
  {
    if n < 10 then [DigitChar(n)] else NatToString(n / 10) + [DigitChar(n % 10)]
  }

  /** The value of a string of decimal digits. */
  function DigitsValue(s: string): nat
    requires AllDigits(s)
    decreases |s|
  {
    if |s| == 0 then 0 else DigitsValue(s[..|s| - 1]) * 10 + DigitValue(s[|s| - 1])
  }

  lemma {:induction false} DigitsRoundTrip(n: nat)
    ensures DigitsValue(NatToString(n)) == n
    decreases n
  {
    if n >= 10 {
      var s := NatToString(n);
      assert s[..|s| - 1] == NatToString(n / 10);
      DigitsRoundTrip(n / 10);
    }
  }

  /** String.valueOf(int). */
  function IntToString(i: int): (s: string)
    ensures |s| >= 1
    ensures forall k :: 0 <= k < |s| ==> IsDigit(s[k]) || (k == 0 && s[k] == '-')
    ensures s[0] == '-' <==> i < 0
  {
    if i < 0 then "-" + NatToString(-i) else NatToString(i)
  }

  /** An optional sign and at least one ASCII digit. */
  function SignedDigits(s: string): (r: Option<int>)
  {
    if |s| > 0 && (s[0] == '-' || s[0] == '+') then
      var body := s[1..];
      if |body| > 0 && AllDigits(body) then
        var v: int := DigitsValue(body);
        Some(if s[0] == '-' then -v else v)
      else None
    else if |s| > 0 && AllDigits(s) then Some(DigitsValue(s))
    else None
  }

  /** Integer.parseInt: an optional sign, at least one digit, and a value in
      the int range; anything else is a NumberFormatException (None). */
  function ParseInt(s: string): (r: Option<int>)
    ensures r.Some? ==> InIntRange(r.value) && |s| >= 1
    ensures r.Some? ==> forall k :: 0 <= k < |s| ==> IsDigit(s[k]) || (k == 0 && (s[k] == '-' || s[k] == '+'))
    ensures r.Some? ==> exists k :: 0 <= k < |s| && IsDigit(s[k])
  {
    var v := SignedDigits(s);
    if v.Some? && InIntRange(v.value) then
      assert IsDigit(s[|s| - 1]);
      v
    else None
  }

  /** Every int written out parses back to itself. */
  lemma ParseIntRoundTrip(i: int)
    requires InIntRange(i)
    ensures ParseInt(IntToString(i)) == Some(i)
  {
    if i < 0 {
      var s := IntToString(i);
      assert s[1..] == NatToString(-i);
      DigitsRoundTrip(-i);
    } else {
      DigitsRoundTrip(i);
    }
  }

  /** Values outside the int range, and malformed text, are refused. */
  lemma ParseIntRefuses(i: int)
    requires !InIntRange(i)
    ensures ParseInt(IntToString(i)) == None
    ensures ParseInt("") == None && ParseInt("-") == None && ParseInt("+") == None
    ensures ParseInt("1,2") == None
  {
    var s := IntToString(i);
    if i < 0 {
      assert s[1..] == NatToString(-i);
      DigitsRoundTrip(-i);
    } else {
      DigitsRoundTrip(i);
    }
    assert !IsDigit(','); 
    assert !AllDigits("1,2") by { assert "1,2"[1] == ','; }
  }

  /** String.join(",", parts). */
  function Join(parts: seq<string>): string
    decreases |parts|
  {
    if |parts| == 0 then "" else if |parts| == 1 then parts[0] else parts[0] + "," + Join(parts[1..])
  }

  /** Splitting at every comma, keeping every empty piece. */
  function SplitAll(s: string): (r: seq<string>)
    ensures |r| >= 1
    ensures forall i :: 0 <= i < |r| ==> ',' !in r[i]
    decreases |s|
  {
    if |s| == 0 then [""]
    else
      var rest := SplitAll(s[1..]);
      if s[0] == ',' then [""] + rest else [[s[0]] + rest[0]] + rest[1..]
  }

  function DropTrailingEmpty(parts: seq<string>): (r: seq<string>)
    ensures |r| <= |parts| && r == parts[..|r|]
    ensures |r| > 0 ==> r[|r| - 1] != ""
    ensures forall i :: |r| <= i < |parts| ==> parts[i] == ""
    decreases |parts|
  {
    if |parts| > 0 && parts[|parts| - 1] == "" then DropTrailingEmpty(parts[..|parts| - 1]) else parts
  }

  /** String.split(","): with no comma the whole string; otherwise every
      piece between commas, trailing empty pieces dropped. */
  function Split(s: string): (r: seq<string>)
    ensures ',' !in s ==> r == [s]
    ensures forall i :: 0 <= i < |r| ==> ',' !in r[i]
    ensures ',' in s && |r| > 0 ==> r[|r| - 1] != ""
  {
    if ',' !in s then [s] else DropTrailingEmpty(SplitAll(s))
  }

  /** Joining the pieces gives back the string. */
  lemma {:induction false} JoinSplitAll(s: string)
    ensures Join(SplitAll(s)) == s
    decreases |s|
  {
    if |s| > 0 {
      var rest := SplitAll(s[1..]);
      JoinSplitAll(s[1..]);
      if s[0] == ',' {
        assert ([""] + rest)[1..] == rest;
      } else {
        var r := [[s[0]] + rest[0]] + rest[1..];
        if |rest| > 1 {
          assert r[1..] == rest[1..];
          assert Join(rest) == rest[0] + "," + Join(rest[1..]);
        }
      }
      assert s == [s[0]] + s[1..];
    }
  }

  lemma {:induction false} SplitAllCommaFree(p: string)
    requires ',' !in p
    ensures SplitAll(p) == [p]
    decreases |p|
  {
    if |p| > 0 {
      SplitAllCommaFree(p[1..]);
      assert p == [p[0]] + p[1..];
    }
  }

  lemma {:induction false} SplitAllPrefix(p: string, t: string)
    requires ',' !in p
    ensures SplitAll(p + "," + t) == [p] + SplitAll(t)
    decreases |p|
  {
    var s := p + "," + t;
    if |p| == 0 {
      assert s[1..] == t;
    } else {
      assert s[1..] == p[1..] + "," + t;
      SplitAllPrefix(p[1..], t);
      assert p == [p[0]] + p[1..];
    }
  }

  /** Splitting a join of comma-free pieces gives the pieces back. */
  lemma {:induction false} SplitAllJoin(parts: seq<string>)
    requires |parts| >= 1
    requires forall i :: 0 <= i < |parts| ==> ',' !in parts[i]
    ensures SplitAll(Join(parts)) == parts
    decreases |parts|
  {
    if |parts| == 1 {
      SplitAllCommaFree(parts[0]);
    } else {
      SplitAllJoin(parts[1..]);
      SplitAllPrefix(parts[0], Join(parts[1..]));
      assert parts == [parts[0]] + parts[1..];
    }
  }

  /** Java's split undoes String.join for two or more comma-free pieces
      whose last piece is not empty. */
  lemma SplitJoin(parts: seq<string>)
    requires |parts| >= 2 && parts[|parts| - 1] != ""
    requires forall i :: 0 <= i < |parts| ==> ',' !in parts[i]
    ensures Split(Join(parts)) == parts
  {
    SplitAllJoin(parts);
    assert ',' in Join(parts) by {
      assert Join(parts) == parts[0] + "," + Join(parts[1..]);
      assert Join(parts)[|parts[0]|] == ',';
    }
  }

  /** The text before the first '.', and what follows it if there is one. */
  function SplitAtDot(s: string): (r: (string, Option<string>))
    ensures '.' !in r.0
    decreases |s|
  {
    if |s| == 0 then (s, None)
    else if s[0] == '.' then ("", Some(s[1..]))
    else var t := SplitAtDot(s[1..]); ([s[0]] + t.0, t.1)
  }

  lemma {:induction false} SplitAtDotAfter(a: string, z: string)
    requires '.' !in a
    ensures SplitAtDot(a + "." + z) == (a, Some(z))
    decreases |a|
  {
    var s := a + "." + z;
    if |a| == 0 {
      assert s[1..] == z;
    } else {
      assert s[1..] == a[1..] + "." + z;
      SplitAtDotAfter(a[1..], z);
      assert a == [a[0]] + a[1..];
    }
  }

  predicate AllZeros(s: string) { forall i :: 0 <= i < |s| ==> s[i] == '0' }

  /** Double.parseDouble, on the whole numbers it meets here: a signed
      integer, optionally followed by a point and zeros. */
  function ParseLevel(s: string): (r: Option<int>)
    ensures r.Some? ==> SignedDigits(SplitAtDot(s).0) == r
    ensures r.Some? ==> SplitAtDot(s).1.None? || AllZeros(SplitAtDot(s).1.value)
  {
    var (a, frac) := SplitAtDot(s);
    var v := SignedDigits(a);
    if v.Some? && (frac.None? || AllZeros(frac.value)) then v else None
  }

  /** String.valueOf(double) of a whole number whose magnitude is below
      10^7; from 10^7 on Java writes scientific notation, which is not
      produced here. */
  function FormatLevel(level: int): (s: string)
    ensures |s| >= 3 && ',' !in s && s[|s| - 1] == '0'
  {
    IntToString(level) + ".0"
  }

  lemma ParseLevelRoundTrip(level: int)
    ensures ParseLevel(FormatLevel(level)) == Some(level)
  {
    var a := IntToString(level);
    assert '.' !in a by {
      forall k | 0 <= k < |a| ensures a[k] != '.' {
      }
    }
    assert FormatLevel(level) == a + "." + "0";
    SplitAtDotAfter(a, "0");
    assert AllZeros("0");
    if level < 0 {
      assert a[1..] == NatToString(-level);
      DigitsRoundTrip(-level);
      assert SignedDigits(a) == Some(level);
    } else {
      DigitsRoundTrip(level);
      assert SignedDigits(a) == Some(level);
    }
  }

  /** The eight fields of a stored line, in order. */
  function Fields(u: User): (f: seq<string>)
    ensures |f| == 8
  {
    [IntToString(u.id), u.nickname, u.avatar, IntToString(u.playedGames), IntToString(u.wonGames),
     IntToString(u.lostGames), FormatLevel(u.level), IntToString(u.highestScore)]
  }

  /** The fields of an account whose nickname and avatar carry no comma
      survive a join and a split. */
  lemma FieldsSurviveSplit(u: User)
    requires ',' !in u.nickname && ',' !in u.avatar
    ensures Split(Join(Fields(u))) == Fields(u)
  {
    var f := Fields(u);
    forall i | 0 <= i < |f| ensures ',' !in f[i] {
      if i == 0 || i == 3 || i == 4 || i == 5 || i == 7 {
        var t := f[i];
        assert forall k :: 0 <= k < |t| ==> t[k] != ',';
      }
    }
    SplitJoin(f);
  }

  /** UserDatabase.formatUser: the fields in the order id, nickname, avatar,
      played, won, lost, level, highest score, separated by commas. */
  function FormatUser(u: User): (s: string)
    ensures ',' !in u.nickname && ',' !in u.avatar ==> Split(s) == Fields(u)
  {
    if ',' !in u.nickname && ',' !in u.avatar then FieldsSurviveSplit(u); Join(Fields(u))
    else Join(Fields(u))
  }

  /** UserDatabase.parseUser. The User constructor takes the running id
      counter as the new user's id; the counter is then set to the stored id
      plus one, in int arithmetic. On failure nothing changes. */
  function ParseUser(line: string, counter: int): (r: Option<(User, int)>)
    ensures |Split(line)| != 8 ==> r.None?
    ensures r.Some? ==> r.value.0.id == counter
    ensures r.Some? ==> ParseInt(Split(line)[0]).Some? && r.value.1 == Inc32(ParseInt(Split(line)[0]).value)
    ensures r.Some? ==> r.value.0.nickname == Split(line)[1] && r.value.0.avatar == Split(line)[2]
    ensures r.Some? ==> Some(r.value.0.highestScore) == ParseInt(Split(line)[7])
  {
    var parts := Split(line);
    if |parts| != 8 then None
    else
      var id := ParseInt(parts[0]);
      var played := ParseInt(parts[3]);
      var won := ParseInt(parts[4]);
      var lost := ParseInt(parts[5]);
      var level := ParseLevel(parts[6]);
      var best := ParseInt(parts[7]);
      if id.Some? && played.Some? && won.Some? && lost.Some? && level.Some? && best.Some? then
        Some((User(counter, parts[2], parts[1], played.value, won.value, lost.value, level.value, best.value),
              Inc32(id.value)))
      else None
  }

  /** What a stored account may hold for its line to read back. */
  predicate Storable(u: User)
  {
    ',' !in u.nickname && ',' !in u.avatar &&
    InIntRange(u.id) && InIntRange(u.playedGames) && InIntRange(u.wonGames) &&
    InIntRange(u.lostGames) && InIntRange(u.highestScore)
  }

  /** Reading back a written line restores every field except the id, which
      is the counter's value; the counter moves one past the stored id, or
      round to the smallest int when the stored id is the largest. */
  lemma ParseFormatRoundTrip(u: User, counter: int)
    requires Storable(u)
    ensures ParseUser(FormatUser(u), counter) == Some((u.(id := counter), Inc32(u.id)))
  {
    var f := Fields(u);
    assert Split(FormatUser(u)) == f;
    ParseIntRoundTrip(u.id);
    ParseIntRoundTrip(u.playedGames);
    ParseIntRoundTrip(u.wonGames);
    ParseIntRoundTrip(u.lostGames);
    ParseIntRoundTrip(u.highestScore);
    ParseLevelRoundTrip(u.level);
  }

  /** A line with a ninth field is refused and leaves the counter alone. */
  lemma ExtraFieldRefused(u: User, extra: string, counter: int)
    requires Storable(u) && ',' !in extra && extra != ""
    ensures ParseUser(FormatUser(u) + "," + extra, counter) == None
  {
    var f := Fields(u) + [extra];
    assert forall i :: 0 <= i < 8 ==> f[i] == Fields(u)[i];
    assert forall i :: 0 <= i < |f| ==> ',' !in f[i] by {
      assert Split(FormatUser(u)) == Fields(u);
    }
    assert FormatUser(u) == Join(Fields(u));
    JoinAppend(Fields(u), extra);
    SplitJoin(f);
  }

  lemma {:induction false} JoinAppend(parts: seq<string>, extra: string)
    requires |parts| >= 1
    ensures Join(parts + [extra]) == Join(parts) + "," + extra
    decreases |parts|
  {
    if |parts| > 1 {
      assert (parts + [extra])[1..] == parts[1..] + [extra];
      JoinAppend(parts[1..], extra);
    }
  }

  /** The loop of loadUsersData over a file's lines: the accounts read, in
      order, and the highest id assigned. */
  function ParseLines(lines: seq<string>, counter: int, highest: int): (r: (seq<User>, int))
    ensures r.1 >= highest
    ensures forall i :: 0 <= i < |r.0| ==> r.0[i].id <= r.1
    ensures |r.0| <= |lines|
    decreases |lines|
  {
    if |lines| == 0 then ([], highest)
    else
      match ParseUser(lines[0], counter)
      case None => ParseLines(lines[1..], counter, highest)
      case Some(p) =>
        var rest := ParseLines(lines[1..], p.1, if p.0.id > highest then p.0.id else highest);
        ([p.0] + rest.0, rest.1)
  }

  /** The highest id the load loop reports is where it started or one of
      the ids it assigned. */
  lemma {:induction false} ParseLinesHighest(lines: seq<string>, counter: int, highest: int)
    ensures var r := ParseLines(lines, counter, highest);
            r.1 == highest || exists i :: 0 <= i < |r.0| && r.0[i].id == r.1
    decreases |lines|
  {
    if |lines| > 0 {
      var q := ParseUser(lines[0], counter);
      if q.None? {
        ParseLinesHighest(lines[1..], counter, highest);
      } else {
        var p := q.value;
        var h := if p.0.id > highest then p.0.id else highest;
        ParseLinesHighest(lines[1..], p.1, h);
        var rest := ParseLines(lines[1..], p.1, h);
        assert ParseLines(lines, counter, highest) == ([p.0] + rest.0, rest.1);
        HighestStep(p.0, rest, highest);
      }
    }
  }

  /** One accepted account in front of the rest of the loop. */
  lemma HighestStep(u: User, rest: (seq<User>, int), highest: int)
    requires var h := if u.id > highest then u.id else highest;
             rest.1 == h || exists i :: 0 <= i < |rest.0| && rest.0[i].id == rest.1
    ensures var r := ([u] + rest.0, rest.1);
            r.1 == highest || exists i :: 0 <= i < |r.0| && r.0[i].id == r.1
  {
    var r := ([u] + rest.0, rest.1);
    if exists i :: 0 <= i < |rest.0| && rest.0[i].id == rest.1 {
      var k :| 0 <= k < |rest.0| && rest.0[k].id == rest.1;
      assert r.0[k + 1].id == r.1;
    } else if rest.1 == u.id {
      assert r.0[0].id == r.1;
    }
  }

  /** From a counter in the int range every id the load loop assigns is an
      int. */
  lemma {:induction false} ParseLinesIdsInRange(lines: seq<string>, counter: int, highest: int)
    ensures InIntRange(counter) ==> forall u | u in ParseLines(lines, counter, highest).0 :: InIntRange(u.id)
    decreases |lines|
  {
    if |lines| > 0 {
      var q := ParseUser(lines[0], counter);
      if q.None? {
        ParseLinesIdsInRange(lines[1..], counter, highest);
      } else {
        var p := q.value;
        var h := if p.0.id > highest then p.0.id else highest;
        ParseLinesIdsInRange(lines[1..], p.1, h);
        assert ParseLines(lines, counter, highest).0 == [p.0] + ParseLines(lines[1..], p.1, h).0;
      }
    }
  }

  /** UserDatabase.loadUsersData with the file given as its lines (None when
      it does not exist): a missing or empty file changes nothing; otherwise
      the accounts are replaced by those read and the id counter is set one
      past the highest id assigned (at least 0), in int arithmetic: past
      every id while they all stay below the largest int, round to the
      smallest int once one of them is the largest. */
  function LoadUsers(file: Option<seq<string>>, users: seq<User>, counter: int): (r: (seq<User>, int))
    ensures file.None? || |file.value| == 0 ==> r == (users, counter)
    ensures file.Some? && |file.value| > 0 ==> InIntRange(r.1)
    ensures file.Some? && |file.value| > 0 && (forall i :: 0 <= i < |r.0| ==> r.0[i].id < INT_MAX) ==>
              r.1 >= 1 && forall i :: 0 <= i < |r.0| ==> r.0[i].id < r.1
    ensures file.Some? && |file.value| > 0 && InIntRange(counter) && (exists i :: 0 <= i < |r.0| && r.0[i].id == INT_MAX) ==>
              r.1 == INT_MIN
  {
    if file.None? || |file.value| == 0 then (users, counter)
    else
      var p := ParseLines(file.value, counter, 0);
      ParseLinesHighest(file.value, counter, 0);
      ParseLinesIdsInRange(file.value, counter, 0);
      (p.0, Inc32(p.1))
  }

  /** saveUsersData: one formatted line per account. */
  function SaveUsers(users: seq<User>): (lines: seq<string>)
    ensures |lines| == |users|
    ensures forall i :: 0 <= i < |users| ==> lines[i] == FormatUser(users[i])
  {
    seq(|users|, i requires 0 <= i < |users| => FormatUser(users[i]))
  }

  /** The ids a reload assigns: the first account takes the counter, each
      later one the stored id of the account before it plus one, in int
      arithmetic. */
  function Renumber(users: seq<User>, counter: int): (r: seq<User>)
    ensures |r| == |users|
    decreases |users|
  {
    if |users| == 0 then [] else [users[0].(id := counter)] + Renumber(users[1..], Inc32(users[0].id))
  }

  /** One step of the load loop over a line that parses. */
  lemma ParseLinesStep(lines: seq<string>, counter: int, highest: int, u: User, next: int)
    requires |lines| > 0 && ParseUser(lines[0], counter) == Some((u, next))
    ensures ParseLines(lines, counter, highest).0 ==
            [u] + ParseLines(lines[1..], next, if u.id > highest then u.id else highest).0
  {
  }

  lemma SavedHead(users: seq<User>, counter: int)
    requires |users| > 0 && Storable(users[0])
    ensures ParseUser(SaveUsers(users)[0], counter) == Some((users[0].(id := counter), Inc32(users[0].id)))
    ensures SaveUsers(users)[1..] == SaveUsers(users[1..])
  {
    ParseFormatRoundTrip(users[0], counter);
  }

  lemma {:induction false} ParseSavedLines(users: seq<User>, counter: int, highest: int)
    requires forall i :: 0 <= i < |users| ==> Storable(users[i])
    ensures ParseLines(SaveUsers(users), counter, highest).0 == Renumber(users, counter)
    decreases |users|
  {
    if |users| > 0 {
      var lines := SaveUsers(users);
      SavedHead(users, counter);
      var u := users[0].(id := counter);
      ParseLinesStep(lines, counter, highest, u, Inc32(users[0].id));
      var h := if u.id > highest then u.id else highest;
      ParseSavedLines(users[1..], Inc32(users[0].id), h);
    }
  }

  /** Saving and reloading keeps every account, in order, with every field
      but the id; ids come back unchanged exactly when the stored ids run
      consecutively from the counter. */
  lemma SaveLoadRoundTrip(users: seq<User>, counter: int)
    requires |users| > 0
    requires forall i :: 0 <= i < |users| ==> Storable(users[i])
    ensures LoadUsers(Some(SaveUsers(users)), [], counter).0 == Renumber(users, counter)
  {
    ParseSavedLines(users, counter, 0);
  }

  lemma {:induction false} RenumberConsecutive(users: seq<User>, counter: int)
    requires forall i :: 0 <= i < |users| ==> users[i].id == counter + i && InIntRange(users[i].id)
    ensures Renumber(users, counter) == users
    decreases |users|
  {
    if |users| > 0 {
      if |users| > 1 {
        assert users[1].id == counter + 1;
      }
      RenumberConsecutive(users[1..], counter + 1);
      assert users == [users[0]] + users[1..];
    }
  }

  /** UserDatabase.addUser. */
  function AddUser(users: seq<User>, u: User): (r: seq<User>)
    ensures |r| == |users| + 1 && r[|users|] == u && r[..|users|] == users
  {
    users + [u]
  }

  /** The position of the first account with this id. */
  function IndexOfId(users: seq<User>, id: int): (r: Option<nat>)
    ensures r.Some? ==> r.value < |users| && users[r.value].id == id
                        && forall j :: 0 <= j < r.value ==> users[j].id != id
    ensures r.None? <==> forall j :: 0 <= j < |users| ==> users[j].id != id
    decreases |users|
  {
    if |users| == 0 then None
    else if users[0].id == id then Some(0)
    else match IndexOfId(users[1..], id)
      case None => None
      case Some(k) => Some(k + 1)
  }

  /** UserDatabase.getUserById: the first account with this id, if any. */
  function GetUserById(users: seq<User>, id: int): (r: Option<User>)
    ensures r.Some? ==> r.value.id == id && r.value in users
    ensures r.None? <==> forall j :: 0 <= j < |users| ==> users[j].id != id
    ensures r.Some? ==> exists k :: 0 <= k < |users| && users[k] == r.value &&
                          forall j :: 0 <= j < k ==> users[j].id != id
  {
    match IndexOfId(users, id)
    case None => None
    case Some(k) => Some(users[k])
  }

  /** UserDatabase.removeUserById: the first account with this id goes,
      everything else stays in order. */
  function RemoveUserById(users: seq<User>, id: int): (r: seq<User>)
    ensures IndexOfId(users, id).None? ==> r == users
    ensures IndexOfId(users, id).Some? ==>
              var k := IndexOfId(users, id).value; r == users[..k] + users[k + 1..]
    ensures |r| == |users| || |r| == |users| - 1
  {
    match IndexOfId(users, id)
    case None => users
    case Some(k) => users[..k] + users[k + 1..]
  }

  /** Adding an account with a fresh id and removing it again restores the
      list; while it is there it is found by its id. */
  lemma AddFindRemove(users: seq<User>, u: User)
    requires forall j :: 0 <= j < |users| ==> users[j].id != u.id
    ensures GetUserById(AddUser(users, u), u.id) == Some(u)
    ensures RemoveUserById(AddUser(users, u), u.id) == users
  {
    var r := AddUser(users, u);
    assert IndexOfId(r, u.id) == Some(|users|);
  }
}

=== FILE: users.dfy ===
/** User: a player's account record and its statistics counters. */
module Users {

  /** `level` is a double in the source; every value the game itself
      produces is a whole number, which is what is kept here. */
  datatype User = User(
    id: int, avatar: string, nickname: string,
    playedGames: int, wonGames: int, lostGames: int,
    level: int, highestScore: int)

  const INT_MIN: int := -0x8000_0000
  const INT_MAX: int := 0x7FFF_FFFF

  /** The values of a Java int. */
  predicate InIntRange(i: int) { INT_MIN <= i <= INT_MAX }

  /** Java's int arithmetic: the exact value taken modulo 2^32 and read back
      into the int range. */
  function Wrap32(n: int): (r: int)
    ensures InIntRange(r)
    ensures (r - n) % 0x1_0000_0000 == 0
  {
    (n - INT_MIN) % 0x1_0000_0000 + INT_MIN
  }

  /** Java's `++` on an int: one more, except that the largest int steps
      round to the smallest. */
  function Inc32(n: int): (r: int)
    ensures InIntRange(r)
    ensures InIntRange(n) && n < INT_MAX ==> r == n + 1
    ensures n == INT_MAX ==> r == INT_MIN
  {
    Wrap32(n + 1)
  }

  /** The User constructor: the id is taken from the running counter, which
      then moves on as a Java int. */
  function NewUser(nickname: string, avatar: string, counter: int): (r: (User, int))
    ensures r.0.id == counter && r.1 == Inc32(counter)
    ensures r.0.nickname == nickname && r.0.avatar == avatar
    ensures r.0.playedGames == 0 && r.0.wonGames == 0 && r.0.lostGames == 0
    ensures r.0.level == 1 && r.0.highestScore == 0
  {
    (User(counter, avatar, nickname, 0, 0, 0, 1, 0), Inc32(counter))
  }

  /** User.levelUp. */
  function LevelUp(u: User): (r: User)
    ensures r.level == u.level + 1 && r == u.(level := r.level)
  {
    u.(level := u.level + 1)
  }

  /** The level-up rule shared by both increments: every tenth game played. */
  function AfterGame(u: User): (r: User)
    ensures r.playedGames == u.playedGames
    ensures r.level == u.level + (if u.playedGames % 10 == 0 then 1 else 0)
  {
    if u.playedGames % 10 == 0 then LevelUp(u) else u
  }

  /** User.incrementWonGames. */
  function IncrementWonGames(u: User): (r: User)
    ensures r.wonGames == Inc32(u.wonGames) && r.playedGames == Inc32(u.playedGames)
    ensures r.lostGames == u.lostGames && r.highestScore == u.highestScore
    ensures r.id == u.id && r.nickname == u.nickname && r.avatar == u.avatar
    ensures r.level == u.level + (if r.playedGames % 10 == 0 then 1 else 0)
  {
    AfterGame(u.(wonGames := Inc32(u.wonGames), playedGames := Inc32(u.playedGames)))
  }

  /** User.incrementLostGames. */
  function IncrementLostGames(u: User): (r: User)
    ensures r.lostGames == Inc32(u.lostGames) && r.playedGames == Inc32(u.playedGames)
    ensures r.wonGames == u.wonGames && r.highestScore == u.highestScore
    ensures r.id == u.id && r.nickname == u.nickname && r.avatar == u.avatar
    ensures r.level == u.level + (if r.playedGames % 10 == 0 then 1 else 0)
  {
    AfterGame(u.(lostGames := Inc32(u.lostGames), playedGames := Inc32(u.playedGames)))
  }

  /** The bookkeeping at the end of a game: keep the best score. */
  function RecordScore(u: User, points: int): (r: User)
    ensures r.highestScore >= u.highestScore && r.highestScore >= points
    ensures r.highestScore == u.highestScore || r.highestScore == points
    ensures r == u.(highestScore := r.highestScore)
  {
    if u.highestScore < points then u.(highestScore := points) else u
  }

  /** The statistics of an account that has only ever been updated by the
      game: every game is either won or lost, and the level is one more than
      the number of complete tens of games. */
  predicate Consistent(u: User)
  {
    u.playedGames >= 0 && u.wonGames >= 0 && u.lostGames >= 0 &&
    u.playedGames == u.wonGames + u.lostGames && u.level == 1 + u.playedGames / 10
  }

  lemma NewUserConsistent(nickname: string, avatar: string, counter: int)
    ensures Consistent(NewUser(nickname, avatar, counter).0)
  {
  }

  /** Both increments keep the statistics consistent, as long as the
      played counter has not reached the largest int. */
  lemma IncrementsKeepConsistent(u: User)
    requires Consistent(u) && u.playedGames < INT_MAX
    ensures Consistent(IncrementWonGames(u)) && Consistent(IncrementLostGames(u))
  {
    var p := u.playedGames;
    assert (p + 1) / 10 == p / 10 + (if (p + 1) % 10 == 0 then 1 else 0);
  }

  /** At the largest int the played counter wraps to the smallest, and the
      statistics stop being consistent. */
  lemma IncrementAtMaxWraps(u: User)
    requires Consistent(u) && u.playedGames == INT_MAX
    ensures IncrementWonGames(u).playedGames == INT_MIN && !Consistent(IncrementWonGames(u))
    ensures IncrementLostGames(u).playedGames == INT_MIN && !Consistent(IncrementLostGames(u))
  {
  }

  /** The outcomes of a sequence of games, true for a win. */
  function Play(u: User, outcomes: seq<bool>): (r: User)
    decreases |outcomes|
  {
    if |outcomes| == 0 then u
    else Play(if outcomes[0] then IncrementWonGames(u) else IncrementLostGames(u), outcomes[1..])
  }

  function Wins(outcomes: seq<bool>): nat
  {
    if |outcomes| == 0 then 0 else (if outcomes[0] then 1 else 0) + Wins(outcomes[1..])
  }

  /** After any history of games that keeps the played counter within the
      int range, an account has played them all, won exactly the wins, lost
      the rest, and reached level 1 + games / 10. */
  lemma {:induction false} PlayRecordsHistory(u: User, outcomes: seq<bool>)
    requires Consistent(u) && u.playedGames + |outcomes| <= INT_MAX
    ensures Consistent(Play(u, outcomes))
    ensures Play(u, outcomes).playedGames == u.playedGames + |outcomes|
    ensures Play(u, outcomes).wonGames == u.wonGames + Wins(outcomes)
    ensures Play(u, outcomes).lostGames == u.lostGames + |outcomes| - Wins(outcomes)
    ensures Play(u, outcomes).level == 1 + (u.playedGames + |outcomes|) / 10
    ensures Play(u, outcomes).id == u.id && Play(u, outcomes).nickname == u.nickname
    decreases |outcomes|
  {
    if |outcomes| > 0 {
      var u' := if outcomes[0] then IncrementWonGames(u) else IncrementLostGames(u);
      IncrementsKeepConsistent(u);
      PlayRecordsHistory(u', outcomes[1..]);
    }
  }
}

=== FILE: utility.dfy ===
/** Model.Utility: the arena constants and the rejection sampler that places
    rewards. */
module Utility {
  import opened Wrappers
  import opened Geometry

  const WIDTH: int := 576
  const HEIGHT: int := 432
  const TILE_SIZE: int := 18

  /** A point drawn by `r.nextInt(WIDTH)`, `r.nextInt(HEIGHT)`. */
  type Spot = p: (int, int) | 0 <= p.0 < WIDTH && 0 <= p.1 < HEIGHT witness (0, 0)

  /** A spot is acceptable when no hitbox contains it. */
  predicate Free(hitboxes: seq<Rect>, p: Spot)
  {
    forall i :: 0 <= i < |hitboxes| ==> !Contains(hitboxes[i], p.0, p.1)
  }

  /** Utility.randomPosition, given the candidates the generator would draw,
      in order. The source loops until a candidate is acceptable; `None` means
      none of the supplied candidates is, so the source would still be
      sampling (and never returns if the arena is saturated). */
  function RandomPosition(hitboxes: seq<Rect>, candidates: seq<Spot>): (r: Option<Spot>)
    ensures r.Some? ==> Free(hitboxes, r.value)
    ensures r.Some? ==> exists k :: 0 <= k < |candidates| && candidates[k] == r.value &&
                          forall j :: 0 <= j < k ==> !Free(hitboxes, candidates[j])
    ensures r.None? <==> forall k :: 0 <= k < |candidates| ==> !Free(hitboxes, candidates[k])
  {
    if |candidates| == 0 then None
    else if Free(hitboxes, candidates[0]) then Some(candidates[0])
    else
      var rest := RandomPosition(hitboxes, candidates[1..]);
      assert forall k :: 1 <= k < |candidates| ==> candidates[k] == candidates[1..][k - 1];
      rest
  }

  /** The chosen point lies in the arena [0, WIDTH) x [0, HEIGHT). */
  lemma RandomPositionInArena(hitboxes: seq<Rect>, candidates: seq<Spot>)
    requires RandomPosition(hitboxes, candidates).Some?
    ensures var p := RandomPosition(hitboxes, candidates).value;
            0 <= p.0 < WIDTH && 0 <= p.1 < HEIGHT
  {
  }
}

=== FILE: world.dfy ===
/** The session the controller owns: the game objects, which Java shares by
    reference, live in a heap `heap` and are named by their index; the
    controller's lists hold such references. The same goes for user
    accounts: `store` holds every User object ever created, the database's
    list `users` and `currentUser` refer into it, because the ranking screen
    re-orders the database list in place while the current user stays the
    same object. Randomness comes from a `Dice` parameter whose draws are
    numbered by the session's counter `draws`. */
module World {
  import opened Wrappers
  import opened Geometry
  import opened GameObjects
  import Users
  import UserDatabase
  import MenuPanel
  import RegisterPanel
  import ScrollLogin
  import LevelMap
  import Enemies
  import PowerUps
  import Utility

  datatype GameState =
    StartState | MenuState | RegisterState | LoginState | Running | Pause | GameOver | Victory | Rank

  /** The random sources, as functions of the draw number: an enemy's
      `nextDouble() * 100`, the candidate spots `randomPosition` samples in
      turn, and the power-up type index. */
  datatype Dice = Dice(roll: nat -> Enemies.Roll, spots: nat -> seq<Utility.Spot>, kind: nat -> PowerUps.TypeIndex)

  datatype Session = Session(
    state: GameState,
    heap: seq<Obj>,
    player: Ref, walls: seq<Ref>, enemies: seq<Ref>, objects: seq<Ref>,
    currentLevel: int, points: int,
    levelChangeScheduled: bool, levelChangeDue: int,
    store: seq<Users.User>, users: seq<nat>, currentUser: Option<nat>, idCounter: int, saved: seq<string>,
    menu: MenuPanel.Menu, register: RegisterPanel.Register, login: ScrollLogin.Login,
    levelFiles: map<LevelMap.Level, seq<string>>,
    draws: nat)

  /** Dereference; a dangling reference, which a well-formed session never
      holds, reads as an inert wall. */
  function Get(s: Session, r: Ref): (o: Obj)
    ensures r < |s.heap| ==> o == s.heap[r]
  {
    if r < |s.heap| then s.heap[r] else NewWall(0.0, 0.0, TypeOne)
  }

  /** Overwrite the object behind `r`, and nothing else. */
  function Put(s: Session, r: Ref, o: Obj): (t: Session)
    ensures |t.heap| == |s.heap|
    ensures r < |s.heap| ==> Get(t, r) == o
    ensures forall q :: q != r ==> Get(t, q) == Get(s, q)
    ensures t == s.(heap := t.heap)
  {
    if r < |s.heap| then s.(heap := s.heap[r := o]) else s
  }

  /** Allocate fresh objects at the end of the heap. */
  function Alloc(s: Session, os: seq<Obj>): (r: (Session, seq<Ref>))
    ensures r.0.heap == s.heap + os && r.0 == s.(heap := r.0.heap)
    ensures |r.1| == |os| && forall i | 0 <= i < |os| :: r.1[i] == |s.heap| + i
    ensures forall i | 0 <= i < |os| :: Get(r.0, r.1[i]) == os[i]
  {
    (s.(heap := s.heap + os), seq(|os|, i => |s.heap| + i))
  }

  /** `getComponents()`: a fresh list of the player, the walls, the enemies
      and the other objects, in that order. */
  function Components(s: Session): (c: seq<Ref>)
    ensures |c| == 1 + |s.walls| + |s.enemies| + |s.objects|
    ensures c[0] == s.player
  {
    [s.player] + s.walls + s.enemies + s.objects
  }

  /** What every step of the game preserves of one object: its class, and
      a mark for destruction once set. */
  predicate Keeps(a: Obj, b: Obj)
  {
    ClassOf(a) == ClassOf(b) && (a.base.toDestroy ==> b.base.toDestroy)
  }

  /** Every existing object is kept as Keeps says; `b` may have allocated more. */
  predicate Extends(a: Session, b: Session)
  {
    |a.heap| <= |b.heap| && forall i | 0 <= i < |a.heap| :: Keeps(a.heap[i], b.heap[i])
  }

  /** No object was allocated, and every object is kept. */
  predicate SameClasses(a: Session, b: Session)
  {
    |a.heap| == |b.heap| && Extends(a, b)
  }

  lemma ExtendsTransitive(a: Session, b: Session, c: Session)
    requires Extends(a, b) && Extends(b, c)
    ensures Extends(a, c)
  {
  }

  lemma PutSameClass(s: Session, r: Ref, o: Obj)
    requires Keeps(Get(s, r), o)
    ensures SameClasses(s, Put(s, r, o))
  {
  }

  predicate Refers(s: Session, r: Ref) { r < |s.heap| }

  /** The lists hold references of the right kinds: the player, walls,
      enemies, and bubbles, boulders and power-ups. */
  predicate Wf(s: Session)
  {
    && Refers(s, s.player) && s.heap[s.player].kind.Player?
    && (forall r <- s.walls :: Refers(s, r) && s.heap[r].kind.Wall?)
    && (forall r <- s.enemies :: Refers(s, r) && s.heap[r].kind.Enemy?)
    && (forall r <- s.objects :: Refers(s, r) && (s.heap[r].kind.Bubble? || s.heap[r].kind.Boulder? || s.heap[r].kind.PowerUp?))
    && (s.currentUser.Some? ==> s.currentUser.value < |s.store|)
    && (forall u <- s.users :: u < |s.store|)
  }

  /** Well-formedness only depends on the classes and the lists. */
  lemma WfKeptBySameClasses(s: Session, t: Session)
    requires Wf(s) && SameClasses(s, t)
    requires t.player == s.player && t.walls == s.walls && t.enemies == s.enemies && t.objects == s.objects
    requires t.currentUser == s.currentUser && t.users == s.users && |t.store| == |s.store|
    ensures Wf(t)
  {
    assert ClassOf(t.heap[t.player]) == PlayerClass;
    forall r <- t.enemies ensures t.heap[r].kind.Enemy? {
      assert ClassOf(s.heap[r]) in {ZenChanClass, MightaClass, BlubbaClass};
    }
  }

  /** The database's list of users, as User values. */
  function DbUsers(s: Session): (us: seq<Users.User>)
    ensures |us| == |s.users|
  {
    seq(|s.users|, i requires 0 <= i < |s.users| => StoreGet(s.store, s.users[i]))
  }

  function StoreGet(store: seq<Users.User>, r: nat): Users.User
  {
    if r < |store| then store[r] else Users.User(0, "", "", 0, 0, 0, 1, 0)
  }

  /** `db.saveUsersData(file)`: the file now holds one formatted line per
      account of the database's list, in the list's order; nothing else
      changes. */
  function Save(s: Session): (t: Session)
    ensures t == s.(saved := t.saved)
    ensures |t.saved| == |s.users|
    ensures forall i :: 0 <= i < |s.users| ==> t.saved[i] == UserDatabase.FormatUser(StoreGet(s.store, s.users[i]))
    ensures t.saved == UserDatabase.SaveUsers(DbUsers(s))
  {
    s.(saved := UserDatabase.SaveUsers(DbUsers(s)))
  }

  /** The `equals` of GameObject: same class and same hitbox. */
  predicate SameAs(s: Session, a: Ref, b: Ref)
  {
    Equal(Get(s, a), Get(s, b))
  }

  /** `List.remove(Object)`: drops the first element equal to `self`, which
      need not be `self` itself, and keeps the others in order. */
  function RemoveFirstEqual(s: Session, others: seq<Ref>, self: Ref): (r: seq<Ref>)
    ensures (exists i | 0 <= i < |others| :: SameAs(s, others[i], self)) ==> |r| == |others| - 1
    ensures forall i | 0 <= i < |others| && SameAs(s, others[i], self) ::
              (forall j | 0 <= j < i :: !SameAs(s, others[j], self)) ==> r == others[..i] + others[i + 1..]
    ensures (forall i | 0 <= i < |others| :: !SameAs(s, others[i], self)) ==> r == others
    ensures forall q <- r :: q in others
  {
    if others == [] then []
    else if SameAs(s, others[0], self) then others[1..]
    else
      var rest := RemoveFirstEqual(s, others[1..], self);
      assert forall i | 1 <= i < |others| ::
        others[..i] + others[i + 1..] == [others[0]] + (others[1..][..i - 1] + others[1..][i..]);
      [others[0]] + rest
  }
}

=== FILE: wrappers.dfy ===
/** Failure-carrying values shared by the whole model: Java's `null` results
    and thrown exceptions become `None` and `Failure` here. */
module Wrappers {

  datatype Option<+T> = None | Some(value: T) {

    predicate IsFailure() {
      None?
    }

    function PropagateFailure<U>(): Option<U>
      requires None?
    {
      None
    }

    function Extract(): T
      requires Some?
    {
      value
    }
  }

  /** The exceptions of the modelled code that callers can observe. */
  datatype Error =
    | IllegalArgument(level: int)      // GameController.getLevelComponent
    | IndexOutOfBounds(index: int)     // List.get in ScrollLogin.getSelectedUser
    | BadLocation(offset: int)         // a text document edit outside the text

  datatype Result<+T> = Success(value: T) | Failure(error: Error) {

    predicate IsFailure() {
      Failure?
    }

    function PropagateFailure<U>(): Result<U>
      requires Failure?
    {
      Failure(error)
    }

    function Extract(): T
      requires Success?
    {
      value
    }
  }
}
